=== FILE: README.md ===
# Echo CRM core in Dafny

A model of the business core of the Echo CRM backend, a NestJS service on
Prisma. It covers the Kanban boards, the sales pipeline, the department tree,
roles and permissions with their two route guards, authentication with its
password hashing and user mapping, user management, pagination, chat, feedback,
support, notifications, user settings, the global exception filter, the
response interceptor and the CORS configuration.

The database is a set of immutable maps from id to row. Each service method is
a pure function from the state (plus its arguments) to a `Result` that carries
the new state and the method's answer, or the error the method raises. The
error values are `NotFound`, `BadRequest`, `Forbidden`, `Conflict`,
`Unauthorized`, and `StoreError` for a query the database itself refuses
(a unique index, a foreign key, a missing row in an `update`). Everything the
database or the environment decides is a parameter:

- ids it assigns;
- column defaults;
- the order in which `findMany` lists rows (`listed`, tied to the table by
  `Counting.Lists`);
- the key-derivation function and the salt of the password hash;
- the JWT signer;
- the clock.

Module layout, one module per file:

- `Wrappers`: `Option`, `Result`, the error kinds.
- `Strings`: `split`, `join`, `trim`, hex coding and the default string sort,
  as JavaScript defines them.
- `Counting`: distinct listings, tallies and sums.
- `Positions`: the ordered-scope engine shared by columns, cards and stages.
- `Hierarchy`: ancestry and depth in the department tree.
- One module per service: `Kanban`, `Sales`, `Departments`, `Accounts`,
  `Permissions`, `Roles`, `Password`, `UserMapper`, `Users`, `Auth`,
  `Pagination`, `Chat`, `Feedback`, `Support`, `Notifications`, `Settings`.
- `Schemas`: the regular expressions of the request schemas.
- `Http`: the exception filter and the interceptor.
- `Cors`: the CORS configuration.

## Model

| member | source | states |
|---|---|---|
| Positions.UpdateMany | src/kanban/kanban.service.ts:138-147 | a position `updateMany` changes only the positions of the rows of the filtered scope, each by the filter's shift; every other row and every row's data stay |
| Positions.Put | src/kanban/kanban.service.ts:148-153 | writing one row sets exactly that row and leaves every other row unchanged |
| Positions.Delete | src/kanban/kanban.service.ts:228 | deleting one row removes exactly that row |
| Positions.Insert | src/kanban/kanban.service.ts:135-154 | an insert opens the slot in its scope and stores the new row at the requested position; other scopes are untouched |
| Positions.MoveWithin | src/kanban/kanban.service.ts:187-223 | a move inside a scope to the current position changes nothing; otherwise the rows between the old and new positions shift by one and the row takes the new position |
| Positions.MoveAcross | src/kanban/kanban.service.ts:473-500 | a move to another scope closes the gap in the source, opens the slot in the target and writes the row with its new scope and position |
| Positions.Remove | src/kanban/kanban.service.ts:507-531 | removing a row deletes it and moves every later row of its scope down by one |
| Positions.OpenKeepsDense | src/kanban/kanban.service.ts:138-153 | inserting at p <= n into a scope holding exactly 0..n-1 leaves it holding exactly 0..n |
| Positions.OpenPastEndLeavesGap | src/kanban/kanban.service.ts:138-153 | the position is not clamped, so inserting past the end leaves position n empty |
| Positions.CloseKeepsDense | src/kanban/kanban.service.ts:225-241 | removing one row from a dense scope of n and closing the gap leaves it dense with n-1 |
| Positions.MoveIsRemoveThenInsert | src/kanban/kanban.service.ts:187-223 | when the row is alone at its position, an in-scope move equals removing it and inserting it at the new position |
| Positions.MoveWithinView | src/kanban/kanban.service.ts:187-223 | the same equation on the whole store |
| Positions.MoveWithinKeepsDense | src/kanban/kanban.service.ts:187-223 | moving to a position in 0..n-1 keeps a dense scope dense |
| Positions.MoveWithinKeepsOrder | src/kanban/kanban.service.ts:187-223 | an in-scope move keeps the relative order of every other row |
| Positions.MoveAcrossKeepsDense | src/kanban/kanban.service.ts:473-500 | the source goes from dense n to dense n-1, and the target goes from dense k to dense k+1 when the new position is at most k |
| Positions.InsertKeepsDense | src/kanban/kanban.service.ts:243-289 | inserting at p <= n keeps a dense scope dense |
| Positions.RemoveKeepsDense | src/kanban/kanban.service.ts:507-531 | removing a row keeps its dense scope dense, one row shorter |
| Positions.MoveAcrossRoundTrip | src/kanban/kanban.service.ts:419-505 | moving a row to another scope and back to its old position restores the table |
| Kanban.NewCard | src/kanban/kanban.service.ts:243-289 | the stored card has the caller as creator, the given title, description, due date and assignee, and priority MEDIUM and tags [] unless given |
| Kanban.CreateColumn | src/kanban/kanban.service.ts:135-164 | NotFound for an unknown board with nothing written; otherwise the board's columns at or after p move up by one and the new column sits at p |
| Kanban.UpdateColumn | src/kanban/kanban.service.ts:166-185 | NotFound for an unknown column; otherwise only that row changes: each given name, colour and limit replaces the stored one, absent ones keep their value, and a new position is stored as given |
| Kanban.MoveColumn | src/kanban/kanban.service.ts:187-223 | NotFound for an unknown column; a move to the current position writes nothing; otherwise it is the in-scope move of its board |
| Kanban.RemoveColumn | src/kanban/kanban.service.ts:225-241 | NotFound for an unknown column; otherwise the column goes with exactly its cards and their comments, every other card and comment stays as it was, and later columns of its board move down by one |
| Kanban.CreateCard | src/kanban/kanban.service.ts:243-310 | NotFound for an unknown column before any write; StoreError for an assignee that is no stored user, after the column's cards at or after p have moved up; otherwise the card is inserted at its position, a 'created' activity is logged, and the assignee is notified when there is one other than the creator |
| Kanban.UpdateCard | src/kanban/kanban.service.ts:375-417 | NotFound for an unknown card; StoreError with nothing written for an assignee that is no stored user; otherwise each given field (title, description, position, priority, due date, assignee, tags) replaces the stored one on that row alone; a new assignee logs 'assigned' and is notified unless they are the caller |
| Kanban.MoveCard | src/kanban/kanban.service.ts:419-505 | NotFound for an unknown card, then for an unknown column, before any write; a move to the same place logs nothing; a move within the column or across columns shifts as the engine says and logs 'moved' |
| Kanban.RemoveCard | src/kanban/kanban.service.ts:507-531 | NotFound for an unknown card; otherwise the card goes with exactly its comments, and later cards of its column move down by one |
| Kanban.CommentRecipients | src/kanban/kanban.service.ts:577-599 | the recipients are the creator and the assignee, without the commenter and without repeats: at most two |
| Kanban.CreateComment | src/kanban/kanban.service.ts:533-575 | NotFound for an unknown card; otherwise the comment is stored, 'commented' is logged, and exactly the comment recipients are notified |
| Kanban.CreateColumnKeepsDense | src/kanban/kanban.service.ts:135-154 | creating at p <= n in a board with columns at 0..n-1 gives 0..n |
| Kanban.CreateColumnPastEndLeavesGap | src/kanban/dto/kanban.schema.ts:16 | the schema does not bound the position, so a column created past the end leaves position n empty |
| Kanban.MoveColumnKeepsDenseAndOrder | src/kanban/kanban.service.ts:187-223 | a move to 0..n-1 keeps the board dense and the other columns in their order |
| Kanban.RemoveColumnKeepsDense | src/kanban/kanban.service.ts:225-241 | a dense board of n becomes dense with n-1 |
| Kanban.UpdateColumnPositionCollides | src/kanban/kanban.service.ts:166-173 | updating a column to a sibling's position leaves two columns at one position |
| Kanban.CreateCardKeepsDense | src/kanban/kanban.service.ts:243-289 | creating at p <= n, with no assignee or a stored one, in a column with cards at 0..n-1 gives 0..n |
| Kanban.CreateCardFailureLeavesGap | src/kanban/kanban.service.ts:246-258 | a creation that fails on an unknown assignee at p < n leaves position p of a dense column empty, because the shift is already written |
| Kanban.MoveCardWithinKeepsDenseAndOrder | src/kanban/kanban.service.ts:451-471 | an in-column move to 0..n-1 keeps the column dense and the other cards in order |
| Kanban.MoveCardAcrossKeepsDense | src/kanban/kanban.service.ts:473-500 | the source goes from dense n to n-1 and the target from dense k to k+1 when the position is <= k; other columns are untouched |
| Kanban.MoveCardRoundTrip | src/kanban/kanban.service.ts:419-505 | moving a card to another column and back restores every card |
| Kanban.RemoveCardKeepsDense | src/kanban/kanban.service.ts:507-531 | a dense column of n becomes dense with n-1 |
| Kanban.DropCards | src/kanban/kanban.service.ts:228 | deleting cards deletes exactly the comments on them and nothing else |
| Kanban.RemoveColumnKeepsLinked | src/kanban/kanban.service.ts:225-241 | removing a column leaves no card on a missing column and no comment on a missing card |
| Kanban.RemoveCardKeepsLinked | src/kanban/kanban.service.ts:507-531 | removing a card leaves no comment on a missing card |
| Kanban.CreateCardKeepsLinked | src/kanban/kanban.service.ts:243-289 | creating a card, whether it succeeds or fails after the shift, keeps every reference pointing at a stored row |
| Kanban.UpdateCardKeepsLinked | src/kanban/kanban.service.ts:375-417 | a successful update never stores an assignee that is no stored user |
| Sales.FindAllPipelines | src/sales/sales.service.ts:47-76 | a pipeline is listed exactly when it is active |
| Sales.FindOnePipeline | src/sales/sales.service.ts:78-115 | any stored pipeline is found, active or not; NotFound otherwise |
| Sales.RemovePipeline | src/sales/sales.service.ts:141-160 | a soft delete: only the pipeline's isActive flag is cleared and its stages stay |
| Sales.RemovedPipelineHiddenButFound | src/sales/sales.service.ts:141-160 | a removed pipeline leaves the list but can still be fetched |
| Sales.CreateStage | src/sales/sales.service.ts:162-202 | NotFound for an unknown pipeline; the siblings at or after p shift up only when some stage sits exactly at p; the stage is stored at p |
| Sales.CreateStageMatchesInsert | src/sales/sales.service.ts:166-192 | on a dense pipeline with p <= n the conditional shift gives the same table as the unconditional insert, dense 0..n |
| Sales.MoveStagePositions | src/sales/sales.service.ts:241-265 | a forward move pulls (old,new] down and any other move pushes [new,old) up, within the stage's pipeline only |
| Sales.MoveStage | src/sales/sales.service.ts:224-239 | NotFound for an unknown stage; the shift runs unconditionally and the stage takes the new position |
| Sales.MoveStageIsMoveWithin | src/sales/sales.service.ts:224-265 | every stage move, including a move to its own position, equals the in-scope move and so changes nothing in that case |
| Sales.MoveStageKeepsDenseAndOrder | src/sales/sales.service.ts:224-265 | a move to 0..n-1 keeps the pipeline dense and the others in order |
| Sales.UpdateStage | src/sales/sales.service.ts:204-222 | NotFound for an unknown stage; siblings shift as in moveStage only for a patch position that differs from the current one; each given name, description and colour replaces the stored one, absent ones keep their value |
| Sales.RemoveStage | src/sales/sales.service.ts:267-299 | NotFound; BadRequest with nothing changed while opportunities sit in the stage; otherwise later stages move down and the stage goes |
| Sales.RemoveStageIsRemove | src/sales/sales.service.ts:267-299 | shifting before deleting gives the same table as deleting before shifting |
| Sales.CreateOpportunity | src/sales/sales.service.ts:301-335 | NotFound for an unknown stage; otherwise a new opportunity with the given title, stage, value and assignee and the caller as creator, every other row unchanged |
| Sales.MoveOpportunity | src/sales/sales.service.ts:405-431 | NotFound for an unknown opportunity, then for an unknown stage; otherwise only its stageId changes and no position shifts |
| Sales.MoveOpportunityIgnoresPosition | src/sales/sales.service.ts:405-431 | the requested position makes no difference to the result |
| Sales.CreateActivity | src/sales/sales.service.ts:496-511 | NotFound for an unknown opportunity; otherwise a new activity with the given type, title, description and schedule, status SCHEDULED and no completion, assigned to the caller whatever the request names |
| Sales.UpdateActivity | src/sales/sales.service.ts:513-531 | NotFound unless the caller is the assignee; otherwise each of the eight fields `UpdateActivitySchema` allows replaces the stored one when given, the rest of the row stays, and no other activity changes |
| Sales.UpdateActivityKeepsTimes | src/sales/dto/sales.schema.ts:94-103 | a patch the schema admits keeps the scheduled and completion times in HH:MM format |
| Sales.UpdateCompletesWithoutTime | src/sales/sales.service.ts:513-531 | a patch may set COMPLETED alone, leaving an activity completed without a completion time |
| Sales.CompleteActivity | src/sales/sales.service.ts:533-558 | NotFound unless the caller is the assignee; otherwise status COMPLETED, the current date, and a completion time the schema's time format accepts; nothing else in the row changes |
| Sales.RemoveActivity | src/sales/sales.service.ts:560-572 | NotFound unless the caller is the assignee; otherwise exactly that activity goes |
| Sales.OnlyAssigneeChangesActivity | src/sales/sales.service.ts:513-572 | nobody but the assignee can update, complete or remove an activity |
| Schemas.MatchesTimeExactly | src/sales/dto/sales.schema.ts:90 | the time format accepts exactly hour 0-23 (leading zero optional below 10), ':', and minute 00-59 |
| Schemas.MatchedTimeReads | src/sales/dto/sales.schema.ts:99 | every accepted string spells some hour and minute |
| Schemas.TimeTextMatches | src/sales/dto/sales.schema.ts:102 | every spelling of an hour and minute is accepted |
| Schemas.TimeFormatRejects | src/sales/dto/sales.schema.ts:90 | "24:00" and "7:5" are rejected |
| Schemas.CompletedTime | src/sales/sales.service.ts:543 | the `HH:MM` prefix of the local time always satisfies the time format |
| Schemas.ColorFormatsAgree | src/departments/dto/department.schema.ts:10 | the case-insensitive sales colour regex and the department colour regex accept the same strings |
| Hierarchy.DepthIs | src/departments/departments.service.ts:39-51 | any walk to a root gives the same depth |
| Hierarchy.DepthStep | src/departments/departments.service.ts:39-51 | a root has depth 0 and a child is one deeper than its existing parent |
| Hierarchy.LoopFoundIsDescendant | src/departments/departments.service.ts:300-321 | a loop found means the target is the node or lies below it |
| Hierarchy.DescendantIsLoopFound | src/departments/departments.service.ts:300-321 | every descendant is found by the walk |
| Hierarchy.CheckForLoopIsDescendant | src/departments/departments.service.ts:300-321 | checkForLoop(d, t) holds exactly when t is d or one of its descendants |
| Hierarchy.MoveKeepsAcyclic | src/departments/departments.service.ts:252-298 | moving a node under a root slot or a node outside its subtree keeps the tree acyclic and depths outside the subtree unchanged |
| Hierarchy.DescendantsFollow | src/departments/departments.service.ts:252-298 | every descendant of the moved node stays its descendant |
| Hierarchy.AddLeafKeepsAcyclic | src/departments/departments.service.ts:15-37 | adding a node under an existing parent or at the root keeps the tree acyclic and every old depth |
| Hierarchy.RemoveLeafKeepsAcyclic | src/departments/departments.service.ts:344-370 | removing a childless node keeps the tree acyclic and every other depth |
| Departments.DepartmentLevel | src/departments/departments.service.ts:39-51 | level 0 without a parent, parent level + 1 with one, NotFound for an unknown parent |
| Departments.Create | src/departments/departments.service.ts:15-37 | siblings shift only for a non-zero position under a parent; the department is stored at position p or 0, one level below its parent, with the given name, description, colour and icon and active by the column default |
| Departments.CreateKeepsDense | src/departments/departments.service.ts:53-63 | under a parent with children at 0..n-1, a create at 1..n leaves 0..n |
| Departments.CreateWithoutShiftCollides | src/departments/departments.service.ts:20-29 | a create at the root, at 0 or without a position onto an occupied slot leaves two siblings there |
| Departments.CreateKeepsLevelsConsistent | src/departments/departments.service.ts:15-37 | a create keeps every stored level equal to the department's depth |
| Departments.CreateParents | src/departments/departments.service.ts:15-37 | a create adds one parent edge and changes no other |
| Departments.SetLevel | src/departments/departments.service.ts:335-338 | only the level of that department changes; parents and every other row stay |
| Departments.Cascade | src/departments/departments.service.ts:323-342 | every department below the node gets the node's level plus its distance; every other row is untouched |
| Departments.CascadeLevels | src/departments/departments.service.ts:323-342 | after the cascade each department below the node is one level below its parent |
| Departments.RecalculateChildLevels | src/departments/departments.service.ts:323-342 | the recursive walk over the children, in any order, produces exactly the closed-form cascade |
| Departments.Relink | src/departments/departments.service.ts:268-293 | the moved row takes the new parent, level and position; no other row changes |
| Departments.RelinkKeepsAcyclic | src/departments/departments.service.ts:268-293 | a relink that passed the checks keeps the tree acyclic |
| Departments.MoveDepartment | src/departments/departments.service.ts:252-298 | NotFound, then BadRequest on a loop, then NotFound for an unknown parent; otherwise the relink with position `newPosition ?? 0` and no sibling shift, followed by the cascade |
| Departments.MoveKeepsAcyclic | src/departments/departments.service.ts:252-298 | a successful move keeps the tree acyclic |
| Departments.MoveIsRelinkThenCascade | src/departments/departments.service.ts:268-295 | a successful move is the row write followed by the cascade |
| Departments.MoveKeepsLevelsConsistent | src/departments/departments.service.ts:252-342 | levels that equal depths before a move equal them after it |
| Departments.Update | src/departments/departments.service.ts:219-240 | a body with a parentId key, even null, becomes a move to that parent or to the root; any other body is written to the row alone: each given name, description, colour, icon and isActive replaces the stored one, and absent ones keep their value |
| Departments.UpdateWithParentKeepsFields | src/departments/departments.service.ts:222-227 | an update routed to a move ignores the name and the other plain fields |
| Departments.Remove | src/departments/departments.service.ts:344-370 | NotFound, then BadRequest for child departments, then BadRequest for members; otherwise only that row goes |
| Departments.RemoveKeepsLevelsConsistent | src/departments/departments.service.ts:344-370 | a delete keeps every other level right |
| Departments.AddUser | src/departments/departments.service.ts:372-434 | NotFound for an unknown department or user; Conflict only when a different user heads it; managedDepartmentId is set iff the user is head; only that user's row changes |
| Departments.AddUserKeepsSingleHeads | src/departments/departments.service.ts:372-434 | adding a member never gives a department a second head |
| Departments.RemoveUser | src/departments/departments.service.ts:446-473 | NotFound unless the user is a member, BadRequest while someone reports to them; otherwise their department fields are cleared |
| Departments.ClearHeads | src/departments/departments.service.ts:504-515 | every current head of the department loses the flag and the managed department; no one else changes |
| Departments.SetDepartmentHead | src/departments/departments.service.ts:487-502 | the heads are cleared first, then the user becomes member, manager and head; a failing write leaves the department headless; every other user is untouched except that a head of the department loses the flag |
| Departments.SetDepartmentHeadKeepsSingleHeads | src/departments/departments.service.ts:487-515 | success or not, no department ends with two heads |
| Accounts.PutKeepsEmailsUnique | src/users/users.service.ts:25-33 | writing a row whose e-mail no other row holds keeps e-mails unique |
| Accounts.PutKeepsNamesUnique | src/roles/roles.service.ts:35-43 | writing a role whose name no other role holds keeps names unique |
| Accounts.FindByEmail | src/auth/auth.service.ts:16 | with unique e-mails the lookup returns the one holder, if any |
| Permissions.CheckPermission | src/roles/helpers/permission.helper.ts:24-32 | super admin first, then MANAGE on the resource, then the exact pair |
| Permissions.CheckPermissionMeansGrants | src/roles/helpers/permission.helper.ts:4-32 | the helper grants exactly when some held permission is MANAGE on ALL, MANAGE on the resource, or the exact pair; an empty list grants nothing |
| Permissions.CheckPermissionOnlyOnSet | src/roles/helpers/permission.helper.ts:4-22 | the decision depends only on the set of held pairs |
| Permissions.CheckPermissionMonotone | src/roles/helpers/permission.helper.ts:24-32 | holding more permissions never turns a grant into a denial |
| Permissions.PermissionsGuard | src/common/guards/permissions.guard.ts:19-85 | no requirements lets anyone in; a missing or unknown user or one without a role gets Forbidden; otherwise pass iff super admin or every requirement is met |
| Permissions.SuperAdminPassesGuard | src/common/guards/permissions.guard.ts:54-60 | MANAGE on ALL passes any requirement list |
| Permissions.GuardIsEveryCheck | src/common/guards/permissions.guard.ts:54-82 | for a user with a role, the guard passes exactly when the helper grants every requirement |
| Permissions.MeetsIsCheck | src/common/guards/permissions.guard.ts:63-76 | without MANAGE on ALL, one requirement is met exactly when the helper grants it |
| Permissions.GuardSingleIsCheck | src/common/guards/permissions.guard.ts:54-76 | for a single requirement the guard decides what checkPermission decides |
| Permissions.RolesGuard | src/common/guards/roles.guard.ts:13-32 | no metadata lets everyone in; otherwise pass iff the user's role has a non-empty name among the listed ones |
| Permissions.EmptyRolesDenyAll | src/common/guards/roles.guard.ts:19-31 | an explicitly empty role list denies everyone |
| Permissions.RolesGuardMonotone | src/common/guards/roles.guard.ts:19-31 | listing more role names never turns a pass into a denial |
| Permissions.RolesGuardOnlyOnSet | src/common/guards/roles.guard.ts:19-31 | the decision depends only on which names are listed |
| Roles.Create | src/roles/roles.service.ts:11-43 | Conflict for a taken name; otherwise a non-system role with the given permissions |
| Roles.BuildUpdate | src/roles/roles.service.ts:113-131 | a permissions list replaces the stored one wholesale; absent fields keep their values |
| Roles.Update | src/roles/roles.service.ts:73-111 | NotFound, then Forbidden for a system role, then Conflict for a changed name held by another role |
| Roles.UpdateOwnNameAccepted | src/roles/roles.service.ts:77-79 | re-sending a role's own name never conflicts |
| Roles.Remove | src/roles/roles.service.ts:133-160 | NotFound, then Forbidden for a system role, then BadRequest while users are assigned; only then is the row deleted |
| Roles.SystemRolesStay | src/roles/roles.service.ts:107-111 | a system role survives every update and removal attempt unchanged |
| Roles.AssignRoleToUser | src/roles/roles.service.ts:162-170 | NotFound for an unknown user or role; otherwise only the user's roleId changes |
| Roles.GetUserPermissions | src/roles/roles.service.ts:201-218 | [] for an unknown user or one without a role, else the role's permissions |
| Roles.CheckPermission | src/roles/roles.service.ts:182-199 | false for an unknown user or one without a role, else the helper's decision |
| Roles.CheckPermissionIsHelperOnList | src/roles/roles.service.ts:182-218 | checkPermission is the helper applied to the list getUserPermissions returns |
| Roles.RoleOf | src/common/guards/permissions.guard.ts:37-49 | the role permissions the guard reads are present exactly for stored users with a role |
| Roles.GuardAgreesWithService | src/common/guards/permissions.guard.ts:54-76 | for every user with a role, the single-requirement guard passes exactly when the service's checkPermission is true |
| Password.Hash | src/common/utils/password.util.ts:11-15 | the stored string splits at '.' into exactly two parts: the salt as 32 hex digits and the derived key in hex |
| Password.Compare | src/common/utils/password.util.ts:17-38 | false unless there are exactly two non-empty '.'-parts and the decoded hash has the derived key's length and bytes |
| Password.CompareIsKeyEquality | src/common/utils/password.util.ts:31-37 | on a parsing string, compare is exactly equality of the derived key with the stored bytes |
| Password.HashParses | src/common/utils/password.util.ts:11-28 | every hash output splits into two non-empty parts |
| Password.CompareHash | src/common/utils/password.util.ts:11-38 | a password always compares equal to its own hash |
| Password.CompareOtherPassword | src/common/utils/password.util.ts:31-37 | another password matches only if it derives the same key under the stored salt |
| UserMapper.ExcludePassword | src/auth/mappers/user.mapper.ts:20-23 | removes only the password key and keeps every other key and value |
| UserMapper.ExcludePasswordIdempotent | src/auth/mappers/user.mapper.ts:20-23 | dropping the password twice is dropping it once |
| UserMapper.ToPublicProfile | src/auth/mappers/user.mapper.ts:2-11 | exactly id, email, firstName, lastName, role and avatar, never the password |
| UserMapper.ProfileIgnoresPassword | src/auth/mappers/user.mapper.ts:2-23 | the profile is the same whether or not the password was dropped first |
| UserMapper.ToAuthResponse | src/auth/mappers/user.mapper.ts:13-18 | the token beside the public profile |
| Users.NewUser | src/users/users.service.ts:11-23 | the stored row is the input with its password replaced by the hash |
| Users.Create | src/users/users.service.ts:11-33 | Conflict when any user has the e-mail, before hashing; e-mails stay unique |
| Users.Patched | src/users/users.service.ts:72-84 | each given first name, last name, status, phone, avatar and role replaces the stored one, absent ones keep their value |
| Users.Update | src/users/users.service.ts:72-84 | NotFound, then Conflict for a new e-mail another user holds; keeping one's own e-mail is allowed; e-mails stay unique |
| Users.UpdateStoreErrorCauses | src/users/users.service.ts:72-84 | the store refuses an update only for an empty e-mail held elsewhere or an unknown role |
| Users.Remove | src/users/users.service.ts:96-101 | NotFound for an unknown id; otherwise exactly that user goes |
| Auth.RecordOf | src/auth/auth.service.ts:27-36 | the user object of a lookup has the row's columns, `roleId`, and the included role with its permissions, or null without a role |
| Auth.RoleField | src/auth/auth.service.ts:27-36 | the included role is an object exactly when the user's role is stored, with that role's id, name, description and permissions; null otherwise |
| Auth.ValidateUser | src/auth/auth.service.ts:15-42 | None for an unknown e-mail or a wrong password; Unauthorized for a matching non-ACTIVE user; success carries no password |
| Auth.Login | src/auth/auth.service.ts:44-54 | Unauthorized exactly when validation yields None; otherwise the token and the public profile |
| Auth.Register | src/auth/auth.service.ts:72-112 | Conflict for a taken e-mail before anything is hashed or written; otherwise the new row and the token |
| Auth.RegisterThenValidate | src/auth/auth.service.ts:15-25 | a freshly registered user validates with the same e-mail and password |
| Auth.GetProfile | src/auth/auth.service.ts:114-149 | NotFound for an unknown id; otherwise the selected fields, never the password, with the role as the stored role object |
| Auth.ProfileRoleIsUsersRole | src/auth/auth.service.ts:114-149 | with the role foreign key intact, the profile has a role object exactly when the user has a role, holding that role's name and permissions |
| Auth.ValidatedRoleIsProfileRole | src/auth/auth.service.ts:15-25 | a successful validation returns the same role object as the profile read |
| Pagination.ParseQuery | src/common/dto/pagination.schema.ts:6-11 | page >= 1 (default 1), limit in 1..100 (default 10), sort asc or desc (default desc) |
| Pagination.Skip | src/users/users.service.ts:36 | skip is (page-1)*limit and is never negative for a valid query |
| Pagination.TotalPages | src/users/users.service.ts:54 | the fewest pages of `limit` rows that hold `total` rows |
| Pagination.PageOf | src/users/users.service.ts:35-57 | the page holds the rows from skip on: `limit` of them, or all that remain when fewer do |
| Pagination.RowOnItsPage | src/users/users.service.ts:35-57 | row i is item i % limit of page i / limit + 1, and that page is within totalPages |
| Pagination.MetaOf | src/users/users.service.ts:48-56 | the meta echoes total, page and limit, and its totalPages is the fewest pages of `limit` rows holding `total` |
| Counting.FirstSeen | src/support/support.service.ts:193-201 | each listed value once, in the order first met |
| Counting.TallyCounts | src/feedback/feedback.service.ts:227-235 | the tally holds exactly the occurring values, each with its number of occurrences |
| Counting.CountBy | src/feedback/feedback.service.ts:227-235 | the keys are exactly the values that occur, each once |
| Counting.TallySum | src/feedback/feedback.service.ts:227-235 | the tally's counts add up to the number of elements |
| Counting.CountByIsTally | src/feedback/feedback.service.ts:227-235 | the per-key counts are the occurrences and sum to the length |
| Strings.Split | src/config/cors.config.ts:7 | `split` on one character keeps empty fields |
| Strings.SplitCount | src/common/utils/password.util.ts:18-20 | a split yields one more field than there are separators |
| Strings.SplitFieldsFree | src/common/utils/password.util.ts:18 | no field contains the separator |
| Strings.JoinSplit | src/common/utils/password.util.ts:14-18 | joining the fields of a split gives the string back |
| Strings.SplitJoin | src/common/utils/password.util.ts:14-18 | splitting a join of separator-free fields gives the fields back |
| Strings.Trim | src/config/cors.config.ts:7 | the result is a slice of the input with only white space outside it |
| Strings.TrimIdempotent | src/config/cors.config.ts:7 | trimming twice is trimming once |
| Strings.TrimEmptyIffBlank | src/config/cors.config.ts:7 | trimming leaves nothing exactly when the string is all white space |
| Strings.HexEncode | src/common/utils/password.util.ts:12-14 | two lower-case hex digits per byte |
| Strings.HexDecode | src/common/utils/password.util.ts:30 | at most one byte per two hex digits; with Strings.HexRoundTrip it undoes the encoding |
| Strings.HexRoundTrip | src/common/utils/password.util.ts:14-30 | decoding an encoding gives the bytes back |
| Strings.Pad2 | src/sales/sales.service.ts:543 | a number below 100 as exactly two decimal digits |
| Strings.Sort | src/chat/chat.service.ts:341-346 | the default array sort, on strings without characters above U+FFFF: a sorted permutation of the input |
| Strings.SortedUnique | src/chat/chat.service.ts:341-346 | two sorted arrangements of the same strings are equal |
| Strings.SortPermutationInvariant | src/chat/chat.service.ts:341-346 | the sort does not depend on the input order |
| Chat.FoundCountMeans | src/chat/chat.service.ts:73-81 | the count test passes exactly when every id is stored and none repeats |
| Chat.CreateChatUsing | src/chat/chat.service.ts:20-81 | NotFound for an unknown creator, Forbidden for unknown or repeated ids; a direct chat for which a matching chat exists gets that chat back with nothing written; a group chat, or a direct chat without a match, is a new chat of creator plus listed users |
| Chat.CreateChatAsWritten | src/chat/chat.service.ts:38-48 | the same NotFound and Forbidden cases as createChat; a direct chat with a chat that passes the subset filter gets such a chat back, with nothing written, but nothing ties it to the requested participants |
| Chat.CreateChat | src/chat/chat.service.ts:20-61 | createChat with the exact lookup: the chat returned holds every requested participant, and a direct chat with an exact match gets that chat back with nothing written |
| Chat.ExactMatchHoldsAll | src/chat/chat.service.ts:38-48 | an exactly matching chat lists every requested user |
| Chat.SelfChatIsCreated | src/chat/chat.service.ts:34-36 | a chat with oneself is direct and is created with the creator listed twice |
| Chat.AsWrittenReturnsChatWithoutPeer | src/chat/chat.service.ts:38-48 | as written, a then opening a chat with b is handed a's self-chat, without b |
| Chat.AsWrittenReturnsLoneChat | src/chat/chat.service.ts:38-48 | as written, any non-group chat holding a's row alone is handed to a asking for a chat with b |
| Chat.ExactCreatesChatWithPeer | src/chat/chat.service.ts:38-61 | with the exact lookup the same request creates a chat of a and b |
| Chat.FindOneChat | src/chat/chat.service.ts:105-129 | NotFound unless the user takes part in the chat |
| Chat.Others | src/chat/chat.service.ts:174-200 | every participant but the sender, in the order listed and as often as listed; never the sender |
| Chat.SendMessage | src/chat/chat.service.ts:131-165 | NotFound for a non-participant; otherwise the message is stored and every other participant, never the sender, is notified |
| Chat.VisibleMessages | src/chat/chat.service.ts:202-228 | exactly the chat's non-deleted messages |
| Chat.GetChatMessages | src/chat/chat.service.ts:202-228 | NotFound for a non-participant; otherwise a message is listed exactly when it belongs to the chat and is not deleted |
| Chat.UpdateMessage | src/chat/chat.service.ts:230-241 | only the sender's non-deleted message; the content changes and it is marked edited |
| Chat.DeleteMessage | src/chat/chat.service.ts:243-252 | only the sender; a soft delete that keeps the row, marked deleted |
| Chat.DeletedMessageGone | src/chat/chat.service.ts:202-290 | a deleted message leaves the listing and cannot be edited; the others stay |
| Chat.ParticipantsKeyOrderFree | src/chat/chat.service.ts:341-346 | the key does not depend on participant order |
| Chat.GroupOfMembers | src/chat/chat.service.ts:327-339 | a key's group holds exactly the listed two-participant chats of that key, each once |
| Chat.GroupsAreGroupOf | src/chat/chat.service.ts:327-339 | the grouping pass builds exactly each key's group |
| Chat.Newest | src/chat/chat.service.ts:366-370 | the kept chat is a member of its group |
| Chat.NewestIsNewest | src/chat/chat.service.ts:366-370 | the kept chat is the newest by createdAt, the first listed among equals |
| Chat.GroupsPartition | src/chat/chat.service.ts:327-339 | the groups partition the eligible chats by key |
| Chat.DuplicatesAreNotKept | src/chat/chat.service.ts:348-364 | the deleted chats are exactly the grouped chats that are not the newest of their key |
| Chat.KeptCard | src/chat/chat.service.ts:348-364 | one chat is kept per key |
| Chat.DuplicateCount | src/chat/chat.service.ts:309-314 | the deleted count is the sum of (group size - 1) |
| Chat.CleanupDuplicateChats | src/chat/chat.service.ts:304-315 | every duplicate goes with its messages; the report's counts are the deleted chats and the direct chats minus them |
| Chat.SurvivorIsKept | src/chat/chat.service.ts:348-364 | a two-participant listed chat that survives the clean-up is the newest of its key |
| Chat.CleanupLeavesOnePerKey | src/chat/chat.service.ts:304-364 | afterwards no two remaining two-participant chats share a key |
| Chat.CleanupKeepsNewest | src/chat/chat.service.ts:348-370 | a chat is deleted only in favour of a chat of the same key at least as new, which stays |
| Feedback.VotesOn | src/feedback/feedback.service.ts:47-50 | the voters on one feedback |
| Feedback.Create | src/feedback/feedback.service.ts:10-22 | the caller is the author, priority MEDIUM and anonymity false unless given, no votes |
| Feedback.ShownUser | src/feedback/feedback.service.ts:51 | null when anonymous, else the author |
| Feedback.ViewOf | src/feedback/feedback.service.ts:44-53 | votesCount is the number of votes and hasVoted holds iff the caller voted |
| Feedback.AnonymousViewKeepsAuthorId | src/feedback/feedback.service.ts:44-53 | anonymity hides only the user relation, not userId |
| Feedback.FindOne | src/feedback/feedback.service.ts:65-91 | NotFound for an unknown id; otherwise the caller's view |
| Feedback.FindAll | src/feedback/feedback.service.ts:24-63 | the page of all rows in listing order, as long as the window holds, each as the caller's view, with the total |
| Feedback.AuthoredBy | src/feedback/feedback.service.ts:93-124 | exactly the caller's rows |
| Feedback.FindMyFeedbacks | src/feedback/feedback.service.ts:93-124 | the window of the caller's rows in listing order, as long as the window holds, and their total |
| Feedback.CheckAuthor | src/feedback/feedback.service.ts:126-164 | NotFound, then Forbidden for anyone but the author |
| Feedback.Update | src/feedback/feedback.service.ts:126-146 | only the author; each given title, description, rating and priority replaces the stored one, absent ones keep their value |
| Feedback.Remove | src/feedback/feedback.service.ts:148-164 | only the author; the row and its votes go |
| Feedback.ToggleVote | src/feedback/feedback.service.ts:166-200 | NotFound; otherwise removes an existing vote (false) or adds a missing one (true); nothing else changes |
| Feedback.ToggleVoteCount | src/feedback/feedback.service.ts:166-200 | the vote count rises or falls by one and other rows keep theirs |
| Feedback.ToggleTwiceRestores | src/feedback/feedback.service.ts:184-199 | toggling twice restores the votes and reports opposite outcomes |
| Feedback.GetStats | src/feedback/feedback.service.ts:202-244 | total is the number of rows, which is the length of the one listing the tallies run over |
| Feedback.StatsKeysPresent | src/feedback/feedback.service.ts:227-235 | the tally keys are exactly the types and statuses present |
| Feedback.StatsCountsSumToTotal | src/feedback/feedback.service.ts:227-235 | both tallies add up to total |
| Feedback.GetTopSuggestions | src/feedback/feedback.service.ts:246-275 | the first `limit` suggestions by votes, no omitted one having more votes than one returned; anonymous rows show null |
| Support.CreateTicket | src/support/support.service.ts:11-19 | owned by the caller, priority MEDIUM unless given |
| Support.OwnedBy | src/support/support.service.ts:26 | exactly the caller's tickets |
| Support.FindAllTickets | src/support/support.service.ts:21-43 | the window of the caller's tickets in listing order, as long as the window holds, with their count |
| Support.FindOneTicket | src/support/support.service.ts:45-59 | NotFound, then Forbidden for anyone but the owner |
| Support.UpdateTicket | src/support/support.service.ts:61-78 | only the owner; each given subject, description, category, priority and assignee replaces the stored one, absent ones keep their value, and the owner stays |
| Support.RemoveTicket | src/support/support.service.ts:80-98 | only the owner; exactly that ticket goes |
| Support.OthersTicketsUntouchable | src/support/support.service.ts:45-98 | another user's ticket can be neither read, changed nor deleted |
| Support.CreateFaq | src/support/support.service.ts:99-107 | active unless isActive is false, position 0 unless given |
| Support.MatchingFaqs | src/support/support.service.ts:112-123 | exactly the active FAQs in the category (when given) containing the search (when given) |
| Support.SearchIgnoresCase | src/support/support.service.ts:118-123 | searches that fold to the same lower case select the same FAQs |
| Support.EmptyFiltersIgnored | src/support/support.service.ts:114-118 | an empty category or search filters nothing |
| Support.FindAllFaqs | src/support/support.service.ts:109-144 | the window of the matching FAQs in listing order, as long as the window holds, each active and matching, with their count |
| Support.FindOneFaq | src/support/support.service.ts:146-162 | NotFound; otherwise views rises by one and the FAQ as before is returned |
| Support.ReadTimes | src/support/support.service.ts:146-162 | n reads raise views by n |
| Support.UpdateFaq | src/support/support.service.ts:164-177 | NotFound; otherwise each given question, answer, category and position replaces the stored one, absent ones keep their value |
| Support.RemoveFaq | src/support/support.service.ts:179-191 | NotFound; otherwise exactly that FAQ goes |
| Support.ActiveFaqs | src/support/support.service.ts:194-200 | exactly the active FAQs |
| Support.GetFaqCategories | src/support/support.service.ts:193-201 | distinct categories, each category of an active FAQ and no other |
| Notifications.Create | src/notifications/notifications.service.ts:12-25 | a new unread row, or StoreError for an unknown user |
| Notifications.OfUser | src/notifications/notifications.service.ts:27-32 | exactly the user's notifications |
| Notifications.UnreadOf | src/notifications/notifications.service.ts:34-42 | exactly the user's unread notifications |
| Notifications.FindAll | src/notifications/notifications.service.ts:27-32 | every notification of the user, each once, and no other |
| Notifications.FindUnread | src/notifications/notifications.service.ts:34-42 | every unread notification of the user, each once, and no other |
| Notifications.GetUnreadCount | src/notifications/notifications.service.ts:44-51 | the number of the user's unread rows |
| Notifications.UnreadCountIsFindUnread | src/notifications/notifications.service.ts:34-51 | the count is the length of the unread list |
| Notifications.MarkRead | src/notifications/notifications.service.ts:53-65 | the rows named become read and every other row stays as it was |
| Notifications.MarkAsRead | src/notifications/notifications.service.ts:53-65 | only rows named by the ids change, to read; the count is the number of ids given |
| Notifications.MarkAsReadCountsMissingIds | src/notifications/notifications.service.ts:53-65 | ids naming no row are counted too |
| Notifications.MarkAllAsRead | src/notifications/notifications.service.ts:67-80 | the user has no unread rows afterwards, others are unchanged, and the count is the number changed |
| Notifications.MarkAllAsReadTwice | src/notifications/notifications.service.ts:67-80 | a second call changes nothing and counts 0 |
| Notifications.Delete | src/notifications/notifications.service.ts:82-85 | exactly that row goes; StoreError for a missing row |
| Notifications.DeleteAll | src/notifications/notifications.service.ts:87-93 | the user's rows go and no one else's; count plus remaining is the old total |
| Notifications.DeleteAllSparesOthers | src/notifications/notifications.service.ts:87-93 | every other user's list stays as it was |
| Notifications.TaskAssignedNotice | src/notifications/notifications.service.ts:95-104 | a TASK_ASSIGNED notice naming the card, with card and board ids and a link to the board |
| Notifications.TaskCommentNotice | src/notifications/notifications.service.ts:106-115 | a TASK_COMMENT notice naming the commenter and card, linking to the board |
| Notifications.WithText | src/notifications/notifications.service.ts:117-126 | the messageText key is present exactly when a text is given |
| Notifications.MessageNotice | src/notifications/notifications.service.ts:117-126 | a MESSAGE notice linking to the chats page |
| Notifications.WhatsAppNotice | src/notifications/notifications.service.ts:128-137 | a WHATSAPP_MESSAGE notice linking to the conversation |
| Notifications.SalesAssignedNotice | src/notifications/notifications.service.ts:139-148 | a SALES_ASSIGNED notice linking to the sales board |
| Notifications.MentionNotice | src/notifications/notifications.service.ts:150-158 | a MENTION notice with the caller's link and no metadata |
| Notifications.TaskNoticesLinkTheirBoard | src/notifications/notifications.service.ts:95-115 | a task notice links to the board its metadata names and carries the card |
| Notifications.MessageNoticesShowText | src/notifications/notifications.service.ts:117-137 | the text is shown exactly when given; otherwise the fallback names the sender |
| Notifications.BuildersMeetSchema | src/notifications/dto/notification.schema.ts:21-28 | task and sales notices always pass the schema; chat and WhatsApp notices pass exactly when the text is absent or non-empty |
| Settings.Apply | src/settings/settings.service.ts:24-32 | each of the thirteen fields takes the given value when present and keeps the stored one otherwise |
| Settings.ApplyLaws | src/settings/settings.service.ts:24-32 | an empty update changes nothing and an update applied twice is applied once |
| Settings.ApplyKeepsRange | src/settings/dto/settings.schema.ts:12-22 | an update the schema admits keeps sessionTimeout in 5..480 and dataRetention in 30..730 |
| Settings.GetSettings | src/settings/settings.service.ts:9-22 | the stored row without writing, else a new row with the defaults, else StoreError for an unknown user |
| Settings.GetSettingsTwice | src/settings/settings.service.ts:9-22 | a second read writes nothing |
| Settings.UpdateSettings | src/settings/settings.service.ts:24-32 | the row is made to exist, then the patch is applied; no other user's row changes |
| Settings.ResetSettings | src/settings/settings.service.ts:34-44 | the user's row becomes the defaults; StoreError exactly for an unknown user |
| Settings.ResetThenGet | src/settings/settings.service.ts:34-44 | after a reset a read returns the defaults without writing |
| Settings.OperationsKeepValid | src/settings/settings.service.ts:9-44 | every operation keeps each row tied to an existing user |
| Settings.UpdateKeepsRange | src/settings/dto/settings.schema.ts:12-22 | with in-range defaults every stored row stays in range |
| Http.Get | src/common/filters/http-exception.filter.ts:90-94 | a value exactly when the object has the key |
| Http.Decimal | src/common/filters/http-exception.filter.ts:108 | an array index written as a non-empty string of digits |
| Http.FieldSplitsIntoPath | src/common/filters/http-exception.filter.ts:108 | when no key holds a dot, splitting the field at dots gives the path's segments back |
| Http.HttpDetails | src/common/filters/http-exception.filter.ts:81-99 | a string is the message with no code; an object gives its truthy message or itself and its `error`; anything else is the message as is |
| Http.BuildErrorResponse | src/common/filters/http-exception.filter.ts:42-79 | never success, with the request path and method; Zod is 400 VALIDATION_ERROR; other errors are 500 UNKNOWN_ERROR with their message or 'Internal server error' |
| Http.ZodIssuesListed | src/common/filters/http-exception.filter.ts:101-114 | each issue appears in order with its path joined by dots |
| Http.ServiceException | src/common/filters/http-exception.filter.ts:50-71 | a store failure is a plain Error; every other error is an HttpException |
| Http.ServiceErrorsKeepStatus | src/common/filters/http-exception.filter.ts:42-99 | every service error reaches the client with its class's status, its message when non-empty, and its reason phrase or UNKNOWN_ERROR as code |
| Http.Wrap | src/common/interceptors/transform.interceptor.ts:16-29 | the result is always wrapped; a wrapped value passes unchanged; anything else becomes `{data: value}` |
| Http.WrapIdempotent | src/common/interceptors/transform.interceptor.ts:16-29 | wrapping twice is wrapping once and the payload is the value itself |
| Http.AuthResponseWrapped | test/auth.e2e-spec.ts:60 | a login result reaches the client with its token at `data.access_token` |
| Cors.ParseOrigins | src/config/cors.config.ts:7 | one entry per comma-separated field, each trimmed |
| Cors.TrimAll | src/config/cors.config.ts:7 | one trimmed entry per field, in order |
| Cors.CreateCorsConfig | src/config/cors.config.ts:3-14 | any origin exactly when the variable is unset or empty; credentials, methods, headers and maxAge 3600 are fixed |
| Cors.OnlyOriginVaries | src/config/cors.config.ts:8-12 | only the origin depends on the environment |
| Cors.ParseJoin | src/config/cors.config.ts:7 | parsing a comma-join of trimmed comma-free origins gives them back |
| Cors.OriginsRoundTrip | src/config/cors.config.ts:7 | writing such origins into the variable gives exactly that origin list |
| Cors.EmptyEntriesKept | src/config/cors.config.ts:7 | every field keeps its place in the list and becomes "" exactly when it is all white space |

## Left out

- The controllers, the WebSocket gateways, the WhatsApp service, the logger, Swagger and the environment validation: they only route requests or talk to external systems.
- I/O, the clock, randomness and JWT signing are parameters. `scrypt` is an abstract deterministic key-derivation function, and the JWT is an opaque string built by a parameter.
- Timestamps: `createdAt` orderings are the `listed` parameter, except for chat clean-up, where `createdAt` is a number. `readAt`, `completedAt` and `updatedAt` are not kept.
- The Prisma schema file is not part of this model. Column defaults (ticket status, FAQ views, settings defaults, the notification `isRead` false, the user status ACTIVE, the department `isActive` true as `Departments.DefaultActive`, the sales activity status SCHEDULED) are parameters or assumptions. The cascade of feedback votes on delete is assumed.
- Kanban.RemoveColumn: the schema is assumed to cascade the delete of a column to its cards and their comments; a restricting foreign key would instead refuse the delete.
- Kanban.RemoveCard: the schema is assumed to cascade the delete of a card to its comments.
- Kanban: the caller is a stored user, as the JWT strategy (src/auth/strategies/jwt.strategy.ts:26-52) checks on every request, so foreign keys on `createdById` and on activity and comment authors are not modelled.
- Chat.SelfChatIsCreated: assumes the participant table has no unique (chatId, userId) index, so a self-chat stores the creator's row twice; with such an index that insert would fail with a store error. Chat.AsWrittenReturnsLoneChat shows the same lookup defect on any non-group chat left holding one user's row, without that assumption about how it arose.
- Auth.RecordOf: the included role keeps only its id, name, description and permissions, whose rows are (action, resource) pairs. Its other columns and the permissions' `conditions` are not modelled. The user's department columns (`departmentId`, `position`, `isManager`, `isDepartmentHead`, `managedDepartmentId`, `managerId`), which the lookup also returns, are kept by the Departments module's members and not repeated in the record; nor are the timestamps.
- Sales.CreateActivity: the status SCHEDULED of a new activity is the column default assumed above; the request's `assignedToId` is ignored, as the source does.
- Sales.CreateOpportunity: the opportunity keeps its title, stage, value, creator and assignee; the value is a real, so floating-point rounding of the JavaScript number is not modelled. The description, company, contact, email, phone, priority and tags are stored as given and are not modelled, and neither is the 500 response for an assignee that is not a stored user.
- Sales `updateOpportunity`, `createPipeline`, `updatePipeline` and the sales comments, and Kanban board create/update/remove and comment update/remove: each is a single Prisma write behind a NotFound check (comments: only by their author), with no position or ownership rule beyond that, and is not modelled.
- Auth.GetProfile: the selected `createdAt` and `lastLoginAt` are timestamps and are not kept; the role's `conditions` are left out as for Auth.RecordOf.
- The JWT payload (`sub`, `email`, `role`) is inside the opaque token parameter.
- Request validation by `uuid()` is modelled as "not empty". `url()` on the notification link is modelled as a path starting with '/', so the absolute-URL alternative is left out.
- Prisma's case-insensitive `contains` is ASCII case folding. Unicode folding is not modelled.
- Feedback `getStats`' `averageRating` (a floating-point mean with `toFixed`) and `thisMonth` (a clock query) are not modelled.
- Chat `markAsRead` (src/chat/chat.service.ts:254-263) only writes a read timestamp and is not modelled.
- Chat `getChatMessages`' page window is not modelled; the listing is the full visible set.
- Settings.ResetSettings: on a state holding a row for an unknown user, the model still reports an error, whereas the store would first delete that row.
- Http.Wrap: the interceptor's handling of an `undefined` result is not modelled (JSON has no undefined).
- Http.HttpDetails: numbers are integers, so NaN truthiness is not modelled.
- Departments.MoveDepartment: the level cascade is proved on the closed form; the recursion's order of visits is free.
- Permissions: the resource enum is not visible, so a resource is `ALL` or a named string.

## Findings

| source | as written | input that shows it | evidently intended | confidence | as-written member | corrected member |
|---|---|---|---|---|---|---|
| src/chat/chat.service.ts:38-48 | the existing-direct-chat lookup keeps a non-group chat when every one of its participants is among the requested users | user a first creates a self-chat (participantIds ["a"]), then asks for a direct chat with ["b"]: the self-chat qualifies and is returned, without b | a chat whose participants are exactly the requested users | medium, not executed; the self-chat input assumes no unique (chatId, userId) index | Chat.CreateChatAsWritten (shown by Chat.AsWrittenReturnsChatWithoutPeer and Chat.AsWrittenReturnsLoneChat) | Chat.CreateChat (shown by Chat.ExactCreatesChatWithPeer) |

=== FILE: accounts.dfy ===
/**
 The user and role tables shared by the users, roles and auth services,
 and the database constraints on them that the services either check
 themselves or run into: unique e-mail, unique role name, and a user's
 `roleId` naming a stored role.
 */
module Accounts {
  import opened Wrappers
  import Permissions

  datatype UserStatus = Active | Inactive | Suspended

  /** The status a freshly created user row gets from the table default. */
  const DefaultStatus: UserStatus := Active

  /** A user row; `password` holds the stored hash string. */
  datatype User = User(
    email: string,
    password: string,
    firstName: string,
    lastName: string,
    phone: Option<string>,
    avatar: Option<string>,
    status: UserStatus,
    role: Option<Id>)

  datatype Role = Role(
    name: string,
    description: Option<string>,
    isSystem: bool,
    permissions: seq<Permission>)

  type Permission = Permissions.Permission

  datatype State = State(users: map<Id, User>, roles: map<Id, Role>)

  // ---------------------------------------------------------------------
  // Constraints
  // ---------------------------------------------------------------------

  /** The unique index on `User.email`. */
  ghost predicate EmailsUnique(users: map<Id, User>) {
    forall a, b | a in users && b in users && users[a].email == users[b].email :: a == b
  }

  /** The unique index on `Role.name`. */
  ghost predicate NamesUnique(roles: map<Id, Role>) {
    forall a, b | a in roles && b in roles && roles[a].name == roles[b].name :: a == b
  }

  /** The foreign key `User.roleId`. */
  ghost predicate RoleRefsValid(st: State) {
    forall u | u in st.users && st.users[u].role.Some? :: st.users[u].role.value in st.roles
  }

  /**
   `ensureEmailIsUnique(email, excludeId)`: a stored user other than
   `excludeId` has the e-mail. Without `excludeId` every holder counts.
   */
  predicate EmailTaken(users: map<Id, User>, email: string, excludeId: Option<Id>) {
    exists u | u in users :: users[u].email == email && Some(u) != excludeId
  }

  /** `ensureRoleNameIsUnique(name, excludeId)`, the same test on role names. */
  predicate NameTaken(roles: map<Id, Role>, name: string, excludeId: Option<Id>) {
    exists r | r in roles :: roles[r].name == name && Some(r) != excludeId
  }

  /** Some user is assigned the role: the `_count.users` the roles service reads. */
  predicate HasUsers(st: State, role: Id) {
    exists u | u in st.users :: st.users[u].role == Some(role)
  }

  /** Writing a row whose e-mail no other row holds keeps e-mails unique. */
  lemma PutKeepsEmailsUnique(users: map<Id, User>, id: Id, u: User)
    requires EmailsUnique(users) && !EmailTaken(users, u.email, Some(id))
    ensures EmailsUnique(users[id := u])
  {
  }

  /** Writing a row whose name no other row holds keeps role names unique. */
  lemma PutKeepsNamesUnique(roles: map<Id, Role>, id: Id, r: Role)
    requires NamesUnique(roles) && !NameTaken(roles, r.name, Some(id))
    ensures NamesUnique(roles[id := r])
  {
  }

  /** With unique e-mails, `findUnique({ email })`: the one user holding the e-mail, if any. */
  ghost function FindByEmail(users: map<Id, User>, email: string): (r: Option<Id>)
    requires EmailsUnique(users)
    ensures r.None? <==> !EmailTaken(users, email, None)
    ensures r.Some? ==> r.value in users && users[r.value].email == email
  {
    if EmailTaken(users, email, None) then
      var u :| u in users && users[u].email == email;
      Some(u)
    else None
  }
}

=== FILE: auth.dfy ===
/**
 The auth service: credential validation, login, registration and the
 profile read. The signed JWT is a parameter (`token`): signing is not
 modelled, only where the token goes. `updateLastLogin` writes only a
 timestamp, which the model does not keep, so login leaves the store as
 it was.
 */
module Auth {
  import opened Wrappers
  import opened Accounts
  import opened UserMapper
  import Password
  import Strings
  import Users

  function OptText(o: Option<string>): Field {
    if o.Some? then Text(o.value) else Null
  }

  function StatusText(s: UserStatus): string {
    match s
    case Active => "ACTIVE"
    case Inactive => "INACTIVE"
    case Suspended => "SUSPENDED"
  }

  /**
   The `role` relation a user query includes: the stored role with its
   permissions, or null for a user without one.
   */
  function RoleField(roles: map<Id, Role>, role: Option<Id>): (f: Field)
    ensures f.RoleObject? <==> role.Some? && role.value in roles
    ensures !f.RoleObject? ==> f == Null
    ensures f.RoleObject? ==> && f.id == role.value && f.name == roles[role.value].name
                              && f.description == roles[role.value].description
                              && f.permissions == roles[role.value].permissions
  {
    if role.Some? && role.value in roles then
      var r := roles[role.value];
      RoleObject(role.value, r.name, r.description, r.permissions)
    else Null
  }

  /**
   The user object `findUserWithRole` and `createUser` return: the row's
   columns (timestamps left out), `roleId`, and the included role with its
   permissions.
   */
  function RecordOf(roles: map<Id, Role>, id: Id, u: User): (m: Record)
    ensures m.Keys == {"id", "email", "password", "firstName", "lastName", "phone", "avatar", "status", "roleId", "role"}
    ensures m["password"] == Text(u.password) && m["email"] == Text(u.email) && m["id"] == Text(id)
    ensures m["roleId"] == (if u.role.Some? then Text(u.role.value) else Null)
    ensures m["role"] == RoleField(roles, u.role)
  {
    map[
      "id" := Text(id),
      "email" := Text(u.email),
      "password" := Text(u.password),
      "firstName" := Text(u.firstName),
      "lastName" := Text(u.lastName),
      "phone" := OptText(u.phone),
      "avatar" := OptText(u.avatar),
      "status" := Text(StatusText(u.status)),
      "roleId" := OptText(u.role),
      "role" := RoleField(roles, u.role)]
  }

  /**
   `validateUser`: null (None) for an unknown e-mail or a wrong password;
   only a correct password reaches the status check, which raises
   Unauthorized for a user that is not ACTIVE. A success carries the user
   without the password.
   */
  ghost function ValidateUser(st: State, email: string, password: string, kdf: Password.Kdf): (r: Result<Option<Record>>)
    requires EmailsUnique(st.users)
    ensures !EmailTaken(st.users, email, None) ==> r == Ok(None)
    ensures forall u | u in st.users && st.users[u].email == email ::
              && (!Password.Compare(password, st.users[u].password, kdf) ==> r == Ok(None))
              && (Password.Compare(password, st.users[u].password, kdf) && st.users[u].status != Active ==> r == Err(Unauthorized))
              && (Password.Compare(password, st.users[u].password, kdf) && st.users[u].status == Active ==>
                    r == Ok(Some(ExcludePassword(RecordOf(st.roles, u, st.users[u])))))
    ensures r.Err? ==> r.error == Unauthorized
    ensures r.Ok? && r.value.Some? ==> "password" !in r.value.value
  {
    match FindByEmail(st.users, email)
    case None => Ok(None)
    case Some(u) =>
      var user := st.users[u];
      if !Password.Compare(password, user.password, kdf) then Ok(None)
      else if user.status != Active then Err(Unauthorized)
      else Ok(Some(ExcludePassword(RecordOf(st.roles, u, user))))
  }

  /** `login`: Unauthorized when validation yields null (or raises); otherwise the token and the public profile. */
  ghost function Login(st: State, email: string, password: string, kdf: Password.Kdf, token: string): (r: Result<AuthResponse>)
    requires EmailsUnique(st.users)
    ensures r.Err? <==> ValidateUser(st, email, password, kdf) == Ok(None) || ValidateUser(st, email, password, kdf).Err?
    ensures r.Err? ==> r.error == Unauthorized
    ensures r.Ok? ==> && r.value.accessToken == token
                      && "password" !in r.value.user
                      && ValidateUser(st, email, password, kdf).Ok?
                      && ValidateUser(st, email, password, kdf).value.Some?
  {
    var user :- ValidateUser(st, email, password, kdf);
    if user.None? then Err(Unauthorized)
    else Ok(ToAuthResponse(user.value, token))
  }

  /** `RegisterSchema`. */
  datatype RegisterInput = RegisterInput(
    email: string,
    password: string,
    firstName: string,
    lastName: string,
    phone: Option<string>,
    role: Option<Id>)

  function AsUserInput(input: RegisterInput): Users.UserInput {
    Users.UserInput(input.email, input.password, input.firstName, input.lastName, input.phone, None, input.role)
  }

  /**
   `register`: Conflict for a taken e-mail before anything is hashed or
   written; otherwise the new row, and the token beside the row without
   its password.
   */
  function Register(st: State, id: Id, input: RegisterInput, salt: seq<Strings.byte>, kdf: Password.Kdf, token: string): (r: Result<(State, AuthResponse)>)
    requires id !in st.users && |salt| == Password.SaltLength
    ensures EmailTaken(st.users, input.email, None) <==> r == Err(Conflict)
    ensures r.Ok? ==> && id in r.value.0.users
                      && r.value.0.users == st.users[id := r.value.0.users[id]]
                      && r.value.0.users[id].password == Password.Hash(input.password, salt, kdf)
                      && r.value.1.accessToken == token
                      && r.value.1.user == ExcludePassword(RecordOf(r.value.0.roles, id, r.value.0.users[id]))
  {
    var st' :- Users.Create(st, id, AsUserInput(input), salt, kdf);
    var user := st'.users[id];
    Ok((st', AuthResponse(token, ExcludePassword(RecordOf(st'.roles, id, user)))))
  }

  /**
   A freshly registered user can log in at once: validation with the same
   e-mail and password finds the new row, the password compares equal to
   the stored hash, and the default status is ACTIVE.
   */
  lemma RegisterThenValidate(st: State, id: Id, input: RegisterInput, salt: seq<Strings.byte>, kdf: Password.Kdf, token: string)
    requires EmailsUnique(st.users) && id !in st.users && |salt| == Password.SaltLength
    requires |kdf(input.password, Strings.HexEncode(salt))| == Password.KeyLength
    requires Register(st, id, input, salt, kdf, token).Ok?
    ensures var st' := Register(st, id, input, salt, kdf, token).value.0;
            && EmailsUnique(st'.users)
            && ValidateUser(st', input.email, input.password, kdf) == Ok(Some(ExcludePassword(RecordOf(st'.roles, id, st'.users[id]))))
  {
    var st' := Register(st, id, input, salt, kdf, token).value.0;
    Password.CompareHash(input.password, salt, kdf);
    assert st'.users[id].email == input.email;
    assert st'.users[id].status == Active;
  }

  /**
   `getProfile`: NotFound for an unknown id; otherwise the selected
   columns, never the password, and the role with its permissions.
   */
  function GetProfile(st: State, id: Id): (r: Result<Record>)
    ensures id !in st.users <==> r.Err?
    ensures r.Err? ==> r.error == NotFound
    ensures r.Ok? ==> r.value.Keys == {"id", "email", "firstName", "lastName", "avatar", "phone", "status", "role"}
    ensures r.Ok? ==> r.value["id"] == Text(id) && r.value["email"] == Text(st.users[id].email)
    ensures r.Ok? ==> r.value["role"] == RoleField(st.roles, st.users[id].role)
  {
    if id !in st.users then Err(NotFound)
    else
      var u := st.users[id];
      Ok(map[
        "id" := Text(id),
        "email" := Text(u.email),
        "firstName" := Text(u.firstName),
        "lastName" := Text(u.lastName),
        "avatar" := OptText(u.avatar),
        "phone" := OptText(u.phone),
        "status" := Text(StatusText(u.status)),
        "role" := RoleField(st.roles, u.role)])
  }

  /**
   With the `roleId` foreign key intact, the profile carries a role object
   exactly when the user has a role, and it holds that role's name and
   permissions.
   */
  lemma ProfileRoleIsUsersRole(st: State, id: Id)
    requires RoleRefsValid(st) && id in st.users
    ensures GetProfile(st, id).Ok?
    ensures GetProfile(st, id).value["role"].RoleObject? <==> st.users[id].role.Some?
    ensures st.users[id].role.Some? ==>
      && GetProfile(st, id).value["role"].name == st.roles[st.users[id].role.value].name
      && GetProfile(st, id).value["role"].permissions == st.roles[st.users[id].role.value].permissions
  {
  }

  /** A successful login validation and the profile read return the same role object. */
  lemma ValidatedRoleIsProfileRole(st: State, email: string, password: string, kdf: Password.Kdf, u: Id)
    requires EmailsUnique(st.users) && u in st.users && st.users[u].email == email
    requires ValidateUser(st, email, password, kdf).Ok? && ValidateUser(st, email, password, kdf).value.Some?
    ensures "role" in ValidateUser(st, email, password, kdf).value.value
    ensures ValidateUser(st, email, password, kdf).value.value["role"] == GetProfile(st, u).value["role"]
  {
  }
}

=== FILE: chat.dfy ===
/**
 The chat service: chat creation with direct-chat reuse, participant
 checks, messages with owner-only edit and soft delete, who is notified
 of a new message, and the clean-up that removes duplicate direct chats.

 Timestamps appear only where the service compares them: a chat's
 `createdAt` decides which duplicate survives. Listing order, includes
 and the notification rows themselves are not modelled.
 */
module Chat {
  import opened Wrappers
  import opened Counting
  import Strings

  datatype Chat = Chat(name: Option<string>, isGroup: bool, participants: seq<Id>, createdAt: int)

  datatype Message = Message(chat: Id, sender: Id, content: string, isEdited: bool, isDeleted: bool)

  datatype State = State(users: set<Id>, chats: map<Id, Chat>, messages: map<Id, Message>)

  /** `CreateChatSchema`. */
  datatype ChatInput = ChatInput(name: Option<string>, isGroup: bool, participantIds: seq<Id>)

  // ---------------------------------------------------------------------
  // Creating a chat
  // ---------------------------------------------------------------------

  /** `ensureAllParticipantsExist`: `findMany` returns each stored user once, however often it is listed. */
  function FoundCount(users: set<Id>, ids: seq<Id>): nat {
    |users * Members(ids)|
  }

  /** The count test passes exactly when every id is a stored user and no id is repeated. */
  lemma FoundCountMeans(users: set<Id>, ids: seq<Id>)
    ensures FoundCount(users, ids) == |ids| <==> (forall i | 0 <= i < |ids| :: ids[i] in users) && Distinct(ids)
  {
    var found := users * Members(ids);
    var listed := Members(ids);
    DistinctCard(ids);
    if forall i | 0 <= i < |ids| :: ids[i] in users {
      assert found == listed;
    } else {
      var i :| 0 <= i < |ids| && ids[i] !in users;
      assert found < listed by { assert ids[i] in listed && ids[i] !in found; }
      SubsetSmaller(found, listed);
    }
  }

  /** `isDirectChat`: not a group, and the creator plus the listed ids are two entries. */
  predicate IsDirectChat(isGroup: bool, all: seq<Id>) {
    !isGroup && |all| == 2
  }

  /** The `findExistingDirectChat` filter as written: a non-group chat EVERY participant of which is in the list. */
  predicate MatchesAsWritten(c: Chat, all: seq<Id>) {
    !c.isGroup && forall p | p in c.participants :: p in all
  }

  /** The evidently intended filter: a non-group chat whose participants are exactly the listed users. */
  predicate MatchesExactly(c: Chat, all: seq<Id>) {
    !c.isGroup && Members(c.participants) == Members(all)
  }

  predicate Matches(c: Chat, all: seq<Id>, exact: bool) {
    if exact then MatchesExactly(c, all) else MatchesAsWritten(c, all)
  }

  /**
   `createChat`, with the direct-chat lookup as written (`exact` false) or
   as intended (`exact` true). NotFound for an unknown creator, then
   Forbidden unless the listed ids are distinct stored users; a direct
   chat reuses a matching chat if one exists; otherwise a new chat holds
   the creator followed by the listed ids.
   */
  ghost function CreateChatUsing(st: State, creator: Id, input: ChatInput, newId: Id, now: int, exact: bool): (r: Result<(State, Id)>)
    requires newId !in st.chats
    ensures creator !in st.users <==> r == Err(NotFound)
    ensures creator in st.users && FoundCount(st.users, input.participantIds) != |input.participantIds| <==> r == Err(Forbidden)
    ensures r.Ok? && r.value.1 != newId ==> && r.value.0 == st && r.value.1 in st.chats
                                            && IsDirectChat(input.isGroup, [creator] + input.participantIds)
                                            && Matches(st.chats[r.value.1], [creator] + input.participantIds, exact)
    ensures r.Ok? && r.value.1 == newId ==> r.value.0 == st.(chats := st.chats[newId := Chat(input.name, input.isGroup, [creator] + input.participantIds, now)])
    ensures (&& r.Ok? && IsDirectChat(input.isGroup, [creator] + input.participantIds)
             && exists c | c in st.chats :: Matches(st.chats[c], [creator] + input.participantIds, exact))
            ==> r.value.1 != newId
    ensures r.Ok? && !IsDirectChat(input.isGroup, [creator] + input.participantIds) ==> r.value.1 == newId
    ensures r.Ok? && (forall c | c in st.chats :: !Matches(st.chats[c], [creator] + input.participantIds, exact)) ==> r.value.1 == newId
  {
    if creator !in st.users then Err(NotFound)
    else if FoundCount(st.users, input.participantIds) != |input.participantIds| then Err(Forbidden)
    else
      var all := [creator] + input.participantIds;
      if IsDirectChat(input.isGroup, all) && exists c | c in st.chats :: Matches(st.chats[c], all, exact) then
        var c :| c in st.chats && Matches(st.chats[c], all, exact);
        Ok((st, c))
      else
        Ok((st.(chats := st.chats[newId := Chat(input.name, input.isGroup, all, now)]), newId))
  }

  /** `createChat` as written. */
  ghost function CreateChatAsWritten(st: State, creator: Id, input: ChatInput, newId: Id, now: int): (r: Result<(State, Id)>)
    requires newId !in st.chats
    ensures creator !in st.users <==> r == Err(NotFound)
    ensures creator in st.users && FoundCount(st.users, input.participantIds) != |input.participantIds| <==> r == Err(Forbidden)
    ensures r.Ok? ==> r.value.1 in r.value.0.chats
    ensures (&& r.Ok? && IsDirectChat(input.isGroup, [creator] + input.participantIds)
             && exists c | c in st.chats :: MatchesAsWritten(st.chats[c], [creator] + input.participantIds))
            ==> r.value.0 == st && MatchesAsWritten(st.chats[r.value.1], [creator] + input.participantIds)
  {
    CreateChatUsing(st, creator, input, newId, now, false)
  }

  /** `createChat` with the exact direct-chat lookup: the chat handed back always holds every requested participant. */
  ghost function CreateChat(st: State, creator: Id, input: ChatInput, newId: Id, now: int): (r: Result<(State, Id)>)
    requires newId !in st.chats
    ensures creator !in st.users <==> r == Err(NotFound)
    ensures creator in st.users && FoundCount(st.users, input.participantIds) != |input.participantIds| <==> r == Err(Forbidden)
    ensures r.Ok? ==> && r.value.1 in r.value.0.chats
                      && creator in r.value.0.chats[r.value.1].participants
                      && forall p | p in input.participantIds :: p in r.value.0.chats[r.value.1].participants
    ensures (&& r.Ok? && IsDirectChat(input.isGroup, [creator] + input.participantIds)
             && exists c | c in st.chats :: MatchesExactly(st.chats[c], [creator] + input.participantIds))
            ==> r.value.0 == st && MatchesExactly(st.chats[r.value.1], [creator] + input.participantIds)
  {
    var r := CreateChatUsing(st, creator, input, newId, now, true);
    if r.Ok? && r.value.1 != newId then
      ExactMatchHoldsAll(st.chats[r.value.1], [creator] + input.participantIds);
      r
    else r
  }

  /** An exactly matching chat lists every requested user. */
  lemma ExactMatchHoldsAll(c: Chat, all: seq<Id>)
    requires MatchesExactly(c, all)
    ensures forall p | p in all :: p in c.participants
  {
    forall p | p in all ensures p in c.participants {
      assert p in Members(all);
    }
  }

  /**
   A self-chat (`participantIds` = [creator]) is a direct chat whose
   participant list is the creator twice; the service creates it.
   */
  lemma SelfChatIsCreated()
    ensures var st := State({"a", "b"}, map[], map[]);
            CreateChatAsWritten(st, "a", ChatInput(None, false, ["a"]), "x", 0)
              == Ok((st.(chats := map["x" := Chat(None, false, ["a", "a"], 0)]), "x"))
  {
    var st := State({"a", "b"}, map[], map[]);
    OneFound(st.users, "a");
    var all: seq<Id> := ["a"] + ["a"];
    assert all == ["a", "a"];
    assert IsDirectChat(false, all);
    var r := CreateChatUsing(st, "a", ChatInput(None, false, ["a"]), "x", 0, false);
    assert r.Ok?;
    assert r.value.1 == "x";
  }

  /**
   After that, "a" opening a direct chat with "b" is handed the self-chat,
   which "b" is not part of: every participant of it is in ["a", "b"].
   */
  lemma AsWrittenReturnsChatWithoutPeer()
    ensures var st := State({"a", "b"}, map["x" := Chat(None, false, ["a", "a"], 0)], map[]);
            && CreateChatAsWritten(st, "a", ChatInput(None, false, ["b"]), "y", 1) == Ok((st, "x"))
            && "b" !in st.chats["x"].participants
  {
    var st := State({"a", "b"}, map["x" := Chat(None, false, ["a", "a"], 0)], map[]);
    OneFound(st.users, "b");
    assert MatchesAsWritten(st.chats["x"], ["a", "b"]);
  }

  /**
   The self-chat is one way to reach such a state; any non-group chat left
   holding "a"'s row alone serves as well: the lookup hands it back to "a"
   asking for a direct chat with "b".
   */
  lemma AsWrittenReturnsLoneChat()
    ensures var st := State({"a", "b"}, map["x" := Chat(None, false, ["a"], 0)], map[]);
            && CreateChatAsWritten(st, "a", ChatInput(None, false, ["b"]), "y", 1) == Ok((st, "x"))
            && "b" !in st.chats["x"].participants
  {
    var st := State({"a", "b"}, map["x" := Chat(None, false, ["a"], 0)], map[]);
    OneFound(st.users, "b");
    assert MatchesAsWritten(st.chats["x"], ["a", "b"]);
  }

  /** With the exact lookup, the same request creates a new chat for "a" and "b". */
  lemma ExactCreatesChatWithPeer()
    ensures var st := State({"a", "b"}, map["x" := Chat(None, false, ["a", "a"], 0)], map[]);
            CreateChat(st, "a", ChatInput(None, false, ["b"]), "y", 1)
              == Ok((st.(chats := st.chats["y" := Chat(None, false, ["a", "b"], 1)]), "y"))
  {
    var st := State({"a", "b"}, map["x" := Chat(None, false, ["a", "a"], 0)], map[]);
    OneFound(st.users, "b");
    var all: seq<Id> := ["a"] + ["b"];
    assert all == ["a", "b"];
    assert "b" in Members(all) && "b" !in Members(["a", "a"]);
    assert !Matches(st.chats["x"], all, true);
    var r := CreateChatUsing(st, "a", ChatInput(None, false, ["b"]), "y", 1, true);
    assert r.value.1 == "y";
  }

  /** A single stored id is found once. */
  lemma OneFound(users: set<Id>, u: Id)
    requires u in users
    ensures FoundCount(users, [u]) == 1
  {
    assert Members([u]) == {u};
    assert users * {u} == {u};
  }

  // ---------------------------------------------------------------------
  // Participants and messages
  // ---------------------------------------------------------------------

  /** `ensureUserIsParticipant` / `findOneChat`: the chat exists and lists the user. */
  predicate IsParticipant(st: State, chat: Id, user: Id) {
    chat in st.chats && user in st.chats[chat].participants
  }

  /** `findOneChat`: NotFound unless the user takes part in the chat. */
  function FindOneChat(st: State, chat: Id, user: Id): (r: Result<Chat>)
    ensures r.Ok? <==> IsParticipant(st, chat, user)
    ensures r.Err? ==> r.error == NotFound
    ensures r.Ok? ==> r.value == st.chats[chat]
  {
    if IsParticipant(st, chat, user) then Ok(st.chats[chat]) else Err(NotFound)
  }

  /** `sub` keeps some of the entries of `s`, in their order (matched greedily from the front). */
  predicate InOrder(sub: seq<Id>, s: seq<Id>)
    decreases |s|
  {
    if |sub| == 0 then true
    else if |s| == 0 then false
    else if sub[0] == s[0] then InOrder(sub[1..], s[1..])
    else InOrder(sub, s[1..])
  }

  /**
   `notifyParticipants`: every participant row except the sender's, in
   order: the result keeps the order of `participants` and holds each other
   participant as often as it is listed, and the sender never.
   */
  function Others(participants: seq<Id>, sender: Id): (r: seq<Id>)
    ensures sender !in r
    ensures forall p :: p in r <==> p in participants && p != sender
    ensures |r| <= |participants|
    ensures InOrder(r, participants)
    ensures multiset(r) == multiset(participants)[sender := 0]
  {
    if |participants| == 0 then []
    else
      var rest := Others(participants[1..], sender);
      assert forall p :: p in participants <==> p == participants[0] || p in participants[1..];
      assert participants == [participants[0]] + participants[1..];
      if participants[0] == sender then rest
      else
        assert ([participants[0]] + rest)[1..] == rest;
        [participants[0]] + rest
  }

  /**
   `sendMessage`: NotFound unless the sender takes part in the chat;
   otherwise the message is stored and every other participant is to be
   notified, never the sender.
   */
  function SendMessage(st: State, chat: Id, sender: Id, content: string, newId: Id): (r: Result<(State, seq<Id>)>)
    requires newId !in st.messages
    ensures !IsParticipant(st, chat, sender) <==> r.Err?
    ensures r.Err? ==> r.error == NotFound
    ensures r.Ok? ==> && r.value.0 == st.(messages := st.messages[newId := Message(chat, sender, content, false, false)])
                      && sender !in r.value.1
                      && forall p :: p in r.value.1 <==> p in st.chats[chat].participants && p != sender
  {
    if !IsParticipant(st, chat, sender) then Err(NotFound)
    else Ok((st.(messages := st.messages[newId := Message(chat, sender, content, false, false)]), Others(st.chats[chat].participants, sender)))
  }

  /** The messages `getChatMessages` lists: the chat's messages that are not deleted. */
  function VisibleMessages(st: State, chat: Id): (ms: set<Id>)
    ensures forall m :: m in ms <==> m in st.messages && st.messages[m].chat == chat && !st.messages[m].isDeleted
  {
    set m | m in st.messages && st.messages[m].chat == chat && !st.messages[m].isDeleted
  }

  /** `getChatMessages` without its page window: NotFound for a non-participant. */
  function GetChatMessages(st: State, chat: Id, user: Id): (r: Result<set<Id>>)
    ensures r.Ok? <==> IsParticipant(st, chat, user)
    ensures r.Err? ==> r.error == NotFound
    ensures r.Ok? ==> forall m :: m in r.value <==> m in st.messages && st.messages[m].chat == chat && !st.messages[m].isDeleted
  {
    if !IsParticipant(st, chat, user) then Err(NotFound) else Ok(VisibleMessages(st, chat))
  }

  /** `updateMessage`: only the sender, only while not deleted; the content changes and the message is marked edited. */
  function UpdateMessage(st: State, msg: Id, user: Id, content: string): (r: Result<State>)
    ensures r.Ok? <==> msg in st.messages && st.messages[msg].sender == user && !st.messages[msg].isDeleted
    ensures r.Err? ==> r.error == NotFound
    ensures r.Ok? ==> && r.value.messages.Keys == st.messages.Keys
                      && r.value.messages[msg] == st.messages[msg].(content := content, isEdited := true)
                      && (forall m | m in st.messages && m != msg :: r.value.messages[m] == st.messages[m])
                      && r.value.chats == st.chats && r.value.users == st.users
  {
    if msg in st.messages && st.messages[msg].sender == user && !st.messages[msg].isDeleted then
      Ok(st.(messages := st.messages[msg := st.messages[msg].(content := content, isEdited := true)]))
    else Err(NotFound)
  }

  /** `deleteMessage`: only the sender (a deleted message may be deleted again); the row stays, marked deleted. */
  function DeleteMessage(st: State, msg: Id, user: Id): (r: Result<State>)
    ensures r.Ok? <==> msg in st.messages && st.messages[msg].sender == user
    ensures r.Err? ==> r.error == NotFound
    ensures r.Ok? ==> && r.value.messages.Keys == st.messages.Keys
                      && r.value.messages[msg] == st.messages[msg].(isDeleted := true)
                      && (forall m | m in st.messages && m != msg :: r.value.messages[m] == st.messages[m])
                      && r.value.chats == st.chats && r.value.users == st.users
  {
    if msg in st.messages && st.messages[msg].sender == user then
      Ok(st.(messages := st.messages[msg := st.messages[msg].(isDeleted := true)]))
    else Err(NotFound)
  }

  /** A deleted message leaves the listing, can no longer be edited, and every other listed message stays. */
  lemma DeletedMessageGone(st: State, msg: Id, user: Id, content: string)
    requires DeleteMessage(st, msg, user).Ok?
    ensures var st' := DeleteMessage(st, msg, user).value;
            && VisibleMessages(st', st.messages[msg].chat) == VisibleMessages(st, st.messages[msg].chat) - {msg}
            && UpdateMessage(st', msg, user, content) == Err(NotFound)
  {
  }

  // ---------------------------------------------------------------------
  // Duplicate clean-up
  // ---------------------------------------------------------------------

  /** `createParticipantsKey`: the participant ids sorted and joined with '-'. */
  function ParticipantsKey(ids: seq<Id>): string {
    if |ids| == 0 then "" else Strings.Join(Strings.Sort(ids), '-')
  }

  /** The key does not depend on the order the participants are listed in. */
  lemma ParticipantsKeyOrderFree(a: seq<Id>, b: seq<Id>)
    requires multiset(a) == multiset(b)
    ensures ParticipantsKey(a) == ParticipantsKey(b)
  {
    Strings.SortPermutationInvariant(a, b);
    assert |b| == |multiset(b)| == |multiset(a)| == |a|;
  }

  /** Only two-participant chats are grouped. */
  predicate Eligible(chats: map<Id, Chat>, c: Id)
    requires c in chats
  {
    |chats[c].participants| == 2
  }

  function Key(chats: map<Id, Chat>, c: Id): string
    requires c in chats
  {
    ParticipantsKey(chats[c].participants)
  }

  predicate Listed(chats: map<Id, Chat>, listed: seq<Id>) {
    forall i | 0 <= i < |listed| :: listed[i] in chats
  }

  /** The listed eligible chats. */
  ghost function EligibleListed(chats: map<Id, Chat>, listed: seq<Id>): set<Id>
    requires Listed(chats, listed)
  {
    set c | c in listed && Eligible(chats, c)
  }

  /** `groupChatsByParticipants`: a pass over the listed chats that appends each eligible chat to the list of its key. */
  function Groups(chats: map<Id, Chat>, listed: seq<Id>): (g: map<string, seq<Id>>)
    requires Listed(chats, listed)
  {
    if |listed| == 0 then map[]
    else
      var g := Groups(chats, listed[..|listed| - 1]);
      var c := listed[|listed| - 1];
      if !Eligible(chats, c) then g
      else
        var k := Key(chats, c);
        g[k := (if k in g then g[k] else []) + [c]]
  }

  /** The listed eligible chats with key `k`, in listing order. */
  function GroupOf(chats: map<Id, Chat>, listed: seq<Id>, k: string): seq<Id>
    requires Listed(chats, listed)
  {
    if |listed| == 0 then []
    else
      var c := listed[|listed| - 1];
      GroupOf(chats, listed[..|listed| - 1], k) + (if Eligible(chats, c) && Key(chats, c) == k then [c] else [])
  }

  /** A key's group holds exactly the listed eligible chats with that key. */
  lemma {:induction false} GroupOfHas(chats: map<Id, Chat>, listed: seq<Id>, k: string)
    requires Listed(chats, listed)
    ensures forall c :: c in GroupOf(chats, listed, k) <==> c in listed && Eligible(chats, c) && Key(chats, c) == k
    decreases |listed|
  {
    if |listed| > 0 {
      var pre, c := listed[..|listed| - 1], listed[|listed| - 1];
      GroupOfHas(chats, pre, k);
      assert listed == pre + [c];
    }
  }

  /** A listing without repeats gives a group without repeats. */
  lemma {:induction false} GroupOfDistinct(chats: map<Id, Chat>, listed: seq<Id>, k: string)
    requires Listed(chats, listed) && Distinct(listed)
    ensures Distinct(GroupOf(chats, listed, k))
    decreases |listed|
  {
    if |listed| > 0 {
      var pre, c := listed[..|listed| - 1], listed[|listed| - 1];
      assert listed == pre + [c];
      assert Distinct(pre);
      GroupOfDistinct(chats, pre, k);
      var r := GroupOf(chats, pre, k);
      if Eligible(chats, c) && Key(chats, c) == k {
        GroupOfHas(chats, pre, k);
        assert c !in pre;
        assert c !in r;
        forall i, j | 0 <= i < j < |r + [c]| ensures (r + [c])[i] != (r + [c])[j] {
          if j == |r| { assert (r + [c])[i] == r[i]; }
        }
      }
    }
  }

  /** A key's group holds exactly the listed eligible chats with that key, each once when the listing has no repeats. */
  lemma GroupOfMembers(chats: map<Id, Chat>, listed: seq<Id>, k: string)
    requires Listed(chats, listed)
    ensures forall c :: c in GroupOf(chats, listed, k) <==> c in listed && Eligible(chats, c) && Key(chats, c) == k
    ensures Distinct(listed) ==> Distinct(GroupOf(chats, listed, k))
  {
    GroupOfHas(chats, listed, k);
    if Distinct(listed) {
      GroupOfDistinct(chats, listed, k);
    }
  }

  /** The pass builds, for each key that occurs, exactly the group of that key. */
  lemma {:induction false} GroupsAreGroupOf(chats: map<Id, Chat>, listed: seq<Id>)
    requires Listed(chats, listed)
    ensures forall k :: k in Groups(chats, listed) <==> |GroupOf(chats, listed, k)| > 0
    ensures forall k | k in Groups(chats, listed) :: Groups(chats, listed)[k] == GroupOf(chats, listed, k)
    decreases |listed|
  {
    if |listed| > 0 {
      GroupsAreGroupOf(chats, listed[..|listed| - 1]);
    }
  }

  /** The chat `sortChatsByCreationDate(...)[0]` picks (see `NewestIsNewest`). */
  function Newest(chats: map<Id, Chat>, g: seq<Id>): (n: nat)
    requires |g| > 0 && Listed(chats, g)
    ensures n < |g|
  {
    if |g| == 1 then 0
    else
      var j := Newest(chats, g[..|g| - 1]);
      if chats[g[|g| - 1]].createdAt > chats[g[j]].createdAt then |g| - 1 else j
  }

  /** The picked chat is the newest by `createdAt`, and of several equally new the one listed first (the sort is stable). */
  lemma {:induction false} NewestIsNewest(chats: map<Id, Chat>, g: seq<Id>)
    requires |g| > 0 && Listed(chats, g)
    ensures forall i | 0 <= i < |g| :: chats[g[i]].createdAt <= chats[g[Newest(chats, g)]].createdAt
    ensures forall i | 0 <= i < Newest(chats, g) :: chats[g[i]].createdAt < chats[g[Newest(chats, g)]].createdAt
    decreases |g|
  {
    if |g| > 1 {
      NewestIsNewest(chats, g[..|g| - 1]);
    }
  }

  predicate GroupsListed(chats: map<Id, Chat>, G: map<string, seq<Id>>) {
    forall k | k in G :: |G[k]| > 0 && Listed(chats, G[k])
  }

  /** Every group is non-empty, repeats no chat, and holds only chats of its own key. */
  predicate WellKeyed(chats: map<Id, Chat>, G: map<string, seq<Id>>) {
    && GroupsListed(chats, G)
    && forall k | k in G :: Distinct(G[k]) && forall i | 0 <= i < |G[k]| :: Key(chats, G[k][i]) == k
  }

  /** The groups hold exactly the chats of `E`, each in the group of its key. */
  predicate Partitions(chats: map<Id, Chat>, G: map<string, seq<Id>>, E: set<Id>) {
    && (forall k | k in G :: forall i | 0 <= i < |G[k]| :: G[k][i] in E)
    && (forall c | c in E :: c in chats && Key(chats, c) in G && c in G[Key(chats, c)])
  }

  /** The pass partitions the eligible listed chats by key. */
  lemma GroupsPartition(chats: map<Id, Chat>, listed: seq<Id>)
    requires Listed(chats, listed) && Distinct(listed)
    ensures WellKeyed(chats, Groups(chats, listed))
    ensures Partitions(chats, Groups(chats, listed), EligibleListed(chats, listed))
  {
    GroupsAreGroupOf(chats, listed);
    var G := Groups(chats, listed);
    forall k | k in G ensures |G[k]| > 0 && Listed(chats, G[k]) && Distinct(G[k]) && forall i | 0 <= i < |G[k]| :: Key(chats, G[k][i]) == k && G[k][i] in EligibleListed(chats, listed) {
      GroupOfMembers(chats, listed, k);
      forall i | 0 <= i < |G[k]| ensures G[k][i] in chats && Key(chats, G[k][i]) == k && G[k][i] in EligibleListed(chats, listed) {
        assert G[k][i] in GroupOf(chats, listed, k);
      }
    }
    forall c | c in EligibleListed(chats, listed) ensures Key(chats, c) in G && c in G[Key(chats, c)] {
      GroupOfMembers(chats, listed, Key(chats, c));
    }
  }

  /** `removeDuplicateChats`: in every group, every chat but the newest. */
  function Duplicates(chats: map<Id, Chat>, G: map<string, seq<Id>>): set<Id>
    requires GroupsListed(chats, G)
  {
    set k, i | k in G && 0 <= i < |G[k]| && i != Newest(chats, G[k]) :: G[k][i]
  }

  /** The newest chat of the groups with keys in `ks`. */
  ghost function Kept(chats: map<Id, Chat>, G: map<string, seq<Id>>, ks: set<string>): set<Id>
    requires GroupsListed(chats, G) && ks <= G.Keys
  {
    set k | k in ks :: G[k][Newest(chats, G[k])]
  }

  /** The duplicates are the partitioned chats that are not the newest of their key. */
  lemma DuplicatesAreNotKept(chats: map<Id, Chat>, G: map<string, seq<Id>>, E: set<Id>)
    requires WellKeyed(chats, G) && Partitions(chats, G, E)
    ensures Duplicates(chats, G) == E - Kept(chats, G, G.Keys)
  {
    forall c | c in Duplicates(chats, G) ensures c in E && c !in Kept(chats, G, G.Keys) {
      var k, i :| k in G && 0 <= i < |G[k]| && i != Newest(chats, G[k]) && G[k][i] == c;
      forall k' | k' in G ensures G[k'][Newest(chats, G[k'])] != c {
        var n := Newest(chats, G[k']);
        if k' == k {
          assert Distinct(G[k]);
          if i < n { assert G[k][i] != G[k][n]; } else { assert G[k][n] != G[k][i]; }
        } else {
          assert Key(chats, G[k'][n]) == k' && Key(chats, G[k][i]) == k;
        }
      }
    }
    forall c | c in E && c !in Kept(chats, G, G.Keys) ensures c in Duplicates(chats, G) {
      var k := Key(chats, c);
      var i :| 0 <= i < |G[k]| && G[k][i] == c;
      assert G[k][Newest(chats, G[k])] in Kept(chats, G, G.Keys);
    }
  }

  /** The newest chat of key `k` is not the newest of any other key. */
  lemma KeptFresh(chats: map<Id, Chat>, G: map<string, seq<Id>>, ks: set<string>, k: string)
    requires WellKeyed(chats, G) && ks <= G.Keys && k in ks
    ensures G[k][Newest(chats, G[k])] !in Kept(chats, G, ks - {k})
  {
    var c := G[k][Newest(chats, G[k])];
    forall k' | k' in ks - {k} ensures G[k'][Newest(chats, G[k'])] != c {
      assert Key(chats, G[k'][Newest(chats, G[k'])]) == k' && Key(chats, c) == k;
    }
  }

  /** Taking one key out of `ks` takes exactly its newest chat out of the kept ones. */
  lemma KeptSplit(chats: map<Id, Chat>, G: map<string, seq<Id>>, ks: set<string>, k: string)
    requires GroupsListed(chats, G) && ks <= G.Keys && k in ks
    ensures Kept(chats, G, ks) == Kept(chats, G, ks - {k}) + {G[k][Newest(chats, G[k])]}
  {
    var c := G[k][Newest(chats, G[k])];
    var rest := Kept(chats, G, ks - {k});
    forall x | x in Kept(chats, G, ks) ensures x in rest + {c} {
      var k' :| k' in ks && G[k'][Newest(chats, G[k'])] == x;
      if k' != k { assert x in rest; }
    }
    forall x | x in rest + {c} ensures x in Kept(chats, G, ks) {
      if x != c {
        var k' :| k' in ks - {k} && G[k'][Newest(chats, G[k'])] == x;
      }
    }
  }

  /** Distinct keys have distinct newest chats, so there are as many kept chats as keys. */
  lemma {:induction false} KeptCard(chats: map<Id, Chat>, G: map<string, seq<Id>>, ks: set<string>)
    requires WellKeyed(chats, G) && ks <= G.Keys
    ensures |Kept(chats, G, ks)| == |ks|
    decreases ks
  {
    if ks != {} {
      var k :| k in ks;
      KeptCard(chats, G, ks - {k});
      KeptFresh(chats, G, ks, k);
      KeptSplit(chats, G, ks, k);
    }
  }

  /** The number of duplicates is the sum over groups of (size − 1): the partitioned chats minus one per key. */
  lemma DuplicateCount(chats: map<Id, Chat>, G: map<string, seq<Id>>, E: set<Id>)
    requires WellKeyed(chats, G) && Partitions(chats, G, E)
    ensures |Duplicates(chats, G)| == |E| - |G.Keys|
  {
    DuplicatesAreNotKept(chats, G, E);
    KeptCard(chats, G, G.Keys);
    forall c | c in Kept(chats, G, G.Keys) ensures c in E {
      var k :| k in G && G[k][Newest(chats, G[k])] == c;
    }
  }

  /** The user's direct chats, the set `findUserDirectChats` returns. */
  function DirectChatsOf(st: State, user: Id): set<Id> {
    set c | c in st.chats && !st.chats[c].isGroup && user in st.chats[c].participants
  }

  datatype Cleanup = Cleanup(deleted: set<Id>, remainingChats: int)

  predicate CleanupInput(st: State, user: Id, listed: seq<Id>) {
    Listed(st.chats, listed) && Distinct(listed) && (set c | c in listed) == DirectChatsOf(st, user)
  }

  /**
   `cleanupDuplicateChats`: `listed` is the user's direct chats in the
   order the store lists them. Every eligible chat but the newest of its
   key is deleted with its messages; one chat per key and every chat with
   other than two participants stay. The report gives the deleted chats
   and the listed count minus their count.
   */
  function CleanupDuplicateChats(st: State, user: Id, listed: seq<Id>): (r: (State, Cleanup))
    requires CleanupInput(st, user, listed)
    ensures r.1.deleted <= DirectChatsOf(st, user)
    ensures forall c | c in st.chats && c !in r.0.chats :: c in listed && Eligible(st.chats, c)
    ensures |r.1.deleted| == |EligibleListed(st.chats, listed)| - |Groups(st.chats, listed).Keys|
    ensures r.1.remainingChats == |listed| - |r.1.deleted|
    ensures r.0.chats.Keys == st.chats.Keys - r.1.deleted
    ensures forall c | c in r.0.chats :: r.0.chats[c] == st.chats[c]
    ensures r.0.messages.Keys <= st.messages.Keys
    ensures forall m | m in st.messages :: m in r.0.messages <==> st.messages[m].chat !in r.1.deleted
    ensures r.0.users == st.users
  {
    var G := Groups(st.chats, listed);
    GroupsPartition(st.chats, listed);
    var deleted := Duplicates(st.chats, G);
    DuplicateCount(st.chats, G, EligibleListed(st.chats, listed));
    var chats' := map c | c in st.chats && c !in deleted :: st.chats[c];
    var messages' := map m | m in st.messages && st.messages[m].chat !in deleted :: st.messages[m];
    (st.(chats := chats', messages := messages'), Cleanup(deleted, |listed| - |deleted|))
  }

  /** An eligible listed chat that survives the clean-up is the newest of its key. */
  lemma SurvivorIsKept(st: State, user: Id, listed: seq<Id>, c: Id)
    requires CleanupInput(st, user, listed)
    requires c in listed && Eligible(st.chats, c)
    requires c in CleanupDuplicateChats(st, user, listed).0.chats
    ensures GroupsListed(st.chats, Groups(st.chats, listed))
    ensures c in Kept(st.chats, Groups(st.chats, listed), Groups(st.chats, listed).Keys)
  {
    var G := Groups(st.chats, listed);
    var E := EligibleListed(st.chats, listed);
    GroupsPartition(st.chats, listed);
    DuplicatesAreNotKept(st.chats, G, E);
    assert CleanupDuplicateChats(st, user, listed).1.deleted == Duplicates(st.chats, G);
    assert c in E;
  }

  /** After the clean-up no two eligible listed chats with the same key remain. */
  lemma CleanupLeavesOnePerKey(st: State, user: Id, listed: seq<Id>, c: Id, d: Id)
    requires CleanupInput(st, user, listed)
    requires c in listed && d in listed && Eligible(st.chats, c) && Eligible(st.chats, d)
    requires Key(st.chats, c) == Key(st.chats, d)
    requires c in CleanupDuplicateChats(st, user, listed).0.chats && d in CleanupDuplicateChats(st, user, listed).0.chats
    ensures c == d
  {
    var G := Groups(st.chats, listed);
    SurvivorIsKept(st, user, listed, c);
    SurvivorIsKept(st, user, listed, d);
    GroupsPartition(st.chats, listed);
    var kc :| kc in G && G[kc][Newest(st.chats, G[kc])] == c;
    var kd :| kd in G && G[kd][Newest(st.chats, G[kd])] == d;
    assert Key(st.chats, c) == kc && Key(st.chats, d) == kd;
  }

  /** Every eligible listed chat is deleted only in favour of a chat of the same key at least as new, which stays. */
  lemma CleanupKeepsNewest(st: State, user: Id, listed: seq<Id>, c: Id)
    requires CleanupInput(st, user, listed)
    requires c in listed && Eligible(st.chats, c)
    ensures exists s | s in CleanupDuplicateChats(st, user, listed).0.chats ::
              && s in listed && Eligible(st.chats, s) && Key(st.chats, s) == Key(st.chats, c)
              && st.chats[c].createdAt <= st.chats[s].createdAt
  {
    var G := Groups(st.chats, listed);
    var E := EligibleListed(st.chats, listed);
    GroupsPartition(st.chats, listed);
    DuplicatesAreNotKept(st.chats, G, E);
    var k := Key(st.chats, c);
    var s := G[k][Newest(st.chats, G[k])];
    NewestIsNewest(st.chats, G[k]);
    assert s in Kept(st.chats, G, G.Keys);
    var i :| 0 <= i < |G[k]| && G[k][i] == c;
    assert s in CleanupDuplicateChats(st, user, listed).0.chats;
  }
}

=== FILE: cors.dfy ===
/**
 `createCorsConfig`: the allowed origins come from the `CORS_ORIGIN`
 environment variable (the parameter `env`, `None` when unset), as a
 comma-separated list; every other option is fixed.
 */
module Cors {
  import opened Wrappers
  import Strings

  datatype Origin = AnyOrigin | OriginList(origins: seq<string>)

  datatype CorsConfig = CorsConfig(
    origin: Origin,
    credentials: bool,
    methods: seq<string>,
    allowedHeaders: seq<string>,
    exposedHeaders: seq<string>,
    maxAge: nat)

  const Methods: seq<string> := ["GET", "POST", "PUT", "PATCH", "DELETE", "OPTIONS"]
  const AllowedHeaders: seq<string> := ["Content-Type", "Authorization", "Accept"]
  const ExposedHeaders: seq<string> := ["X-Total-Count", "X-Page", "X-Page-Size"]
  const MaxAge: nat := 3600

  /** `originEnv.split(',').map(o => o.trim())`. */
  function ParseOrigins(env: string): (os: seq<string>)
    ensures |os| == |Strings.Split(env, ',')| == Strings.Count(env, ',') + 1
    ensures forall i | 0 <= i < |os| :: os[i] == Strings.Trim(Strings.Split(env, ',')[i])
  {
    Strings.SplitCount(env, ',');
    TrimAll(Strings.Split(env, ','))
  }

  /** `.map(o => o.trim())`. */
  function TrimAll(parts: seq<string>): (ts: seq<string>)
    ensures |ts| == |parts|
    ensures forall i | 0 <= i < |ts| :: ts[i] == Strings.Trim(parts[i])
  {
    seq(|parts|, i requires 0 <= i < |parts| => Strings.Trim(parts[i]))
  }

  /**
   `createCorsConfig`: any origin when the variable is unset or empty,
   otherwise the trimmed entries in their order, empty ones included.
   */
  function CreateCorsConfig(env: Option<string>): (c: CorsConfig)
    ensures c.origin.AnyOrigin? <==> env.None? || env == Some("")
    ensures c.origin.OriginList? ==> c.origin.origins == ParseOrigins(env.value)
    ensures c.credentials && c.methods == Methods && c.allowedHeaders == AllowedHeaders
    ensures c.exposedHeaders == ExposedHeaders && c.maxAge == MaxAge
  {
    var origin := if env.None? || env.value == "" then AnyOrigin else OriginList(ParseOrigins(env.value));
    CorsConfig(origin, true, Methods, AllowedHeaders, ExposedHeaders, MaxAge)
  }

  /** Only the origin depends on the environment. */
  lemma OnlyOriginVaries(a: Option<string>, b: Option<string>)
    ensures CreateCorsConfig(a).(origin := AnyOrigin) == CreateCorsConfig(b).(origin := AnyOrigin)
  {
  }

  /** Parsing a comma-join of trimmed, comma-free origins gives them back. */
  lemma ParseJoin(origins: seq<string>)
    requires |origins| >= 1
    requires forall i | 0 <= i < |origins| :: ',' !in origins[i] && Strings.Trim(origins[i]) == origins[i]
    ensures ParseOrigins(Strings.Join(origins, ',')) == origins
  {
    var env := Strings.Join(origins, ',');
    Strings.SplitJoin(origins, ',');
    var os := ParseOrigins(env);
    forall i | 0 <= i < |os| ensures os[i] == origins[i] {
      assert os[i] == Strings.Trim(origins[i]);
    }
  }

  /**
   Writing trimmed, comma-free origins into the variable with commas
   between them gives exactly those origins back.
   */
  lemma OriginsRoundTrip(origins: seq<string>)
    requires |origins| >= 1
    requires forall i | 0 <= i < |origins| :: ',' !in origins[i] && Strings.Trim(origins[i]) == origins[i]
    requires Strings.Join(origins, ',') != ""
    ensures CreateCorsConfig(Some(Strings.Join(origins, ','))).origin == OriginList(origins)
  {
    ParseJoin(origins);
  }

  /**
   Every field of the variable stays in the list, at its place: it becomes
   `""` exactly when it is made of white space alone.
   */
  lemma EmptyEntriesKept(env: string, i: int)
    requires 0 <= i < |Strings.Split(env, ',')|
    ensures i < |ParseOrigins(env)|
    ensures ParseOrigins(env)[i] == "" <==>
      forall k | 0 <= k < |Strings.Split(env, ',')[i]| :: Strings.IsJsSpace(Strings.Split(env, ',')[i][k])
  {
    Strings.TrimEmptyIffBlank(Strings.Split(env, ',')[i]);
  }
}

=== FILE: counting.dfy ===
/**
 Counting with `reduce`: the object `xs.reduce((acc, x) => { acc[x] =
 (acc[x] || 0) + 1; return acc }, {})` is a tally whose keys appear in
 the order they were first assigned. The statistics endpoints build their
 `byType` and `byStatus` objects this way.
 */
module Counting {

  predicate Distinct<T(==)>(s: seq<T>) {
    forall i, j | 0 <= i < j < |s| :: s[i] != s[j]
  }

  /** The values a sequence lists. */
  function Members<T(!new)>(s: seq<T>): set<T> {
    set x | x in s
  }

  /** `listed` holds every element of `ids` once, in the order the store lists them. */
  predicate Lists<T(!new)>(ids: set<T>, listed: seq<T>) {
    Distinct(listed) && Members(listed) == ids
  }

  lemma MembersCons<T(!new)>(s: seq<T>)
    requires |s| > 0
    ensures Members(s) == {s[0]} + Members(s[1..])
  {
    assert s == [s[0]] + s[1..];
  }

  /** A first value that does not recur leaves distinctness to the rest; one that recurs breaks it. */
  lemma DistinctCons<T>(s: seq<T>)
    requires |s| > 0
    ensures s[0] in s[1..] ==> !Distinct(s)
    ensures s[0] !in s[1..] ==> (Distinct(s) <==> Distinct(s[1..]))
  {
    if s[0] in s[1..] {
      var j :| 0 <= j < |s[1..]| && s[1..][j] == s[0];
      assert s[0] == s[j + 1];
    } else if Distinct(s[1..]) {
      forall i, j | 0 <= i < j < |s| ensures s[i] != s[j] {
        if i > 0 { assert s[i] == s[1..][i - 1] && s[j] == s[1..][j - 1]; }
        else { assert s[j] == s[1..][j - 1]; }
      }
    }
  }

  /** The number of different values in a sequence is at most its length, and equal to it exactly when they are distinct. */
  lemma {:induction false} DistinctCard<T(!new)>(s: seq<T>)
    ensures |Members(s)| <= |s|
    ensures |Members(s)| == |s| <==> Distinct(s)
  {
    if |s| > 0 {
      DistinctCard(s[1..]);
      MembersCons(s);
      DistinctCons(s);
      assert s[0] in s[1..] <==> s[0] in Members(s[1..]);
    }
  }

  /** A proper subset is smaller. */
  lemma {:induction false} SubsetSmaller<T>(a: set<T>, b: set<T>)
    requires a <= b
    ensures |a| <= |b|
    ensures a < b ==> |a| < |b|
    decreases a
  {
    if a == {} {
      if b != {} {
        var y :| y in b;
        assert b == (b - {y}) + {y};
      }
    } else {
      var x :| x in a;
      SubsetSmaller(a - {x}, b - {x});
    }
  }

  /** The keys of the tally object, in the order they are first assigned. */
  function FirstSeen<K(==,!new)>(xs: seq<K>): (ks: seq<K>)
    ensures forall k :: k in ks <==> k in xs
    ensures Distinct(ks)
  {
    if |xs| == 0 then []
    else
      var pre, x := xs[..|xs| - 1], xs[|xs| - 1];
      assert xs == pre + [x];
      var ks := FirstSeen(pre);
      if x in ks then ks else ks + [x]
  }

  /** The tally itself: one pass, each element adding one to its key. */
  function Tally<K(==)>(xs: seq<K>): (m: map<K, nat>)
  {
    if |xs| == 0 then map[]
    else
      var m, x := Tally(xs[..|xs| - 1]), xs[|xs| - 1];
      m[x := (if x in m then m[x] else 0) + 1]
  }

  /** The tally holds exactly the values that occur, each with its number of occurrences. */
  lemma {:induction false} TallyCounts<K>(xs: seq<K>)
    ensures forall k :: k in Tally(xs) <==> k in xs
    ensures forall k | k in Tally(xs) :: Tally(xs)[k] == multiset(xs)[k]
    decreases |xs|
  {
    if |xs| > 0 {
      var pre, x := xs[..|xs| - 1], xs[|xs| - 1];
      assert xs == pre + [x];
      assert multiset(xs) == multiset(pre) + multiset{x};
      TallyCounts(pre);
    }
  }

  /** The sum of the values of `m` at the keys `ks`. */
  function SumOver<K>(m: map<K, nat>, ks: seq<K>): nat
    requires forall i | 0 <= i < |ks| :: ks[i] in m
  {
    if |ks| == 0 then 0 else SumOver(m, ks[..|ks| - 1]) + m[ks[|ks| - 1]]
  }

  /** Changing the value at a key the sum does not visit leaves the sum alone. */
  lemma {:induction false} SumOverOther<K>(m: map<K, nat>, ks: seq<K>, k: K, v: nat)
    requires forall i | 0 <= i < |ks| :: ks[i] in m
    requires k !in ks
    ensures SumOver(m[k := v], ks) == SumOver(m, ks)
    decreases |ks|
  {
    if |ks| > 0 {
      SumOverOther(m, ks[..|ks| - 1], k, v);
    }
  }

  /** Adding one at a key the sum visits once adds one to the sum. */
  lemma {:induction false} SumOverBump<K>(m: map<K, nat>, ks: seq<K>, k: K)
    requires forall i | 0 <= i < |ks| :: ks[i] in m
    requires Distinct(ks)
    requires k in ks
    ensures SumOver(m[k := m[k] + 1], ks) == SumOver(m, ks) + 1
    decreases |ks|
  {
    var pre, last := ks[..|ks| - 1], ks[|ks| - 1];
    if last == k {
      assert k !in pre by {
        forall i | 0 <= i < |pre| ensures pre[i] != k { assert ks[i] != ks[|ks| - 1]; }
      }
      SumOverOther(m, pre, k, m[k] + 1);
    } else {
      assert k in pre by { var i :| 0 <= i < |ks| && ks[i] == k; assert i < |ks| - 1; assert pre[i] == k; }
      SumOverBump(m, pre, k);
    }
  }

  /** The counts of the tally, summed over its keys, are the number of elements counted. */
  lemma {:induction false} TallySum<K(!new)>(xs: seq<K>)
    ensures forall i | 0 <= i < |FirstSeen(xs)| :: FirstSeen(xs)[i] in Tally(xs)
    ensures SumOver(Tally(xs), FirstSeen(xs)) == |xs|
    decreases |xs|
  {
    TallyCounts(xs);
    if |xs| > 0 {
      var pre, x := xs[..|xs| - 1], xs[|xs| - 1];
      assert xs == pre + [x];
      TallySum(pre);
      TallyCounts(pre);
      var m, ks := Tally(pre), FirstSeen(pre);
      if x in ks {
        SumOverBump(m, ks, x);
      } else {
        SumOverOther(m, ks, x, 1);
        assert (ks + [x])[..|ks + [x]| - 1] == ks;
      }
    }
  }

  /** The object `reduce` builds: its keys in insertion order, and the count at each. */
  datatype Counts<K> = Counts(keys: seq<K>, count: map<K, nat>)

  function CountBy<K(==,!new)>(xs: seq<K>): (c: Counts<K>)
    ensures forall k :: k in c.keys <==> k in xs
    ensures Distinct(c.keys)
  {
    Counts(FirstSeen(xs), Tally(xs))
  }

  /** The tally holds a count exactly for the values that occur. */
  lemma CountByKeys<K(!new)>(xs: seq<K>)
    ensures forall k :: k in CountBy(xs).count <==> k in xs
  {
    TallyCounts(xs);
  }

  /** Each key's count is its number of occurrences, and the counts add up to the number of elements. */
  lemma CountByIsTally<K(!new)>(xs: seq<K>)
    ensures forall k :: k in CountBy(xs).count <==> k in xs
    ensures forall k | k in CountBy(xs).count :: CountBy(xs).count[k] == multiset(xs)[k]
    ensures forall i | 0 <= i < |CountBy(xs).keys| :: CountBy(xs).keys[i] in CountBy(xs).count
    ensures SumOver(CountBy(xs).count, CountBy(xs).keys) == |xs|
  {
    TallyCounts(xs);
    TallySum(xs);
  }
}

=== FILE: departments.dfy ===
/**
 The departments service: a tree of departments with a materialised
 `level`, ordered among their siblings by `position`; moves guarded by the
 loop check and followed by the level cascade; deletion guards; and the
 members of a department, of whom at most one is its head.

 In the position store a department's scope is its `parentId`, so the
 siblings of a department are exactly the rows of its scope.
 */
module Departments {
  import opened Wrappers
  import opened Positions
  import H = Hierarchy
  import Schemas

  datatype Department = Department(
    name: string,
    description: Option<string>,
    color: Option<string>,
    icon: Option<string>,
    isActive: bool,
    level: int)

  /** The `isActive` a new department gets from its column default. */
  const DefaultActive: bool := true

  /** Departments keyed by id; a row's scope is its `parentId`. */
  type Tree = Store<Option<Id>, Department>

  /** The parent edges of the tree. */
  function ParentsOf(t: Tree): (P: H.Parents)
    ensures P.Keys == t.Keys
    ensures forall n | n in t :: P[n] == t[n].scope
  {
    map n | n in t :: t[n].scope
  }

  /** The tree is acyclic and every stored level is the department's depth. */
  ghost predicate LevelsConsistent(t: Tree) {
    && H.Acyclic(ParentsOf(t))
    && forall n | n in t :: t[n].data.level == H.Depth(ParentsOf(t), n)
  }

  function WithLevel(row: Row<Option<Id>, Department>, level: int): Row<Option<Id>, Department> {
    row.(data := row.data.(level := level))
  }

  /** The write `update({ where: { id: n }, data: { level } })`: only the level of `n` changes. */
  function SetLevel(t: Tree, n: Id, level: int): (r: Tree)
    requires n in t
    ensures r.Keys == t.Keys && ParentsOf(r) == ParentsOf(t)
    ensures r[n] == WithLevel(t[n], level) && r[n].data.level == level
    ensures forall m | m in t && m != n :: r[m] == t[m]
  {
    var r := t[n := WithLevel(t[n], level)];
    assert ParentsOf(r) == ParentsOf(t);
    r
  }

  // ---------------------------------------------------------------------
  // Create
  // ---------------------------------------------------------------------

  datatype DepartmentInput = DepartmentInput(
    name: string,
    description: Option<string>,
    parent: Option<Id>,
    color: Option<string>,
    icon: Option<string>,
    position: Option<int>)

  /** `CreateDepartmentSchema`. The `uuid` check on `parentId` is not modelled beyond "not empty". */
  predicate ValidDepartmentInput(c: DepartmentInput) {
    && 2 <= |c.name| <= 100
    && (c.description.Some? ==> |c.description.value| <= 500)
    && c.parent != Some("")
    && (c.color.Some? ==> Schemas.DepartmentColor(c.color.value))
    && (c.position.Some? ==> c.position.value >= 0)
  }

  /** `calculateDepartmentLevel`: 0 without a parent, one below an existing parent. */
  function DepartmentLevel(t: Tree, parent: Option<Id>): (r: Result<int>)
    ensures r.Err? <==> Present(parent) && parent.value !in t
    ensures r.Err? ==> r.error == NotFound
    ensures r.Ok? && Present(parent) ==> r.value == t[parent.value].data.level + 1
    ensures !Present(parent) ==> r == Ok(0)
  {
    if !Present(parent) then Ok(0)
    else if parent.value !in t then Err(NotFound)
    else Ok(t[parent.value].data.level + 1)
  }

  /** `position && parentId`: siblings shift only for a non-zero position under a parent. */
  predicate ShiftsSiblings(c: DepartmentInput) {
    c.position.Some? && c.position.value != 0 && Present(c.parent)
  }

  /**
   `create`: the level is computed first, which raises NotFound for an
   unknown parent; then `adjustSiblingsPositions` moves the siblings at or
   after the position up by one, but only when `ShiftsSiblings`; the
   department is stored at its position, or at 0 when none is given.
   */
  function Create(t: Tree, id: Id, c: DepartmentInput): (r: Result<Tree>)
    requires id !in t && c.parent != Some("")
    ensures r.Err? <==> c.parent.Some? && c.parent.value !in t
    ensures r.Err? ==> r.error == NotFound
    ensures r.Ok? ==> && r.value.Keys == t.Keys + {id}
                      && r.value[id].scope == c.parent
                      && r.value[id].pos == c.position.GetOr(0)
                      && r.value[id].data.level == (if c.parent.Some? then t[c.parent.value].data.level + 1 else 0)
                      && r.value[id].data.name == c.name && r.value[id].data.description == c.description
                      && r.value[id].data.color == c.color && r.value[id].data.icon == c.icon
                      && r.value[id].data.isActive == DefaultActive
    ensures r.Ok? ==> forall x | x in t :: r.value[x].scope == t[x].scope && r.value[x].data == t[x].data
    ensures r.Ok? ==> forall x | x in t ::
      r.value[x].pos == if ShiftsSiblings(c) && t[x].scope == c.parent && t[x].pos >= c.position.value
                        then t[x].pos + 1 else t[x].pos
  {
    var level :- DepartmentLevel(t, c.parent);
    var shifted := if ShiftsSiblings(c) then UpdateMany(t, c.parent, Gte(c.position.value), 1) else t;
    Ok(Put(shifted, id, Row(c.parent, c.position.GetOr(0), Department(c.name, c.description, c.color, c.icon, DefaultActive, level))))
  }

  /** Under a parent whose children sit at 0..n-1, a create at 1..n leaves them at 0..n. */
  lemma CreateKeepsDense(t: Tree, id: Id, c: DepartmentInput, n: nat)
    requires id !in t && c.parent.Some? && c.parent.value != "" && c.parent.value in t
    requires Dense(PositionsIn(t, c.parent), n)
    requires c.position.Some? && 1 <= c.position.value <= n
    ensures Create(t, id, c).Ok?
    ensures Dense(PositionsIn(Create(t, id, c).value, c.parent), n + 1)
  {
    var row := Create(t, id, c).value[id];
    assert Create(t, id, c).value == Insert(t, id, row);
    InsertKeepsDense(t, id, row, n);
  }

  /**
   A create that shifts nothing (at the root, at position 0, or without a
   position) onto an occupied position leaves two siblings at that position.
   */
  lemma CreateWithoutShiftCollides(t: Tree, id: Id, c: DepartmentInput, n: nat)
    requires id !in t && c.parent != Some("") && (c.parent.Some? ==> c.parent.value in t)
    requires !ShiftsSiblings(c)
    requires Dense(PositionsIn(t, c.parent), n) && 0 <= c.position.GetOr(0) < n
    ensures Create(t, id, c).Ok?
    ensures !Unique(PositionsIn(Create(t, id, c).value, c.parent))
  {
    var p := c.position.GetOr(0);
    var ps := PositionsIn(t, c.parent);
    assert Occupied(ps, p);
    var x :| x in ps && ps[x] == p;
    var r := Create(t, id, c).value;
    assert x in PositionsIn(r, c.parent) && PositionsIn(r, c.parent)[x] == p;
    assert id in PositionsIn(r, c.parent) && PositionsIn(r, c.parent)[id] == p;
  }

  /** A created department sits at its depth, and every other level stays right. */
  lemma CreateKeepsLevelsConsistent(t: Tree, id: Id, c: DepartmentInput)
    requires LevelsConsistent(t) && id !in t && c.parent != Some("")
    requires Create(t, id, c).Ok?
    ensures LevelsConsistent(Create(t, id, c).value)
  {
    var P := ParentsOf(t);
    CreateParents(t, id, c);
    H.AddLeafKeepsAcyclic(P, id, c.parent);
  }

  /** A create adds one parent edge and changes no other. */
  lemma CreateParents(t: Tree, id: Id, c: DepartmentInput)
    requires id !in t && c.parent != Some("") && Create(t, id, c).Ok?
    ensures ParentsOf(Create(t, id, c).value) == ParentsOf(t)[id := c.parent]
  {
    var a := ParentsOf(Create(t, id, c).value);
    var b := ParentsOf(t)[id := c.parent];
    assert a.Keys == b.Keys;
    forall n | n in a
      ensures a[n] == b[n]
    {
    }
  }

  // ---------------------------------------------------------------------
  // The level cascade
  // ---------------------------------------------------------------------

  /** One row of the cascade below `id`. */
  ghost function CascadeRow(t: Tree, id: Id, n: Id): (row: Row<Option<Id>, Department>)
    requires H.Acyclic(ParentsOf(t)) && id in t && n in t
    ensures row.scope == t[n].scope && row.pos == t[n].pos
    ensures row.data == t[n].data.(level := row.data.level)
  {
    var P := ParentsOf(t);
    if H.IsAncestor(P, id, n) then WithLevel(t[n], t[id].data.level + H.Depth(P, n) - H.Depth(P, id))
    else t[n]
  }

  /**
   What `recalculateChildLevels(id)` leaves behind, in closed form: every
   department below `id` gets the level of `id` plus its distance from `id`;
   every other row is untouched.
   */
  ghost function Cascade(t: Tree, id: Id): (r: Tree)
    requires H.Acyclic(ParentsOf(t))
    ensures r.Keys == t.Keys && ParentsOf(r) == ParentsOf(t)
    ensures forall n | n in t :: r[n].pos == t[n].pos && r[n].scope == t[n].scope
    ensures forall n | n in t :: r[n].data == t[n].data.(level := r[n].data.level)
  {
    if id !in t then t
    else
      var r := map n | n in t :: CascadeRow(t, id, n);
      assert ParentsOf(r) == ParentsOf(t);
      r
  }

  /**
   After the cascade every department below `id` is exactly one level below
   its parent, and every other department keeps its row.
   */
  lemma CascadeLevels(t: Tree, id: Id, n: Id)
    requires H.Acyclic(ParentsOf(t)) && id in t && n in t
    ensures H.IsAncestor(ParentsOf(t), id, n) ==>
              && t[n].scope.Some? && t[n].scope.value in t
              && Cascade(t, id)[n].data.level == Cascade(t, id)[t[n].scope.value].data.level + 1
    ensures !H.IsAncestor(ParentsOf(t), id, n) ==> Cascade(t, id)[n] == t[n]
  {
    var P := ParentsOf(t);
    if H.IsAncestor(P, id, n) {
      H.ParentOfDescendant(P, id, n);
      H.DepthStep(P, n);
    }
  }

  /**
   The loop state of `recalculateChildLevels(id)`: the subtrees of the
   children already visited (those not in `todo`) hold their cascaded rows,
   the rest of the tree is as it was.
   */
  ghost function PartlyCascaded(t: Tree, id: Id, todo: set<Id>): (u: Tree)
    requires H.Acyclic(ParentsOf(t)) && id in t
    ensures u.Keys == t.Keys && ParentsOf(u) == ParentsOf(t)
  {
    var P := ParentsOf(t);
    var u := map n | n in t :: if H.IsAncestor(P, id, n) && H.Branch(P, id, n) !in todo then CascadeRow(t, id, n) else t[n];
    assert ParentsOf(u) == P;
    u
  }

  /** One row of the loop state. */
  lemma PartlyCascadedAt(t: Tree, id: Id, todo: set<Id>, n: Id)
    requires H.Acyclic(ParentsOf(t)) && id in t && n in t
    ensures H.IsAncestor(ParentsOf(t), id, n) && H.Branch(ParentsOf(t), id, n) !in todo ==>
              PartlyCascaded(t, id, todo)[n] == CascadeRow(t, id, n)
    ensures !(H.IsAncestor(ParentsOf(t), id, n) && H.Branch(ParentsOf(t), id, n) !in todo) ==>
              PartlyCascaded(t, id, todo)[n] == t[n]
  {
  }

  /** One row of the cascade. */
  lemma CascadeAt(t: Tree, id: Id, n: Id)
    requires H.Acyclic(ParentsOf(t)) && id in t && n in t
    ensures Cascade(t, id)[n] == CascadeRow(t, id, n)
  {
  }

  lemma CascadedStart(t: Tree, id: Id)
    requires H.Acyclic(ParentsOf(t)) && id in t
    ensures PartlyCascaded(t, id, H.Children(ParentsOf(t), id)) == t
  {
    var P := ParentsOf(t);
    forall n | n in t && H.IsAncestor(P, id, n)
      ensures H.Branch(P, id, n) in H.Children(P, id)
    {
    }
  }

  lemma CascadedEnd(t: Tree, id: Id)
    requires H.Acyclic(ParentsOf(t)) && id in t
    ensures PartlyCascaded(t, id, {}) == Cascade(t, id)
  {
    var a := PartlyCascaded(t, id, {});
    var b := Cascade(t, id);
    forall n | n in t
      ensures a[n] == b[n]
    {
      PartlyCascadedAt(t, id, {}, n);
      CascadeAt(t, id, n);
    }
    SameRows(a, b);
  }

  /**
   Visiting child `c` sets its level and cascades below it: one department's
   row. `u1` is the loop state with the level of `c` already written.
   */
  lemma CascadedStepAt(t: Tree, id: Id, todo: set<Id>, c: Id, level: int, u1: Tree, n: Id)
    requires H.Acyclic(ParentsOf(t)) && id in t && level == t[id].data.level
    requires c in todo && todo <= H.Children(ParentsOf(t), id) && n in t
    requires u1.Keys == t.Keys && ParentsOf(u1) == ParentsOf(t)
    requires u1[c] == WithLevel(t[c], level + 1)
    requires n != c ==> u1[n] == PartlyCascaded(t, id, todo)[n]
    ensures Cascade(u1, c)[n] == PartlyCascaded(t, id, todo - {c})[n]
  {
    var P := ParentsOf(t);
    assert c in t && t[c].scope == Some(id) by {
      assert c in H.Children(P, id);
    }
    if n == c {
      CascadeTop(u1, c);
      DoneBelow(t, id, todo - {c}, c, c);
      CascadeRowChild(t, id, c, level);
    } else if H.IsAncestor(P, c, n) {
      WaitingBelow(t, id, todo, c, n);
      CascadeBelowChild(t, id, c, level, u1, n);
      DoneBelow(t, id, todo - {c}, c, n);
    } else {
      CascadeOutside(u1, c, n);
      WaitingOther(t, id, todo, c, n);
    }
  }

  /** The cascade below `c` leaves `c` itself alone. */
  lemma CascadeTop(t: Tree, c: Id)
    requires H.Acyclic(ParentsOf(t)) && c in t
    ensures Cascade(t, c)[c] == t[c]
  {
    CascadeAt(t, c, c);
  }

  /** The cascade below `c` leaves every department outside the subtree of `c` alone. */
  lemma CascadeOutside(t: Tree, c: Id, n: Id)
    requires H.Acyclic(ParentsOf(t)) && c in t && n in t && !H.IsAncestor(ParentsOf(t), c, n)
    ensures Cascade(t, c)[n] == t[n]
  {
    CascadeAt(t, c, n);
  }

  /** The cascade gives a child of `id` the level of `id` plus one. */
  lemma CascadeRowChild(t: Tree, id: Id, c: Id, level: int)
    requires H.Acyclic(ParentsOf(t)) && id in t && c in t && t[c].scope == Some(id)
    requires level == t[id].data.level
    ensures CascadeRow(t, id, c) == WithLevel(t[c], level + 1)
  {
    var P := ParentsOf(t);
    H.DepthStep(P, c);
    H.BranchOf(P, id, c, c);
  }

  /** Below a child `c` of `id`, cascading from `c` at level + 1 agrees with cascading from `id`. */
  lemma CascadeBelowChild(t: Tree, id: Id, c: Id, level: int, u1: Tree, n: Id)
    requires H.Acyclic(ParentsOf(t)) && id in t && c in t && n in t
    requires u1.Keys == t.Keys && ParentsOf(u1) == ParentsOf(t)
    requires t[c].scope == Some(id) && H.IsAncestor(ParentsOf(t), c, n)
    requires level == t[id].data.level && u1[c].data.level == level + 1 && u1[n] == t[n]
    ensures Cascade(u1, c)[n] == CascadeRow(t, id, n)
  {
    var P := ParentsOf(t);
    H.ChildAncestry(P, c, id);
    assert H.IsAncestor(P, id, n);
    CascadeAt(u1, c, n);
  }

  /** At or below a child `c` of `id` that is still waiting, the loop state holds the original row. */
  lemma WaitingBelow(t: Tree, id: Id, todo: set<Id>, c: Id, n: Id)
    requires H.Acyclic(ParentsOf(t)) && id in t && c in t && n in t && t[c].scope == Some(id)
    requires c in todo && (n == c || H.IsAncestor(ParentsOf(t), c, n))
    ensures PartlyCascaded(t, id, todo)[n] == t[n]
  {
    var P := ParentsOf(t);
    PartlyCascadedAt(t, id, todo, n);
    H.BranchOf(P, id, c, n);
  }

  /** At or below a child `c` of `id` already visited, the loop state holds the cascaded row. */
  lemma DoneBelow(t: Tree, id: Id, todo: set<Id>, c: Id, n: Id)
    requires H.Acyclic(ParentsOf(t)) && id in t && c in t && n in t && t[c].scope == Some(id)
    requires c !in todo && (n == c || H.IsAncestor(ParentsOf(t), c, n))
    ensures PartlyCascaded(t, id, todo)[n] == CascadeRow(t, id, n)
  {
    var P := ParentsOf(t);
    PartlyCascadedAt(t, id, todo, n);
    H.BranchOf(P, id, c, n);
  }

  /** Whether `c` is still waiting does not matter outside the subtree of `c`. */
  lemma WaitingOther(t: Tree, id: Id, todo: set<Id>, c: Id, n: Id)
    requires H.Acyclic(ParentsOf(t)) && id in t && n in t && n != c
    requires !H.IsAncestor(ParentsOf(t), c, n)
    ensures PartlyCascaded(t, id, todo)[n] == PartlyCascaded(t, id, todo - {c})[n]
  {
    PartlyCascadedAt(t, id, todo, n);
    PartlyCascadedAt(t, id, todo - {c}, n);
  }

  /** Visiting child `c`: set its level, then cascade below it. */
  lemma CascadedStep(t: Tree, id: Id, todo: set<Id>, c: Id, level: int, u: Tree, u1: Tree)
    requires H.Acyclic(ParentsOf(t)) && id in t && level == t[id].data.level
    requires c in todo && todo <= H.Children(ParentsOf(t), id)
    requires u == PartlyCascaded(t, id, todo) && c in u
    requires u1 == SetLevel(u, c, level + 1)
    ensures ParentsOf(u1) == ParentsOf(t)
    ensures Cascade(u1, c) == PartlyCascaded(t, id, todo - {c})
  {
    assert u[c] == t[c] by {
      assert c in H.Children(ParentsOf(t), id);
      WaitingBelow(t, id, todo, c, c);
    }
    var a := Cascade(u1, c);
    var b := PartlyCascaded(t, id, todo - {c});
    forall n | n in t
      ensures a[n] == b[n]
    {
      CascadedStepAt(t, id, todo, c, level, u1, n);
    }
    SameRows(a, b);
  }

  /** Two trees with the same departments and the same row for each are equal. */
  lemma SameRows(a: Tree, b: Tree)
    requires a.Keys == b.Keys && forall n | n in a :: a[n] == b[n]
    ensures a == b
  {
  }

  /**
   `recalculateChildLevels(id)`: each child of `id`, in whatever order the
   store returns them, gets the level of `id` plus one, and the walk recurses
   into it. The result is the closed form `Cascade`.
   */
  method RecalculateChildLevels(t: Tree, id: Id) returns (t': Tree)
    requires H.Acyclic(ParentsOf(t))
    ensures t' == Cascade(t, id)
    decreases if id in t then H.Descendants(ParentsOf(t), id) else {}
  {
    if id !in t {
      return t;
    }
    ghost var P := ParentsOf(t);
    var level := t[id].data.level;
    var todo := H.Children(ParentsOf(t), id);
    t' := t;
    CascadedStart(t, id);
    while todo != {}
      invariant todo <= H.Children(P, id)
      invariant t' == PartlyCascaded(t, id, todo)
      decreases todo
    {
      var c :| c in todo;
      H.ChildrenShrink(P, id);
      var u1 := SetLevel(t', c, level + 1);
      CascadedStep(t, id, todo, c, level, t', u1);
      t' := RecalculateChildLevels(u1, c);
      todo := todo - {c};
    }
    CascadedEnd(t, id);
  }

  // ---------------------------------------------------------------------
  // Move and update
  // ---------------------------------------------------------------------

  /** The row write of `moveDepartment`: new parent, level and position. */
  function Relink(t: Tree, id: Id, np: Option<Id>, level: int, pos: int): (r: Tree)
    requires id in t
    ensures ParentsOf(r) == ParentsOf(t)[id := np]
  {
    var r := t[id := Row(np, pos, t[id].data.(level := level))];
    assert ParentsOf(r) == ParentsOf(t)[id := np];
    r
  }

  /** A move that passed the checks keeps the tree acyclic. */
  lemma RelinkKeepsAcyclic(t: Tree, id: Id, np: Option<Id>, level: int, pos: int)
    requires H.Acyclic(ParentsOf(t)) && id in t
    requires np.Some? ==> np.value in t && !H.CheckForLoop(ParentsOf(t), id, np.value)
    ensures H.SafeTarget(ParentsOf(t), id, np)
    ensures H.Acyclic(ParentsOf(Relink(t, id, np, level, pos)))
  {
    if np.Some? {
      H.CheckForLoopIsDescendant(ParentsOf(t), id, np.value);
    }
    H.MoveKeepsAcyclic(ParentsOf(t), id, np);
  }

  /**
   `moveDepartment`: NotFound for an unknown department; BadRequest when the
   new parent is the department or lies below it; NotFound for an unknown new
   parent. Then the department takes the new parent, level (0 at the root,
   one below the parent otherwise) and position (`newPosition ?? 0`), no
   sibling is shifted, and the levels below it are recomputed.
   Ids come through a `uuid` schema, so the new parent is never the empty id.
   */
  ghost function MoveDepartment(t: Tree, id: Id, np: Option<Id>, newPosition: Option<int>): (r: Result<Tree>)
    requires H.Acyclic(ParentsOf(t)) && np != Some("")
    ensures id !in t ==> r == Err(NotFound)
    ensures id in t && np.Some? && H.CheckForLoop(ParentsOf(t), id, np.value) ==> r == Err(BadRequest)
    ensures r.Ok? <==> id in t && (np.Some? ==> np.value in t && !H.CheckForLoop(ParentsOf(t), id, np.value))
    ensures r.Err? ==> r.error == NotFound || r.error == BadRequest
    ensures r.Ok? ==> && r.value.Keys == t.Keys
                      && r.value[id].scope == np
                      && r.value[id].pos == newPosition.GetOr(0)
                      && r.value[id].data.level == (if np.Some? then t[np.value].data.level + 1 else 0)
    ensures r.Ok? ==> forall n | n in t && n != id :: r.value[n].scope == t[n].scope && r.value[n].pos == t[n].pos
    ensures r.Ok? ==> forall n | n in t :: r.value[n].data == t[n].data.(level := r.value[n].data.level)
  {
    var P := ParentsOf(t);
    if id !in t then Err(NotFound)
    else if np.Some? && H.CheckForLoop(P, id, np.value) then Err(BadRequest)
    else if np.Some? && np.value !in t then Err(NotFound)
    else
      var t1 := Relink(t, id, np, MovedLevel(t, np), newPosition.GetOr(0));
      RelinkKeepsAcyclic(t, id, np, MovedLevel(t, np), newPosition.GetOr(0));
      Ok(Cascade(t1, id))
  }

  /** A successful move keeps the tree acyclic. */
  lemma MoveKeepsAcyclic(t: Tree, id: Id, np: Option<Id>, newPosition: Option<int>)
    requires H.Acyclic(ParentsOf(t)) && np != Some("")
    requires MoveDepartment(t, id, np, newPosition).Ok?
    ensures H.Acyclic(ParentsOf(MoveDepartment(t, id, np, newPosition).value))
    ensures ParentsOf(MoveDepartment(t, id, np, newPosition).value) == ParentsOf(t)[id := np]
  {
    RelinkKeepsAcyclic(t, id, np, 0, newPosition.GetOr(0));
  }

  /** The level a move gives the department: 0 at the root, one below the new parent. */
  function MovedLevel(t: Tree, np: Option<Id>): int
    requires np.Some? ==> np.value in t
  {
    if np.Some? then t[np.value].data.level + 1 else 0
  }

  /** A successful move is the row write followed by the cascade. */
  lemma MoveIsRelinkThenCascade(t: Tree, id: Id, np: Option<Id>, newPosition: Option<int>)
    requires H.Acyclic(ParentsOf(t)) && np != Some("")
    requires MoveDepartment(t, id, np, newPosition).Ok?
    ensures id in t && (np.Some? ==> np.value in t) && H.SafeTarget(ParentsOf(t), id, np)
    ensures H.Acyclic(ParentsOf(Relink(t, id, np, MovedLevel(t, np), newPosition.GetOr(0))))
    ensures MoveDepartment(t, id, np, newPosition).value
            == Cascade(Relink(t, id, np, MovedLevel(t, np), newPosition.GetOr(0)), id)
  {
    RelinkKeepsAcyclic(t, id, np, MovedLevel(t, np), newPosition.GetOr(0));
  }

  /** One department's level after a move that passed its checks on a consistent tree. */
  lemma RelinkCascadeLevelAt(t: Tree, id: Id, np: Option<Id>, pos: int, n: Id)
    requires H.Acyclic(ParentsOf(t)) && LevelsConsistent(t) && id in t && n in t
    requires np.Some? ==> np.value in t
    requires H.SafeTarget(ParentsOf(t), id, np)
    requires H.Acyclic(ParentsOf(Relink(t, id, np, MovedLevel(t, np), pos)))
    ensures Cascade(Relink(t, id, np, MovedLevel(t, np), pos), id)[n].data.level
            == H.Depth(ParentsOf(Relink(t, id, np, MovedLevel(t, np), pos)), n)
  {
    var P := ParentsOf(t);
    var t1 := Relink(t, id, np, MovedLevel(t, np), pos);
    var P1 := ParentsOf(t1);
    assert P1 == P[id := np];
    H.RankInside(P, id, np, id);
    assert Cascade(t1, id)[n] == CascadeRow(t1, id, n);
    if !H.IsAncestor(P1, id, n) && n != id {
      if H.IsAncestor(P, id, n) {
        H.DescendantsFollow(P, id, np, n);
      }
      H.MoveKeepsAcyclic(P, id, np);
    }
  }

  /** Levels that match the depths before a move match them after it. */
  lemma MoveKeepsLevelsConsistent(t: Tree, id: Id, np: Option<Id>, newPosition: Option<int>)
    requires LevelsConsistent(t) && np != Some("")
    requires MoveDepartment(t, id, np, newPosition).Ok?
    ensures LevelsConsistent(MoveDepartment(t, id, np, newPosition).value)
  {
    MoveIsRelinkThenCascade(t, id, np, newPosition);
    var t1 := Relink(t, id, np, MovedLevel(t, np), newPosition.GetOr(0));
    var r := MoveDepartment(t, id, np, newPosition).value;
    forall n | n in r
      ensures r[n].data.level == H.Depth(ParentsOf(r), n)
    {
      RelinkCascadeLevelAt(t, id, np, newPosition.GetOr(0), n);
    }
  }

  datatype DepartmentPatch = DepartmentPatch(
    name: Option<string>,
    description: Option<string>,
    parent: Option<Option<Id>>,
    color: Option<string>,
    icon: Option<string>,
    position: Option<int>,
    isActive: Option<bool>)

  /**
   `update`: NotFound for an unknown department. A body that carries a
   `parentId` key (`parent.Some?`, even when its value is null) becomes a
   move, with a falsy parent meaning the root, and its other fields are
   dropped. Any other body is written to the row alone: parent and level
   stay, and a new position is not reconciled with the siblings.
   */
  ghost function Update(t: Tree, id: Id, p: DepartmentPatch): (r: Result<Tree>)
    requires H.Acyclic(ParentsOf(t))
    ensures id !in t ==> r == Err(NotFound)
    ensures id in t && p.parent.Some? ==>
      r == MoveDepartment(t, id, if Present(p.parent.value) then p.parent.value else None, p.position)
    ensures id in t && p.parent.None? ==> && r.Ok? && r.value.Keys == t.Keys
                                          && (forall n | n in t && n != id :: r.value[n] == t[n])
                                          && r.value[id].scope == t[id].scope
                                          && r.value[id].data.level == t[id].data.level
                                          && r.value[id].pos == p.position.GetOr(t[id].pos)
    ensures id in t && p.parent.None? ==> && r.Ok?
                                          && (p.name.Some? ==> r.value[id].data.name == p.name.value)
                                          && (p.name.None? ==> r.value[id].data.name == t[id].data.name)
                                          && (p.description.Some? ==> r.value[id].data.description == p.description)
                                          && (p.description.None? ==> r.value[id].data.description == t[id].data.description)
                                          && (p.color.Some? ==> r.value[id].data.color == p.color)
                                          && (p.color.None? ==> r.value[id].data.color == t[id].data.color)
                                          && (p.icon.Some? ==> r.value[id].data.icon == p.icon)
                                          && (p.icon.None? ==> r.value[id].data.icon == t[id].data.icon)
                                          && (p.isActive.Some? ==> r.value[id].data.isActive == p.isActive.value)
                                          && (p.isActive.None? ==> r.value[id].data.isActive == t[id].data.isActive)
  {
    if id !in t then Err(NotFound)
    else if p.parent.Some? then
      MoveDepartment(t, id, if Present(p.parent.value) then p.parent.value else None, p.position)
    else
      var d := t[id].data;
      var data := Department(p.name.GetOr(d.name), p.description.Or(d.description), p.color.Or(d.color),
                             p.icon.Or(d.icon), p.isActive.GetOr(d.isActive), d.level);
      Ok(t[id := Row(t[id].scope, p.position.GetOr(t[id].pos), data)])
  }

  /** Routed to a move, an update ignores the name and the other plain fields. */
  lemma UpdateWithParentKeepsFields(t: Tree, id: Id, p: DepartmentPatch)
    requires H.Acyclic(ParentsOf(t)) && id in t && p.parent.Some?
    requires Update(t, id, p).Ok?
    ensures Update(t, id, p).value[id].data.name == t[id].data.name
    ensures Update(t, id, p).value[id].data.description == t[id].data.description
  {
  }

  // ---------------------------------------------------------------------
  // Members and the state of the service
  // ---------------------------------------------------------------------

  /** The department fields of a user row. `jobTitle` is the user's `position` column. */
  datatype Member = Member(
    department: Option<Id>,
    jobTitle: Option<string>,
    isManager: bool,
    isHead: bool,
    managed: Option<Id>,
    manager: Option<Id>)

  datatype State = State(depts: Tree, users: map<Id, Member>)

  predicate HasMembers(st: State, id: Id) {
    exists u | u in st.users :: st.users[u].department == Some(id)
  }

  /**
   `remove`: NotFound for an unknown department, then BadRequest while it
   has child departments, then BadRequest while it has members; otherwise
   the row is deleted and no sibling moves.
   */
  function Remove(st: State, id: Id): (r: Result<State>)
    ensures id !in st.depts ==> r == Err(NotFound)
    ensures id in st.depts && H.Children(ParentsOf(st.depts), id) != {} ==> r == Err(BadRequest)
    ensures id in st.depts && HasMembers(st, id) ==> r == Err(BadRequest)
    ensures r.Ok? <==> id in st.depts && H.Children(ParentsOf(st.depts), id) == {} && !HasMembers(st, id)
    ensures r.Ok? ==> r.value.users == st.users && r.value.depts.Keys == st.depts.Keys - {id}
    ensures r.Ok? ==> forall n | n in r.value.depts :: r.value.depts[n] == st.depts[n]
  {
    if id !in st.depts then Err(NotFound)
    else if H.Children(ParentsOf(st.depts), id) != {} then Err(BadRequest)
    else if HasMembers(st, id) then Err(BadRequest)
    else Ok(st.(depts := st.depts - {id}))
  }

  /** Deleting a department keeps every other level right. */
  lemma RemoveKeepsLevelsConsistent(st: State, id: Id)
    requires LevelsConsistent(st.depts) && Remove(st, id).Ok?
    ensures LevelsConsistent(Remove(st, id).value.depts)
  {
    var P := ParentsOf(st.depts);
    assert ParentsOf(Remove(st, id).value.depts) == P - {id};
    H.RemoveLeafKeepsAcyclic(P, id);
  }

  /** `u` heads `d`: the head flag is set and the managed department is `d`. */
  predicate HeadOf(m: Member, d: Id) {
    m.isHead && m.managed == Some(d)
  }

  /** No department has two heads. */
  ghost predicate SingleHeads(users: map<Id, Member>) {
    forall a, b, d | a in users && b in users && HeadOf(users[a], d) && HeadOf(users[b], d) :: a == b
  }

  /** The head flag and the managed department are set together. */
  ghost predicate HeadFlagsAgree(users: map<Id, Member>) {
    forall u | u in users :: users[u].isHead <==> users[u].managed.Some?
  }

  /** `validateDepartmentHead`: someone other than `user` already heads `d`. */
  predicate OtherHead(users: map<Id, Member>, d: Id, user: Id) {
    exists h | h in users :: h != user && HeadOf(users[h], d)
  }

  datatype Assignment = Assignment(
    user: Id,
    department: Id,
    jobTitle: Option<string>,
    isManager: Option<bool>,
    isHead: Option<bool>,
    manager: Option<Id>)

  /**
   `addUser`: NotFound for an unknown department, then for an unknown user;
   as a head, Conflict when someone else already heads the department;
   NotFound for an unknown supervisor. Then only that user's row changes: it
   joins the department, is head exactly when asked to be, manages the
   department exactly when it heads it, and keeps its job title and
   supervisor when none is given. The `uuid` schema rules out an empty
   supervisor id.
   */
  function AddUser(st: State, a: Assignment): (r: Result<State>)
    requires a.manager != Some("")
    ensures a.department !in st.depts ==> r == Err(NotFound)
    ensures a.department in st.depts && a.user !in st.users ==> r == Err(NotFound)
    ensures (&& a.department in st.depts && a.user in st.users
             && a.isHead == Some(true) && OtherHead(st.users, a.department, a.user)) ==> r == Err(Conflict)
    ensures r.Ok? <==> && a.department in st.depts && a.user in st.users
                       && !(a.isHead == Some(true) && OtherHead(st.users, a.department, a.user))
                       && (a.manager.Some? ==> a.manager.value in st.users)
    ensures r.Ok? ==> && r.value.depts == st.depts && r.value.users.Keys == st.users.Keys
                      && forall u | u in st.users && u != a.user :: r.value.users[u] == st.users[u]
    ensures r.Ok? ==> var m := r.value.users[a.user];
                      && m.department == Some(a.department)
                      && (m.isHead <==> a.isHead == Some(true))
                      && (m.managed.Some? <==> m.isHead)
                      && (m.isHead ==> m.managed == Some(a.department))
                      && m.isManager == a.isManager.GetOr(false)
                      && m.jobTitle == a.jobTitle.Or(st.users[a.user].jobTitle)
                      && m.manager == a.manager.Or(st.users[a.user].manager)
  {
    if a.department !in st.depts then Err(NotFound)
    else if a.user !in st.users then Err(NotFound)
    else if a.isHead == Some(true) && OtherHead(st.users, a.department, a.user) then Err(Conflict)
    else if Present(a.manager) && a.manager.value !in st.users then Err(NotFound)
    else
      var m := st.users[a.user];
      var head := a.isHead == Some(true);
      var m' := Member(Some(a.department), a.jobTitle.Or(m.jobTitle), a.isManager.GetOr(false), head,
                       if head then Some(a.department) else None, a.manager.Or(m.manager));
      Ok(st.(users := st.users[a.user := m']))
  }

  /** Adding a member never gives a department a second head. */
  lemma AddUserKeepsSingleHeads(st: State, a: Assignment)
    requires a.manager != Some("") && SingleHeads(st.users) && HeadFlagsAgree(st.users)
    requires AddUser(st, a).Ok?
    ensures SingleHeads(AddUser(st, a).value.users) && HeadFlagsAgree(AddUser(st, a).value.users)
  {
    assert a.isHead == Some(true) ==> !OtherHead(st.users, a.department, a.user);
  }

  /**
   `removeUser`: NotFound unless the user is a member of the department,
   then BadRequest while anyone reports to the user; otherwise every
   department field of the user is cleared.
   */
  function RemoveUser(st: State, user: Id, d: Id): (r: Result<State>)
    ensures !(user in st.users && st.users[user].department == Some(d)) ==> r == Err(NotFound)
    ensures r.Ok? <==> && user in st.users && st.users[user].department == Some(d)
                       && !(exists s | s in st.users :: st.users[s].manager == Some(user))
    ensures r.Err? ==> r.error == NotFound || r.error == BadRequest
    ensures r.Ok? ==> && r.value.depts == st.depts && r.value.users.Keys == st.users.Keys
                      && (forall u | u in st.users && u != user :: r.value.users[u] == st.users[u])
                      && !HeadOf(r.value.users[user], d) && r.value.users[user].department.None?
  {
    if user !in st.users || st.users[user].department != Some(d) then Err(NotFound)
    else if exists s | s in st.users :: st.users[s].manager == Some(user) then Err(BadRequest)
    else Ok(st.(users := st.users[user := Member(None, None, false, false, None, None)]))
  }

  /** `clearCurrentDepartmentHead`: every current head of `d` loses the flag and the managed department. */
  function ClearHeads(users: map<Id, Member>, d: Id): (r: map<Id, Member>)
    ensures r.Keys == users.Keys
    ensures forall u | u in users :: !HeadOf(r[u], d)
    ensures forall u | u in users :: !HeadOf(users[u], d) ==> r[u] == users[u]
    ensures forall u | u in users :: HeadOf(users[u], d) ==> r[u] == users[u].(isHead := false, managed := None)
  {
    map u | u in users :: if HeadOf(users[u], d) then users[u].(isHead := false, managed := None) else users[u]
  }

  /**
   `setDepartmentHead`: the current heads are cleared first; then the user
   becomes member, manager and head of the department. Nothing checks that
   the user and the department exist, so for either missing the store's
   update fails (a missing row, a violated foreign key) after the heads have
   already been cleared, and the department is left without a head.
   */
  function SetDepartmentHead(st: State, d: Id, user: Id): (r: (State, Result<Member>))
    ensures r.0.depts == st.depts && r.0.users.Keys == st.users.Keys
    ensures r.1.Err? <==> d !in st.depts || user !in st.users
    ensures r.1.Err? ==> r.1.error == StoreError && forall u | u in st.users :: !HeadOf(r.0.users[u], d)
    ensures r.1.Ok? ==> forall u | u in st.users :: HeadOf(r.0.users[u], d) <==> u == user
    ensures r.1.Ok? ==> && r.1.value == r.0.users[user]
                        && r.1.value.department == Some(d) && r.1.value.isManager
    ensures r.1.Err? ==> r.0.users == ClearHeads(st.users, d)
    ensures r.1.Ok? ==> r.0.users[user] == st.users[user].(department := Some(d), isHead := true, isManager := true, managed := Some(d))
    ensures forall u | u in st.users && u != user :: r.0.users[u] == ClearHeads(st.users, d)[u]
    ensures forall u | u in st.users && u != user && !HeadOf(st.users[u], d) :: r.0.users[u] == st.users[u]
  {
    var cleared := ClearHeads(st.users, d);
    if d !in st.depts || user !in st.users then (st.(users := cleared), Err(StoreError))
    else
      var m := cleared[user].(department := Some(d), isHead := true, isManager := true, managed := Some(d));
      (st.(users := cleared[user := m]), Ok(m))
  }

  /** Setting a head, successful or not, leaves no department with two heads. */
  lemma SetDepartmentHeadKeepsSingleHeads(st: State, d: Id, user: Id)
    requires SingleHeads(st.users) && HeadFlagsAgree(st.users)
    ensures SingleHeads(SetDepartmentHead(st, d, user).0.users)
    ensures HeadFlagsAgree(SetDepartmentHead(st, d, user).0.users)
  {
    var users := SetDepartmentHead(st, d, user).0.users;
    forall x, y, e | x in users && y in users && HeadOf(users[x], e) && HeadOf(users[y], e)
      ensures x == y
    {
      if e != d {
        assert HeadOf(st.users[x], e) && HeadOf(st.users[y], e);
      }
    }
  }
}

=== FILE: feedback.dfy ===
/**
 The feedback service: feedback rows with author-only update and
 removal, one vote per (feedback, user) that `toggleVote` adds or takes
 back, the views the read endpoints return, and the statistics counts.

 The status a new row receives is the table's default, which is not part
 of this model: it is the parameter `initialStatus`. Statuses are kept as
 their text, since the statistics use them as object keys.
 */
module Feedback {
  import opened Wrappers
  import opened Counting
  import Pagination

  datatype FeedbackType = Suggestion | Bug | Compliment | Complaint

  datatype Category = UI | Performance | Feature | Integration | Documentation | Other

  datatype Priority = Low | Medium | High | Critical

  datatype Feedback = Feedback(
    kind: FeedbackType,
    category: Category,
    title: string,
    description: string,
    rating: int,
    priority: Priority,
    status: string,
    isAnonymous: bool,
    author: Id)

  /** A `FeedbackVote` row; the table's unique (feedbackId, userId) index makes the votes a set. */
  datatype Vote = Vote(feedback: Id, user: Id)

  datatype State = State(feedbacks: map<Id, Feedback>, votes: set<Vote>)

  /** Every vote belongs to a stored feedback. */
  ghost predicate VotesValid(st: State) {
    forall v | v in st.votes :: v.feedback in st.feedbacks
  }

  /** `CreateFeedbackSchema`. */
  datatype FeedbackInput = FeedbackInput(
    kind: FeedbackType,
    category: Category,
    title: string,
    description: string,
    rating: int,
    priority: Option<Priority>,
    isAnonymous: Option<bool>)

  /** `CreateFeedbackSchema` bounds: a title of 3..200 characters, a description of 10..5000, a rating of 0..5. */
  predicate ValidFeedbackInput(c: FeedbackInput) {
    3 <= |c.title| <= 200 && 10 <= |c.description| <= 5000 && 0 <= c.rating <= 5
  }

  /** `UpdateFeedbackSchema`: every field optional. */
  datatype FeedbackPatch = FeedbackPatch(
    status: Option<string>,
    title: Option<string>,
    description: Option<string>,
    rating: Option<int>,
    priority: Option<Priority>)

  /** The statuses `UpdateFeedbackSchema` accepts. */
  const PatchStatuses: set<string> := {"UNDER_REVIEW", "PLANNED", "IN_PROGRESS", "FIXED", "ACKNOWLEDGED"}

  /** The voters on one feedback. */
  function VotesOn(votes: set<Vote>, f: Id): (vs: set<Vote>)
    ensures forall v :: v in vs <==> v in votes && v.feedback == f
  {
    set v | v in votes && v.feedback == f
  }

  /** `votes.length`. */
  function VotesCount(st: State, f: Id): nat {
    |VotesOn(st.votes, f)|
  }

  /**
   `create`: the author is the caller, the priority defaults to MEDIUM and
   anonymity to false; the new row has no votes.
   */
  function Create(st: State, id: Id, input: FeedbackInput, author: Id, initialStatus: string): (r: State)
    requires id !in st.feedbacks
    ensures r.feedbacks.Keys == st.feedbacks.Keys + {id}
    ensures forall f | f in st.feedbacks :: r.feedbacks[f] == st.feedbacks[f]
    ensures r.feedbacks[id].author == author && r.feedbacks[id].status == initialStatus
    ensures input.priority.None? ==> r.feedbacks[id].priority == Medium
    ensures input.priority.Some? ==> r.feedbacks[id].priority == input.priority.value
    ensures r.feedbacks[id].isAnonymous <==> input.isAnonymous == Some(true)
    ensures r.votes == st.votes
    ensures VotesValid(st) ==> VotesValid(r) && VotesCount(r, id) == 0
  {
    var row := Feedback(
      input.kind, input.category, input.title, input.description, input.rating,
      input.priority.GetOr(Medium), initialStatus, input.isAnonymous.GetOr(false), author);
    var r := st.(feedbacks := st.feedbacks[id := row]);
    assert VotesValid(st) ==> VotesOn(r.votes, id) == {};
    r
  }

  /**
   What the read endpoints return for a row: the row itself (its
   `userId` included), `votesCount`, and, where the endpoint adds them,
   `hasVoted` for the caller and the `user` relation, null for an
   anonymous row. A key the endpoint does not add is None; a null `user`
   is Some(None).
   */
  datatype View = View(id: Id, row: Feedback, votesCount: nat, hasVoted: Option<bool>, user: Option<Option<Id>>)

  /** The `user` value `findAll`, `findOne` and `getTopSuggestions` give a row: null when anonymous. */
  function ShownUser(row: Feedback): (u: Option<Id>)
    ensures u.None? <==> row.isAnonymous
    ensures u.Some? ==> u.value == row.author
  {
    if row.isAnonymous then None else Some(row.author)
  }

  /** The view `findAll` and `findOne` give the caller. */
  function ViewOf(st: State, f: Id, viewer: Id): (v: View)
    requires f in st.feedbacks
    ensures v.id == f && v.row == st.feedbacks[f]
    ensures v.votesCount == |VotesOn(st.votes, f)|
    ensures v.hasVoted == Some(Vote(f, viewer) in st.votes)
    ensures v.user == Some(None) <==> st.feedbacks[f].isAnonymous
    ensures v.user != Some(None) ==> v.user == Some(Some(st.feedbacks[f].author))
  {
    View(f, st.feedbacks[f], VotesCount(st, f), Some(Vote(f, viewer) in st.votes), Some(ShownUser(st.feedbacks[f])))
  }

  /** Anonymity hides only the `user` relation: the row's own `userId` still names the author. */
  lemma AnonymousViewKeepsAuthorId(st: State, f: Id, viewer: Id)
    requires f in st.feedbacks && st.feedbacks[f].isAnonymous
    ensures ViewOf(st, f, viewer).user == Some(None)
    ensures ViewOf(st, f, viewer).row.author == st.feedbacks[f].author
  {
  }

  /** `findOne`: NotFound for an unknown id. */
  function FindOne(st: State, f: Id, viewer: Id): (r: Result<View>)
    ensures f !in st.feedbacks <==> r.Err?
    ensures r.Err? ==> r.error == NotFound
    ensures r.Ok? ==> r.value == ViewOf(st, f, viewer)
  {
    if f !in st.feedbacks then Err(NotFound) else Ok(ViewOf(st, f, viewer))
  }

  /**
   `findAll`: the page of the rows in newest-first order (`listed`), each
   as the caller's view, and the total over all rows.
   */
  function FindAll(st: State, listed: seq<Id>, q: Pagination.PageQuery, viewer: Id): (r: (seq<View>, Pagination.PageMeta))
    requires Lists(st.feedbacks.Keys, listed) && Pagination.ValidQuery(q)
    ensures |r.0| <= q.limit
    ensures |r.0| == |Pagination.PageOf(listed, q)|
    ensures forall i | 0 <= i < |r.0| ::
              && Pagination.Skip(q) + i < |listed| && r.0[i].id == listed[Pagination.Skip(q) + i]
              && r.0[i].id in st.feedbacks && r.0[i] == ViewOf(st, r.0[i].id, viewer)
    ensures r.1.total == |st.feedbacks| && r.1.totalPages * q.limit >= |st.feedbacks|
  {
    DistinctCard(listed);
    assert |st.feedbacks.Keys| == |listed|;
    var page := Pagination.PageOf(listed, q);
    assert forall i | 0 <= i < |page| :: page[i] in st.feedbacks by {
      forall i | 0 <= i < |page| ensures page[i] in st.feedbacks {
        assert page[i] == listed[Pagination.Skip(q) + i];
      }
    }
    (seq(|page|, i requires 0 <= i < |page| => ViewOf(st, page[i], viewer)), Pagination.MetaOf(|st.feedbacks|, q))
  }

  /** The caller's own rows. */
  function AuthoredBy(st: State, user: Id): (ids: set<Id>)
    ensures forall f :: f in ids <==> f in st.feedbacks && st.feedbacks[f].author == user
  {
    set f | f in st.feedbacks && st.feedbacks[f].author == user
  }

  /** `findMyFeedbacks`: a page of the caller's rows only, without the `user` relation, and their total. */
  function FindMyFeedbacks(st: State, user: Id, listed: seq<Id>, q: Pagination.PageQuery): (r: (seq<View>, Pagination.PageMeta))
    requires Lists(AuthoredBy(st, user), listed) && Pagination.ValidQuery(q)
    ensures |r.0| <= q.limit
    ensures |r.0| == |Pagination.PageOf(listed, q)|
    ensures forall i | 0 <= i < |r.0| :: Pagination.Skip(q) + i < |listed| && r.0[i].id == listed[Pagination.Skip(q) + i]
    ensures forall i | 0 <= i < |r.0| ::
              && r.0[i].id in st.feedbacks && st.feedbacks[r.0[i].id].author == user
              && r.0[i].user.None? && r.0[i].hasVoted == Some(Vote(r.0[i].id, user) in st.votes)
    ensures r.1.total == |AuthoredBy(st, user)|
  {
    DistinctCard(listed);
    var page := Pagination.PageOf(listed, q);
    assert forall i | 0 <= i < |page| :: page[i] in AuthoredBy(st, user) by {
      forall i | 0 <= i < |page| ensures page[i] in AuthoredBy(st, user) {
        assert page[i] == listed[Pagination.Skip(q) + i];
      }
    }
    var views := seq(|page|, i requires 0 <= i < |page| =>
      View(page[i], st.feedbacks[page[i]], VotesCount(st, page[i]), Some(Vote(page[i], user) in st.votes), None));
    (views, Pagination.MetaOf(|listed|, q))
  }

  /** The author-only guard of `update` and `remove`: NotFound, then Forbidden. */
  function CheckAuthor(st: State, f: Id, user: Id): (r: Result<Feedback>)
    ensures f !in st.feedbacks <==> r == Err(NotFound)
    ensures f in st.feedbacks && st.feedbacks[f].author != user <==> r == Err(Forbidden)
    ensures r.Ok? ==> f in st.feedbacks && r.value == st.feedbacks[f] && r.value.author == user
  {
    if f !in st.feedbacks then Err(NotFound)
    else if st.feedbacks[f].author != user then Err(Forbidden)
    else Ok(st.feedbacks[f])
  }

  /** `update`: only the author; the given fields replace the stored ones. */
  function Update(st: State, f: Id, patch: FeedbackPatch, user: Id): (r: Result<State>)
    ensures f !in st.feedbacks <==> r == Err(NotFound)
    ensures f in st.feedbacks && st.feedbacks[f].author != user <==> r == Err(Forbidden)
    ensures r.Ok? ==> && r.value.votes == st.votes
                      && r.value.feedbacks.Keys == st.feedbacks.Keys
                      && (forall g | g in st.feedbacks && g != f :: r.value.feedbacks[g] == st.feedbacks[g])
                      && r.value.feedbacks[f].author == user
                      && r.value.feedbacks[f].isAnonymous == st.feedbacks[f].isAnonymous
                      && (patch.status.Some? ==> r.value.feedbacks[f].status == patch.status.value)
                      && (patch.status.None? ==> r.value.feedbacks[f].status == st.feedbacks[f].status)
                      && (patch.title.Some? ==> r.value.feedbacks[f].title == patch.title.value)
                      && (patch.title.None? ==> r.value.feedbacks[f].title == st.feedbacks[f].title)
                      && (patch.description.Some? ==> r.value.feedbacks[f].description == patch.description.value)
                      && (patch.description.None? ==> r.value.feedbacks[f].description == st.feedbacks[f].description)
                      && (patch.rating.Some? ==> r.value.feedbacks[f].rating == patch.rating.value)
                      && (patch.rating.None? ==> r.value.feedbacks[f].rating == st.feedbacks[f].rating)
                      && (patch.priority.Some? ==> r.value.feedbacks[f].priority == patch.priority.value)
                      && (patch.priority.None? ==> r.value.feedbacks[f].priority == st.feedbacks[f].priority)
  {
    var row :- CheckAuthor(st, f, user);
    var row' := row.(
      status := patch.status.GetOr(row.status),
      title := patch.title.GetOr(row.title),
      description := patch.description.GetOr(row.description),
      rating := patch.rating.GetOr(row.rating),
      priority := patch.priority.GetOr(row.priority));
    Ok(st.(feedbacks := st.feedbacks[f := row']))
  }

  /** `remove`: only the author; the row goes, and its votes with it. */
  function Remove(st: State, f: Id, user: Id): (r: Result<State>)
    ensures f !in st.feedbacks <==> r == Err(NotFound)
    ensures f in st.feedbacks && st.feedbacks[f].author != user <==> r == Err(Forbidden)
    ensures r.Ok? ==> && r.value.feedbacks == st.feedbacks - {f}
                      && r.value.votes == st.votes - VotesOn(st.votes, f)
    ensures r.Ok? && VotesValid(st) ==> VotesValid(r.value)
  {
    var _ :- CheckAuthor(st, f, user);
    Ok(State(st.feedbacks - {f}, st.votes - VotesOn(st.votes, f)))
  }

  /**
   `toggleVote`: NotFound for an unknown feedback; otherwise the caller's
   vote is taken back if present (`voted` false) and added if absent
   (`voted` true). Nothing else changes.
   */
  function ToggleVote(st: State, f: Id, user: Id): (r: Result<(State, bool)>)
    ensures f !in st.feedbacks <==> r.Err?
    ensures r.Err? ==> r.error == NotFound
    ensures r.Ok? ==> && r.value.0.feedbacks == st.feedbacks
                      && (r.value.1 <==> Vote(f, user) !in st.votes)
                      && (r.value.1 <==> Vote(f, user) in r.value.0.votes)
                      && r.value.0.votes - {Vote(f, user)} == st.votes - {Vote(f, user)}
    ensures r.Ok? && VotesValid(st) ==> VotesValid(r.value.0)
  {
    if f !in st.feedbacks then Err(NotFound)
    else if Vote(f, user) in st.votes then Ok((st.(votes := st.votes - {Vote(f, user)}), false))
    else Ok((st.(votes := st.votes + {Vote(f, user)}), true))
  }

  /** A vote added raises `votesCount` by one, a vote taken back lowers it by one, and other rows keep theirs. */
  lemma ToggleVoteCount(st: State, f: Id, user: Id, g: Id)
    requires ToggleVote(st, f, user).Ok?
    ensures var (st', voted) := ToggleVote(st, f, user).value;
            && (voted ==> VotesCount(st', f) == VotesCount(st, f) + 1)
            && (!voted ==> VotesCount(st', f) + 1 == VotesCount(st, f))
            && (g != f ==> VotesCount(st', g) == VotesCount(st, g))
  {
    var (st', voted) := ToggleVote(st, f, user).value;
    var v := Vote(f, user);
    if voted {
      assert VotesOn(st'.votes, f) == VotesOn(st.votes, f) + {v};
    } else {
      assert VotesOn(st'.votes, f) == VotesOn(st.votes, f) - {v};
    }
    if g != f {
      assert VotesOn(st'.votes, g) == VotesOn(st.votes, g);
    }
  }

  /** Toggling twice restores the votes and reports opposite outcomes. */
  lemma ToggleTwiceRestores(st: State, f: Id, user: Id)
    requires f in st.feedbacks
    ensures var (st1, voted1) := ToggleVote(st, f, user).value;
            && ToggleVote(st1, f, user).Ok?
            && ToggleVote(st1, f, user).value.0 == st
            && ToggleVote(st1, f, user).value.1 == !voted1
  {
    var v := Vote(f, user);
    if v in st.votes {
      assert st.votes - {v} + {v} == st.votes;
    } else {
      assert st.votes + {v} - {v} == st.votes;
    }
  }

  /** `getStats` without the date and floating-point figures. */
  datatype Stats = Stats(total: nat, byType: Counts<FeedbackType>, byStatus: Counts<string>)

  /** The type of each listed row, in listing order. */
  function Kinds(st: State, listed: seq<Id>): (ks: seq<FeedbackType>)
    requires Lists(st.feedbacks.Keys, listed)
    ensures |ks| == |listed| && forall i | 0 <= i < |listed| :: ks[i] == st.feedbacks[listed[i]].kind
  {
    seq(|listed|, i requires 0 <= i < |listed| => st.feedbacks[listed[i]].kind)
  }

  /** The status of each listed row, in listing order. */
  function Statuses(st: State, listed: seq<Id>): (ss: seq<string>)
    requires Lists(st.feedbacks.Keys, listed)
    ensures |ss| == |listed| && forall i | 0 <= i < |listed| :: ss[i] == st.feedbacks[listed[i]].status
  {
    seq(|listed|, i requires 0 <= i < |listed| => st.feedbacks[listed[i]].status)
  }

  /**
   `getStats`: `total` counts every row, and `byType` and `byStatus` tally
   the rows of one `findMany` pass (`listed`) by type and by status.
   */
  function GetStats(st: State, listed: seq<Id>): (s: Stats)
    requires Lists(st.feedbacks.Keys, listed)
    ensures s.total == |st.feedbacks| == |listed|
  {
    DistinctCard(listed);
    Stats(|listed|, CountBy(Kinds(st, listed)), CountBy(Statuses(st, listed)))
  }

  /** The keys of `byType` are the types present and those of `byStatus` the statuses present. */
  lemma StatsKeysPresent(st: State, listed: seq<Id>)
    requires Lists(st.feedbacks.Keys, listed)
    ensures forall k :: k in GetStats(st, listed).byType.count <==> exists f | f in st.feedbacks :: st.feedbacks[f].kind == k
    ensures forall k :: k in GetStats(st, listed).byStatus.count <==> exists f | f in st.feedbacks :: st.feedbacks[f].status == k
  {
    var s := GetStats(st, listed);
    assert s.byType == CountBy(Kinds(st, listed)) && s.byStatus == CountBy(Statuses(st, listed));
    CountByKeys(Kinds(st, listed));
    CountByKeys(Statuses(st, listed));
    KindsPresent(st, listed);
    StatusesPresent(st, listed);
  }

  /** Each row is counted once under its type and once under its status: both tallies add up to `total`. */
  lemma StatsCountsSumToTotal(st: State, listed: seq<Id>)
    requires Lists(st.feedbacks.Keys, listed)
    ensures var s := GetStats(st, listed);
            && (forall i | 0 <= i < |s.byType.keys| :: s.byType.keys[i] in s.byType.count)
            && (forall i | 0 <= i < |s.byStatus.keys| :: s.byStatus.keys[i] in s.byStatus.count)
            && SumOver(s.byType.count, s.byType.keys) == s.total
            && SumOver(s.byStatus.count, s.byStatus.keys) == s.total
  {
    var s := GetStats(st, listed);
    assert s.byType == CountBy(Kinds(st, listed)) && s.byStatus == CountBy(Statuses(st, listed));
    CountByIsTally(Kinds(st, listed));
    CountByIsTally(Statuses(st, listed));
  }

  lemma KindsPresent(st: State, listed: seq<Id>)
    requires Lists(st.feedbacks.Keys, listed)
    ensures forall k :: k in Kinds(st, listed) <==> exists f | f in st.feedbacks :: st.feedbacks[f].kind == k
  {
    var kinds := Kinds(st, listed);
    forall k | exists f | f in st.feedbacks :: st.feedbacks[f].kind == k ensures k in kinds {
      var f :| f in st.feedbacks && st.feedbacks[f].kind == k;
      var i :| 0 <= i < |listed| && listed[i] == f;
      assert kinds[i] == k;
    }
  }

  lemma StatusesPresent(st: State, listed: seq<Id>)
    requires Lists(st.feedbacks.Keys, listed)
    ensures forall k :: k in Statuses(st, listed) <==> exists f | f in st.feedbacks :: st.feedbacks[f].status == k
  {
    var statuses := Statuses(st, listed);
    forall k | exists f | f in st.feedbacks :: st.feedbacks[f].status == k ensures k in statuses {
      var f :| f in st.feedbacks && st.feedbacks[f].status == k;
      var i :| 0 <= i < |listed| && listed[i] == f;
      assert statuses[i] == k;
    }
  }

  /** The suggestions. */
  function SuggestionIds(st: State): (ids: set<Id>)
    ensures forall f :: f in ids <==> f in st.feedbacks && st.feedbacks[f].kind == Suggestion
  {
    set f | f in st.feedbacks && st.feedbacks[f].kind == Suggestion
  }

  /** `ranked` lists the suggestions by vote count, most voted first. */
  predicate RankedByVotes(st: State, ranked: seq<Id>) {
    && Lists(SuggestionIds(st), ranked)
    && forall i, j | 0 <= i < j < |ranked| :: VotesCount(st, ranked[i]) >= VotesCount(st, ranked[j])
  }

  const DefaultTopLimit := 10

  /**
   `getTopSuggestions`: the first `limit` (default 10) suggestions by vote
   count, each with `votesCount` and the `user` relation, null when
   anonymous. No suggestion left out has more votes than one returned.
   */
  function GetTopSuggestions(st: State, ranked: seq<Id>, limit: Option<nat>): (r: seq<View>)
    requires RankedByVotes(st, ranked)
    ensures |r| == if |ranked| < limit.GetOr(DefaultTopLimit) then |ranked| else limit.GetOr(DefaultTopLimit)
    ensures forall i | 0 <= i < |r| ::
              && r[i].id in st.feedbacks && st.feedbacks[r[i].id].kind == Suggestion
              && r[i].votesCount == VotesCount(st, r[i].id)
              && r[i].hasVoted.None?
              && (r[i].user == Some(None) <==> st.feedbacks[r[i].id].isAnonymous)
    ensures forall i, f | 0 <= i < |r| && f in SuggestionIds(st) && f !in Members(ranked[..|r|]) ::
              VotesCount(st, f) <= r[i].votesCount
  {
    var n := if |ranked| < limit.GetOr(DefaultTopLimit) then |ranked| else limit.GetOr(DefaultTopLimit);
    assert forall i | 0 <= i < n :: ranked[i] in SuggestionIds(st);
    var r := seq(n, i requires 0 <= i < n =>
      var f := ranked[i];
      View(f, st.feedbacks[f], VotesCount(st, f), None, Some(ShownUser(st.feedbacks[f]))));
    forall i, f | 0 <= i < |r| && f in SuggestionIds(st) && f !in Members(ranked[..n]) ensures VotesCount(st, f) <= r[i].votesCount {
      var j :| 0 <= j < |ranked| && ranked[j] == f;
      NotInPrefix(ranked, n, f);
    }
    r
  }

  lemma NotInPrefix(s: seq<Id>, n: nat, x: Id)
    requires n <= |s| && x !in Members(s[..n])
    ensures forall j | 0 <= j < n :: s[j] != x
  {
    forall j | 0 <= j < n ensures s[j] != x {
      assert s[..n][j] == s[j];
    }
  }
}

=== FILE: hierarchy.dfy ===
/**
 The department tree as a parent map: each department id maps to its
 `parentId` (None for a root). A tree is acyclic when every node reaches a
 root by following parents a finite number of times; its depth is that
 number. Ancestry is stated upwards ("the node k steps above n"); the
 service's own loop test walks downwards through the children, and the two
 are proved to agree.
 */
module Hierarchy {
  import opened Wrappers

  type Parents = map<Id, Option<Id>>

  /** The number of parent steps from `id` to a root, if a root is reached within `fuel` steps. */
  function Rank(P: Parents, id: Id, fuel: nat): Option<nat>
    decreases fuel
  {
    if id !in P then None
    else match P[id]
      case None => Some(0)
      case Some(p) =>
        if fuel == 0 then None
        else match Rank(P, p, fuel - 1)
          case None => None
          case Some(d) => Some(d + 1)
  }

  ghost predicate Ranked(P: Parents, id: Id) {
    exists f: nat :: Rank(P, id, f).Some?
  }

  /** Every department reaches a root: no cycle and no dangling parent. */
  ghost predicate Acyclic(P: Parents) {
    forall id {:trigger Ranked(P, id)} | id in P :: Ranked(P, id)
  }

  lemma {:induction false} RankMonotone(P: Parents, id: Id, f: nat, g: nat)
    requires f <= g && Rank(P, id, f).Some?
    ensures Rank(P, id, g) == Rank(P, id, f)
    decreases f
  {
    if P[id].Some? {
      RankMonotone(P, P[id].value, f - 1, g - 1);
    }
  }

  ghost function Depth(P: Parents, id: Id): nat
    requires Ranked(P, id)
  {
    var f: nat :| Rank(P, id, f).Some?;
    Rank(P, id, f).value
  }

  /** Any fuel that reaches a root gives the depth. */
  lemma DepthIs(P: Parents, id: Id, f: nat)
    requires Rank(P, id, f).Some?
    ensures Ranked(P, id) && Depth(P, id) == Rank(P, id, f).value
  {
    forall g: nat | Rank(P, id, g).Some?
      ensures Rank(P, id, g).value == Rank(P, id, f).value
    {
      if f <= g {
        RankMonotone(P, id, f, g);
      } else {
        RankMonotone(P, id, g, f);
      }
    }
  }

  /** A root has depth 0, a child is one deeper than its parent, and the parent exists. */
  lemma DepthStep(P: Parents, n: Id)
    requires Ranked(P, n)
    ensures n in P
    ensures P[n].None? ==> Depth(P, n) == 0
    ensures P[n].Some? ==> && P[n].value in P && Ranked(P, P[n].value)
                           && Depth(P, n) == Depth(P, P[n].value) + 1
  {
    assert Ranked(P, n);
    var f: nat :| Rank(P, n, f).Some?;
    DepthIs(P, n, f);
    if P[n].Some? {
      DepthIs(P, P[n].value, f - 1);
    }
  }

  /** The node `k` parent steps above `n`. */
  ghost function Up(P: Parents, n: Id, k: nat): (a: Id)
    requires Acyclic(P) && n in P && k <= Depth(P, n)
    ensures a in P && Depth(P, a) == Depth(P, n) - k
    decreases k
  {
    if k == 0 then n
    else
      DepthStep(P, n);
      Up(P, P[n].value, k - 1)
  }

  /** Going one step further up is taking the parent. */
  lemma {:induction false} UpLast(P: Parents, n: Id, k: nat)
    requires Acyclic(P) && n in P && k + 1 <= Depth(P, n)
    ensures P[Up(P, n, k)].Some? && Up(P, n, k + 1) == P[Up(P, n, k)].value
    decreases k
  {
    DepthStep(P, n);
    DepthStep(P, Up(P, n, k));
    if k > 0 {
      UpLast(P, P[n].value, k - 1);
    }
  }

  /** `a` is a proper ancestor of `n`: it sits on the parent chain above `n`. */
  ghost predicate IsAncestor(P: Parents, a: Id, n: Id)
    requires Acyclic(P)
  {
    a in P && n in P && Depth(P, a) < Depth(P, n) && Up(P, n, Depth(P, n) - Depth(P, a)) == a
  }

  ghost function Descendants(P: Parents, a: Id): set<Id>
    requires Acyclic(P)
  {
    set n | n in P && IsAncestor(P, a, n)
  }

  /** The children of `d`: the departments whose `parentId` is `d`. */
  function Children(P: Parents, d: Id): set<Id> {
    set c | c in P && P[c] == Some(d)
  }

  /**
   A child's parent is its ancestor, everything below the child is below
   the parent, and so the child's subtree is strictly smaller.
   */
  lemma ChildAncestry(P: Parents, c: Id, d: Id)
    requires Acyclic(P) && c in P && P[c] == Some(d)
    ensures d in P && Depth(P, c) == Depth(P, d) + 1
    ensures IsAncestor(P, d, c)
    ensures forall n | n in P && IsAncestor(P, c, n) :: IsAncestor(P, d, n)
    ensures Descendants(P, c) < Descendants(P, d)
  {
    DepthStep(P, c);
    assert Up(P, c, 1) == Up(P, d, 0);
    forall n | n in P && IsAncestor(P, c, n)
      ensures IsAncestor(P, d, n)
    {
      UpLast(P, n, Depth(P, n) - Depth(P, c));
    }
    assert c in Descendants(P, d) && c !in Descendants(P, c);
  }

  /** A node below a node's parent... is below the parent's ancestors too: ancestry extends down one edge. */
  lemma AncestorOfParent(P: Parents, a: Id, n: Id)
    requires Acyclic(P) && n in P && P[n].Some? && (a == P[n].value || IsAncestor(P, a, P[n].value))
    ensures IsAncestor(P, a, n)
  {
    DepthStep(P, n);
    var p := P[n].value;
    if a != p {
      assert Up(P, n, Depth(P, n) - Depth(P, a)) == Up(P, p, Depth(P, p) - Depth(P, a));
    } else {
      assert Up(P, n, 1) == Up(P, p, 0);
    }
  }

  /** The parent of a proper descendant of `a` is `a` itself or another proper descendant. */
  lemma ParentOfDescendant(P: Parents, a: Id, n: Id)
    requires Acyclic(P) && IsAncestor(P, a, n)
    ensures P[n].Some?
    ensures P[n].value == a || IsAncestor(P, a, P[n].value)
  {
    DepthStep(P, n);
    var p := P[n].value;
    var k := Depth(P, n) - Depth(P, a);
    assert Up(P, n, k) == Up(P, p, k - 1);
  }

  /**
   `checkForLoop(d, target)`: true when the target is `d` itself or is
   found, depth first, among the children of `d` or below them.
   */
  function CheckForLoop(P: Parents, d: Id, target: Id): bool
    requires Acyclic(P) && d in P
    decreases Descendants(P, d)
  {
    d == target
    || (ChildrenShrink(P, d);
        exists c | c in P && P[c] == Some(d) :: c == target || CheckForLoop(P, c, target))
  }

  lemma ChildrenShrink(P: Parents, d: Id)
    requires Acyclic(P) && d in P
    ensures forall c | c in P && P[c] == Some(d) :: Descendants(P, c) < Descendants(P, d)
  {
    forall c | c in P && P[c] == Some(d)
      ensures Descendants(P, c) < Descendants(P, d)
    {
      ChildAncestry(P, c, d);
    }
  }

  /** A loop found below `d` means the target is `d` or lies below it. */
  lemma {:induction false} LoopFoundIsDescendant(P: Parents, d: Id, t: Id)
    requires Acyclic(P) && d in P && CheckForLoop(P, d, t)
    ensures t == d || (t in P && IsAncestor(P, d, t))
    decreases Descendants(P, d)
  {
    ChildrenShrink(P, d);
    if d != t {
      var c :| c in P && P[c] == Some(d) && (c == t || CheckForLoop(P, c, t));
      ChildAncestry(P, c, d);
      if c != t {
        LoopFoundIsDescendant(P, c, t);
      }
    }
  }

  /** A descendant of `d` is always found by the walk below `d`. */
  lemma {:induction false} DescendantIsLoopFound(P: Parents, d: Id, t: Id)
    requires Acyclic(P) && d in P && t in P && IsAncestor(P, d, t)
    ensures CheckForLoop(P, d, t)
    decreases Descendants(P, d)
  {
    ChildrenShrink(P, d);
    var k := Depth(P, t) - Depth(P, d);
    var c := Up(P, t, k - 1);
    UpLast(P, t, k - 1);
    assert P[c] == Some(d);
    if c != t {
      assert Up(P, t, Depth(P, t) - Depth(P, c)) == c;
      DescendantIsLoopFound(P, c, t);
    }
  }

  /**
   The downward loop test is the upward ancestor test: `checkForLoop(d, t)`
   holds exactly when `t` is `d` or one of its descendants.
   */
  lemma CheckForLoopIsDescendant(P: Parents, d: Id, t: Id)
    requires Acyclic(P) && d in P
    ensures CheckForLoop(P, d, t) <==> t == d || (t in P && IsAncestor(P, d, t))
  {
    if CheckForLoop(P, d, t) {
      LoopFoundIsDescendant(P, d, t);
    } else if t in P && IsAncestor(P, d, t) {
      DescendantIsLoopFound(P, d, t);
    }
  }

  // ---------------------------------------------------------------------
  // Re-parenting one node
  // ---------------------------------------------------------------------

  /** The new parent is a root slot or an existing node outside the moved subtree. */
  ghost predicate SafeTarget(P: Parents, id: Id, np: Option<Id>)
    requires Acyclic(P)
  {
    np.None? || (np.value in P && np.value != id && !IsAncestor(P, id, np.value))
  }

  /** The depth the moved node gets: 0 at the root, one below its new parent otherwise. */
  ghost function NewDepth(P: Parents, np: Option<Id>): nat
    requires Acyclic(P) && (np.Some? ==> np.value in P)
  {
    if np.None? then 0 else Depth(P, np.value) + 1
  }

  /** Outside the moved subtree, parent chains and therefore ranks are unchanged. */
  lemma {:induction false} RankOutside(P: Parents, id: Id, np: Option<Id>, n: Id, f: nat)
    requires Acyclic(P) && id in P && n in P && n != id && !IsAncestor(P, id, n)
    ensures Rank(P[id := np], n, f) == Rank(P, n, f)
    decreases f
  {
    if P[n].Some? && f > 0 {
      var p := P[n].value;
      DepthStep(P, n);
      if p == id || IsAncestor(P, id, p) {
        AncestorOfParent(P, id, n);
      }
      RankOutside(P, id, np, p, f - 1);
    }
  }

  /** Inside the moved subtree, every depth moves by the same amount. */
  lemma {:induction false} RankInside(P: Parents, id: Id, np: Option<Id>, n: Id)
    requires Acyclic(P) && id in P && SafeTarget(P, id, np)
    requires n == id || IsAncestor(P, id, n)
    ensures Ranked(P[id := np], n)
    ensures Depth(P[id := np], n) == NewDepth(P, np) + Depth(P, n) - Depth(P, id)
    decreases Depth(P, n) - Depth(P, id)
  {
    var P' := P[id := np];
    if n == id {
      if np.None? {
        DepthIs(P', id, 0);
      } else {
        var q := np.value;
        assert Ranked(P, q);
        var f: nat :| Rank(P, q, f).Some?;
        DepthIs(P, q, f);
        RankOutside(P, id, np, q, f);
        DepthIs(P', id, f + 1);
      }
    } else {
      ParentOfDescendant(P, id, n);
      var p := P[n].value;
      DepthStep(P, n);
      RankInside(P, id, np, p);
      assert Ranked(P', p);
      var f: nat :| Rank(P', p, f).Some?;
      DepthIs(P', p, f);
      DepthIs(P', n, f + 1);
    }
  }

  /** Moving a node under a safe target keeps the tree acyclic; depths outside the subtree stay. */
  lemma MoveKeepsAcyclic(P: Parents, id: Id, np: Option<Id>)
    requires Acyclic(P) && id in P && SafeTarget(P, id, np)
    ensures Acyclic(P[id := np])
    ensures forall n | n in P && n != id && !IsAncestor(P, id, n) :: Depth(P[id := np], n) == Depth(P, n)
  {
    var P' := P[id := np];
    forall n | n in P'
      ensures Ranked(P', n)
    {
      if n == id || IsAncestor(P, id, n) {
        RankInside(P, id, np, n);
      } else {
        assert Ranked(P, n);
        var f: nat :| Rank(P, n, f).Some?;
        RankOutside(P, id, np, n, f);
      }
    }
    forall n | n in P && n != id && !IsAncestor(P, id, n)
      ensures Depth(P', n) == Depth(P, n)
    {
      assert Ranked(P, n);
      var f: nat :| Rank(P, n, f).Some?;
      RankOutside(P, id, np, n, f);
      DepthIs(P, n, f);
      DepthIs(P', n, f);
    }
  }

  /** The chain from a descendant up to the moved node is the same after the move. */
  lemma {:induction false} UpInside(P: Parents, id: Id, np: Option<Id>, n: Id, k: nat)
    requires Acyclic(P) && id in P && SafeTarget(P, id, np)
    requires n == id || IsAncestor(P, id, n)
    requires k <= Depth(P, n) - Depth(P, id)
    ensures Acyclic(P[id := np])
    ensures k <= Depth(P[id := np], n) && Up(P[id := np], n, k) == Up(P, n, k)
    decreases k
  {
    var P' := P[id := np];
    MoveKeepsAcyclic(P, id, np);
    RankInside(P, id, np, n);
    if k > 0 {
      assert n != id && P[n].Some? && P'[n] == P[n] by {
        ParentOfDescendant(P, id, n);
      }
      var p := P[n].value;
      assert (p == id || IsAncestor(P, id, p)) && k - 1 <= Depth(P, p) - Depth(P, id) by {
        ParentOfDescendant(P, id, n);
        DepthStep(P, n);
      }
      UpInside(P, id, np, p, k - 1);
      UpSameStep(P, P', n, k);
    }
  }

  /** Two forests that agree on `n`'s parent and on the climb above it agree on the climb from `n`. */
  lemma UpSameStep(P: Parents, P': Parents, n: Id, k: nat)
    requires Acyclic(P) && Acyclic(P') && n in P && n in P' && P'[n] == P[n]
    requires 0 < k <= Depth(P, n) && k <= Depth(P', n)
    requires P[n].Some? && P[n].value in P && P[n].value in P'
    requires k - 1 <= Depth(P, P[n].value) && k - 1 <= Depth(P', P[n].value)
    requires Up(P', P[n].value, k - 1) == Up(P, P[n].value, k - 1)
    ensures Up(P', n, k) == Up(P, n, k)
  {
    UpStep(P, n, k);
    UpStep(P', n, k);
  }

  /** Climbing k steps is taking the parent, then climbing k - 1. */
  lemma UpStep(P: Parents, n: Id, k: nat)
    requires Acyclic(P) && n in P && 0 < k <= Depth(P, n)
    ensures P[n].Some? && P[n].value in P && k - 1 <= Depth(P, P[n].value)
    ensures Up(P, n, k) == Up(P, P[n].value, k - 1)
  {
    DepthStep(P, n);
  }

  /** Every descendant of the moved node is still its descendant. */
  lemma DescendantsFollow(P: Parents, id: Id, np: Option<Id>, n: Id)
    requires Acyclic(P) && id in P && SafeTarget(P, id, np) && IsAncestor(P, id, n)
    ensures Acyclic(P[id := np]) && IsAncestor(P[id := np], id, n)
  {
    var P' := P[id := np];
    MoveKeepsAcyclic(P, id, np);
    RankInside(P, id, np, n);
    RankInside(P, id, np, id);
    UpInside(P, id, np, n, Depth(P, n) - Depth(P, id));
    assert Up(P, n, Depth(P, n) - Depth(P, id)) == id;
  }

  // ---------------------------------------------------------------------
  // Adding and removing a leaf
  // ---------------------------------------------------------------------

  lemma {:induction false} RankAddLeaf(P: Parents, id: Id, np: Option<Id>, n: Id, f: nat)
    requires id !in P && Rank(P, n, f).Some?
    ensures Rank(P[id := np], n, f) == Rank(P, n, f)
    decreases f
  {
    if P[n].Some? {
      RankAddLeaf(P, id, np, P[n].value, f - 1);
    }
  }

  /** A new node under an existing parent, or at the root, keeps the tree acyclic and every old depth. */
  lemma AddLeafKeepsAcyclic(P: Parents, id: Id, np: Option<Id>)
    requires Acyclic(P) && id !in P && (np.Some? ==> np.value in P)
    ensures Acyclic(P[id := np])
    ensures forall n | n in P :: Depth(P[id := np], n) == Depth(P, n)
    ensures Depth(P[id := np], id) == NewDepth(P, np)
  {
    var P' := P[id := np];
    forall n | n in P
      ensures Ranked(P', n) && Depth(P', n) == Depth(P, n)
    {
      assert Ranked(P, n);
      var f: nat :| Rank(P, n, f).Some?;
      RankAddLeaf(P, id, np, n, f);
      DepthIs(P, n, f);
      DepthIs(P', n, f);
    }
    if np.None? {
      DepthIs(P', id, 0);
    } else {
      assert Ranked(P, np.value);
      var f: nat :| Rank(P, np.value, f).Some?;
      RankAddLeaf(P, id, np, np.value, f);
      DepthIs(P, np.value, f);
      DepthIs(P', id, f + 1);
    }
  }

  lemma {:induction false} RankRemoveLeaf(P: Parents, id: Id, n: Id, f: nat)
    requires Children(P, id) == {} && n in P && n != id
    ensures Rank(P - {id}, n, f) == Rank(P, n, f)
    decreases f
  {
    if P[n].Some? && f > 0 {
      assert n !in Children(P, id);
      if P[n].value in P {
        RankRemoveLeaf(P, id, P[n].value, f - 1);
      }
    }
  }

  /** Removing a node without children keeps the tree acyclic and every other depth. */
  lemma RemoveLeafKeepsAcyclic(P: Parents, id: Id)
    requires Acyclic(P) && Children(P, id) == {}
    ensures Acyclic(P - {id})
    ensures forall n | n in P && n != id :: Depth(P - {id}, n) == Depth(P, n)
  {
    forall n | n in P && n != id
      ensures Ranked(P - {id}, n) && Depth(P - {id}, n) == Depth(P, n)
    {
      assert Ranked(P, n);
      var f: nat :| Rank(P, n, f).Some?;
      RankRemoveLeaf(P, id, n, f);
      DepthIs(P, n, f);
      DepthIs(P - {id}, n, f);
    }
  }

  // ---------------------------------------------------------------------
  // The branch a descendant hangs from
  // ---------------------------------------------------------------------

  /** The child of `a` on the way down to its descendant `n`. */
  ghost function Branch(P: Parents, a: Id, n: Id): (c: Id)
    requires Acyclic(P) && IsAncestor(P, a, n)
    ensures c in P && P[c] == Some(a)
    ensures c == n || IsAncestor(P, c, n)
  {
    var k := Depth(P, n) - Depth(P, a) - 1;
    UpLast(P, n, k);
    Up(P, n, k)
  }

  /** Everything at or below a child `c` of `a` is below `a`, through the branch `c`. */
  lemma BranchOf(P: Parents, a: Id, c: Id, n: Id)
    requires Acyclic(P) && c in P && P[c] == Some(a) && (n == c || IsAncestor(P, c, n))
    ensures IsAncestor(P, a, n) && Branch(P, a, n) == c
  {
    ChildAncestry(P, c, a);
  }
}

=== FILE: http.dfy ===
/**
 The two global HTTP hooks: the exception filter that turns whatever a
 handler throws into the JSON error body, and the interceptor that wraps
 every successful result in `{ data: ... }`.

 JSON values are the datatype `Json`; a key that is absent from an object
 (`undefined` in the source) is a key missing from the map. The request's
 timestamp and the error log are not modelled.
 */
module Http {
  import opened Wrappers
  import Strings

  datatype Json =
    | JNull
    | JBool(b: bool)
    | JNum(n: int)
    | JStr(s: string)
    | JArr(items: seq<Json>)
    | JObj(fields: map<string, Json>)

  /** JavaScript truthiness of a JSON value (numbers are integers here, so NaN does not arise). */
  predicate Truthy(v: Json) {
    match v
    case JNull => false
    case JBool(b) => b
    case JNum(n) => n != 0
    case JStr(s) => |s| > 0
    case JArr(_) => true
    case JObj(_) => true
  }

  /** The value of `key` in an object, `undefined` otherwise. */
  function Get(v: Json, key: string): (r: Option<Json>)
    ensures r.Some? <==> v.JObj? && key in v.fields
  {
    if v.JObj? && key in v.fields then Some(v.fields[key]) else None
  }

  // ---------------------------------------------------------------------
  // The exception filter
  // ---------------------------------------------------------------------

  /** One segment of a Zod issue's path: an object key or an array index. */
  datatype PathSegment = Key(key: string) | Index(index: nat)

  datatype Issue = Issue(path: seq<PathSegment>, message: string, code: string)

  /** What a handler can throw, in the order the filter tests it. */
  datatype Exception =
    | HttpException(status: int, response: Json)
    | ZodError(issues: seq<Issue>)
    | PlainError(message: string)
    | Thrown(value: Json)

  datatype Request = Request(url: string, verb: string)

  /** The error body; an `errorCode` of `undefined` is `None` and is left out of the JSON. */
  datatype ErrorResponse = ErrorResponse(
    success: bool,
    statusCode: int,
    path: string,
    verb: string,
    message: Json,
    errorCode: Option<Json>)

  /** `String(n)` for a natural number. */
  function Decimal(n: nat): (s: string)
    ensures |s| >= 1 && forall i | 0 <= i < |s| :: Strings.IsDigit(s[i])
  {
    if n < 10 then [Strings.DigitChar(n)] else Decimal(n / 10) + [Strings.DigitChar(n % 10)]
  }

  function SegmentText(p: PathSegment): string {
    match p
    case Key(k) => k
    case Index(i) => Decimal(i)
  }

  /** `err.path.join('.')`: the segments' texts with dots between, `""` for an empty path. */
  function FieldOf(path: seq<PathSegment>): string {
    if |path| == 0 then "" else Strings.Join(seq(|path|, i requires 0 <= i < |path| => SegmentText(path[i])), '.')
  }

  /** When no key holds a dot, splitting the field at the dots gives the path's segments back. */
  lemma FieldSplitsIntoPath(path: seq<PathSegment>)
    requires |path| >= 1
    requires forall i | 0 <= i < |path| :: path[i].Key? ==> '.' !in path[i].key
    ensures Strings.Split(FieldOf(path), '.') == seq(|path|, i requires 0 <= i < |path| => SegmentText(path[i]))
  {
    var texts := seq(|path|, i requires 0 <= i < |path| => SegmentText(path[i]));
    forall i | 0 <= i < |texts| ensures '.' !in texts[i] {
      if path[i].Index? {
        var d := Decimal(path[i].index);
        assert forall k | 0 <= k < |d| :: d[k] != '.';
      }
    }
    Strings.SplitJoin(texts, '.');
  }

  function IssueJson(e: Issue): Json {
    JObj(map["field" := JStr(FieldOf(e.path)), "message" := JStr(e.message), "code" := JStr(e.code)])
  }

  /** `extractHttpExceptionDetails`: status, message and error code of an `HttpException`. */
  function HttpDetails(status: int, response: Json): (r: (int, Json, Option<Json>))
    ensures r.0 == status
    ensures response.JStr? ==> r.1 == response && r.2 == None
    ensures (response.JObj? || response.JArr?) ==> r.2 == Get(response, "error")
    ensures (response.JObj? || response.JArr?) ==>
              (r.1 == if Get(response, "message").Some? && Truthy(Get(response, "message").value)
                      then Get(response, "message").value else response)
    ensures (response.JNull? || response.JBool? || response.JNum?) ==> r.1 == response && r.2 == None
  {
    match response
    case JStr(_) => (status, response, None)
    case JObj(_) =>
      var m := Get(response, "message");
      (status, if m.Some? && Truthy(m.value) then m.value else response, Get(response, "error"))
    case JArr(_) => (status, response, None)
    case _ => (status, response, None)
  }

  /** `buildErrorResponse`. */
  function BuildErrorResponse(ex: Exception, req: Request): (r: ErrorResponse)
    ensures !r.success && r.path == req.url && r.verb == req.verb
    ensures ex.HttpException? ==> r.statusCode == ex.status
    ensures ex.ZodError? ==> r.statusCode == 400 && r.errorCode == Some(JStr("VALIDATION_ERROR"))
    ensures ex.PlainError? ==> r.statusCode == 500 && r.errorCode == Some(JStr("UNKNOWN_ERROR")) && r.message == JStr(ex.message)
    ensures ex.Thrown? ==> r.statusCode == 500 && r.errorCode == Some(JStr("UNKNOWN_ERROR")) && r.message == JStr("Internal server error")
  {
    match ex
    case HttpException(status, response) =>
      var (code, message, errorCode) := HttpDetails(status, response);
      ErrorResponse(false, code, req.url, req.verb, message, errorCode)
    case ZodError(issues) =>
      var errors := seq(|issues|, i requires 0 <= i < |issues| => IssueJson(issues[i]));
      var message := JObj(map["message" := JStr("Validation failed"), "errors" := JArr(errors)]);
      ErrorResponse(false, 400, req.url, req.verb, message, Some(JStr("VALIDATION_ERROR")))
    case PlainError(m) =>
      ErrorResponse(false, 500, req.url, req.verb, JStr(m), Some(JStr("UNKNOWN_ERROR")))
    case Thrown(_) =>
      ErrorResponse(false, 500, req.url, req.verb, JStr("Internal server error"), Some(JStr("UNKNOWN_ERROR")))
  }

  /** Each Zod issue appears in the body, in order, with its path joined by dots. */
  lemma ZodIssuesListed(issues: seq<Issue>, req: Request)
    ensures var r := BuildErrorResponse(ZodError(issues), req);
            && Get(r.message, "message") == Some(JStr("Validation failed"))
            && Get(r.message, "errors").Some? && Get(r.message, "errors").value.JArr?
            && |Get(r.message, "errors").value.items| == |issues|
            && forall i | 0 <= i < |issues| ::
                 Get(Get(r.message, "errors").value.items[i], "field") == Some(JStr(FieldOf(issues[i].path)))
  {
  }

  /** The reason phrase NestJS puts in the `error` field of its built-in exceptions. */
  function ReasonPhrase(e: Error): string {
    match e
    case BadRequest => "Bad Request"
    case Unauthorized => "Unauthorized"
    case Forbidden => "Forbidden"
    case NotFound => "Not Found"
    case Conflict => "Conflict"
    case StoreError => "Internal Server Error"
  }

  /**
   What the services throw for each error of the model: a NestJS built-in
   exception carrying `{statusCode, message, error}` for the HTTP errors,
   and the store's own `Error` for a failed query.
   */
  function ServiceException(e: Error, message: string): (ex: Exception)
    ensures e == StoreError <==> ex.PlainError?
  {
    if e == StoreError then PlainError(message)
    else HttpException(StatusOf(e), JObj(map["statusCode" := JNum(StatusOf(e)), "message" := JStr(message), "error" := JStr(ReasonPhrase(e))]))
  }

  /**
   Every error a service raises reaches the client with the status code of
   its exception class, and with its message when that is not empty; a
   store failure is reported as UNKNOWN_ERROR.
   */
  lemma ServiceErrorsKeepStatus(e: Error, message: string, req: Request)
    ensures BuildErrorResponse(ServiceException(e, message), req).statusCode == StatusOf(e)
    ensures |message| > 0 ==> BuildErrorResponse(ServiceException(e, message), req).message == JStr(message)
    ensures e != StoreError ==> BuildErrorResponse(ServiceException(e, message), req).errorCode == Some(JStr(ReasonPhrase(e)))
    ensures e == StoreError ==> BuildErrorResponse(ServiceException(e, message), req).errorCode == Some(JStr("UNKNOWN_ERROR"))
  {
  }

  // ---------------------------------------------------------------------
  // The response interceptor
  // ---------------------------------------------------------------------

  /** `isAlreadyWrapped`: a non-null object with a `data` key (an array has none). */
  predicate IsWrapped(v: Json) {
    v.JObj? && "data" in v.fields
  }

  /** The `map` of `intercept`: a wrapped value passes through, anything else becomes `{ data: value }`. */
  function Wrap(v: Json): (r: Json)
    ensures IsWrapped(r)
    ensures IsWrapped(v) ==> r == v
    ensures !IsWrapped(v) ==> r.fields == map["data" := v]
  {
    if IsWrapped(v) then v else JObj(map["data" := v])
  }

  /** Wrapping twice is wrapping once, and the wrapped payload is the value itself. */
  lemma WrapIdempotent(v: Json)
    ensures Wrap(Wrap(v)) == Wrap(v)
    ensures !IsWrapped(v) ==> Get(Wrap(v), "data") == Some(v)
  {
  }

  /** The JSON of a login or register result. */
  function AuthJson(accessToken: string, user: Json): Json {
    JObj(map["access_token" := JStr(accessToken), "user" := user])
  }

  /** A login result is wrapped, so the client finds the token at `data.access_token`. */
  lemma AuthResponseWrapped(accessToken: string, user: Json)
    ensures Get(Wrap(AuthJson(accessToken, user)), "access_token") == None
    ensures var body := Get(Wrap(AuthJson(accessToken, user)), "data");
            body.Some? && Get(body.value, "access_token") == Some(JStr(accessToken))
  {
    assert !IsWrapped(AuthJson(accessToken, user));
  }
}

=== FILE: kanban.dfy ===
/**
 The Kanban service: boards hold ordered columns, columns hold ordered
 cards. Columns are rows of the position engine scoped by board, cards are
 rows scoped by column. Each service call maps a state to the exception it
 raises or to the next state, together with the card activities it logs and
 the users it notifies (in notification order).
 */
module Kanban {
  import opened Wrappers
  import opened Positions

  datatype Priority = Low | Medium | High | Urgent

  datatype ColumnData = ColumnData(name: string, color: Option<string>, limit: Option<int>)

  datatype CardData = CardData(
    title: string,
    description: Option<string>,
    priority: Priority,
    dueDate: Option<string>,
    assignedTo: Option<Id>,
    createdBy: Id,
    tags: seq<string>)

  datatype Comment = Comment(card: Id, user: Id, content: string)

  datatype State = State(
    users: set<Id>,
    boards: set<Id>,
    columns: Store<Id, ColumnData>,
    cards: Store<Id, CardData>,
    comments: map<Id, Comment>)

  /** An optional assignee the `assignedToId` foreign key accepts: none, or a stored user. */
  predicate Assignable(a: Option<Id>, users: set<Id>) {
    a.None? || a.value in users
  }

  /**
   Referential integrity of the Kanban tables: every column lies on a
   stored board, every card in a stored column with an assignee that is a
   stored user, and every comment on a stored card.
   */
  ghost predicate Linked(st: State) {
    && (forall x | x in st.columns :: st.columns[x].scope in st.boards)
    && (forall x | x in st.cards :: st.cards[x].scope in st.columns && Assignable(st.cards[x].data.assignedTo, st.users))
    && (forall k | k in st.comments :: st.comments[k].card in st.cards)
  }

  /**
   Deleting the cards `gone` with the comments on them, as the relations
   of the deleted rows cascade.
   */
  function DropCards(st: State, gone: set<Id>): (s': State)
    ensures s'.users == st.users && s'.boards == st.boards && s'.columns == st.columns
    ensures s'.cards.Keys == st.cards.Keys - gone
    ensures forall x | x in s'.cards :: s'.cards[x] == st.cards[x]
    ensures forall k :: k in s'.comments <==> k in st.comments && st.comments[k].card !in gone
    ensures forall k | k in s'.comments :: s'.comments[k] == st.comments[k]
  {
    st.(cards := map x | x in st.cards && x !in gone :: st.cards[x],
        comments := map k | k in st.comments && st.comments[k].card !in gone :: st.comments[k])
  }

  datatype Action = Created | Assigned | Moved | Commented

  /** One `cardActivity` row. */
  datatype Activity = Activity(card: Id, user: Id, action: Action)

  /** The outcome of a successful call: the next state, the activities logged and the users notified. */
  datatype Step = Step(state: State, log: seq<Activity>, notify: seq<Id>)

  // ---------------------------------------------------------------------
  // Request bodies, as the Zod schemas leave them
  // ---------------------------------------------------------------------

  datatype ColumnInput = ColumnInput(name: string, position: int, color: Option<string>, limit: Option<int>)

  /** `CreateColumnSchema`: a non-empty name, an integer position >= 0 and an optional positive limit. */
  predicate ValidColumnInput(c: ColumnInput) {
    |c.name| >= 1 && c.position >= 0 && (c.limit.Some? ==> c.limit.value > 0)
  }

  datatype ColumnPatch = ColumnPatch(name: Option<string>, position: Option<int>, color: Option<string>, limit: Option<int>)

  datatype CardInput = CardInput(
    title: string,
    description: Option<string>,
    position: int,
    priority: Option<Priority>,
    dueDate: Option<string>,
    assignedTo: Option<Id>,
    tags: Option<seq<string>>)

  /** `CreateCardSchema`: a non-empty title and an integer position >= 0. */
  predicate ValidCardInput(c: CardInput) {
    |c.title| >= 1 && c.position >= 0
  }

  /** The card row `createCard` stores: the schema defaults applied, the caller as creator. */
  function NewCard(c: CardInput, createdBy: Id): (d: CardData)
    ensures d.priority == (if c.priority.Some? then c.priority.value else Medium)
    ensures d.tags == (if c.tags.Some? then c.tags.value else [])
    ensures d.title == c.title && d.description == c.description && d.dueDate == c.dueDate
    ensures d.assignedTo == c.assignedTo && d.createdBy == createdBy
  {
    CardData(c.title, c.description, c.priority.GetOr(Medium), c.dueDate, c.assignedTo, createdBy, c.tags.GetOr([]))
  }

  datatype CardPatch = CardPatch(
    title: Option<string>,
    description: Option<string>,
    position: Option<int>,
    priority: Option<Priority>,
    dueDate: Option<string>,
    assignedTo: Option<Id>,
    tags: Option<seq<string>>)

  // ---------------------------------------------------------------------
  // Columns
  // ---------------------------------------------------------------------

  /**
   `createColumn`: NotFound for an unknown board, before any write;
   otherwise every column of the board at or after the requested position
   moves up by one and the new column takes that position. `id` is the id
   the database assigns.
   */
  function CreateColumn(st: State, board: Id, id: Id, c: ColumnInput): (r: Result<State>)
    requires id !in st.columns
    ensures board !in st.boards <==> r == Err(NotFound)
    ensures r.Ok? ==> && r.value.users == st.users && r.value.boards == st.boards && r.value.cards == st.cards
                      && r.value.comments == st.comments
                      && r.value.columns.Keys == st.columns.Keys + {id}
                      && r.value.columns[id] == Row(board, c.position, ColumnData(c.name, c.color, c.limit))
    ensures r.Ok? ==> forall x | x in st.columns ::
      && r.value.columns[x].scope == st.columns[x].scope
      && r.value.columns[x].data == st.columns[x].data
      && (st.columns[x].scope == board && st.columns[x].pos >= c.position ==> r.value.columns[x].pos == st.columns[x].pos + 1)
      && (st.columns[x].scope != board || st.columns[x].pos < c.position ==> r.value.columns[x].pos == st.columns[x].pos)
  {
    if board !in st.boards then Err(NotFound)
    else Ok(st.(columns := Insert(st.columns, id, Row(board, c.position, ColumnData(c.name, c.color, c.limit)))))
  }

  /**
   `updateColumn`: NotFound for an unknown column; otherwise the patch is
   written to that row alone. A position in the patch is stored as given,
   without moving any sibling.
   */
  function UpdateColumn(st: State, id: Id, p: ColumnPatch): (r: Result<State>)
    ensures id !in st.columns <==> r == Err(NotFound)
    ensures r.Ok? ==> && r.value.users == st.users && r.value.boards == st.boards && r.value.cards == st.cards
                      && r.value.comments == st.comments
                      && r.value.columns.Keys == st.columns.Keys
                      && (forall x | x in st.columns && x != id :: r.value.columns[x] == st.columns[x])
    ensures r.Ok? ==> && r.value.columns[id].scope == st.columns[id].scope
                      && r.value.columns[id].pos == p.position.GetOr(st.columns[id].pos)
                      && r.value.columns[id].data.name == p.name.GetOr(st.columns[id].data.name)
                      && r.value.columns[id].data.color == p.color.Or(st.columns[id].data.color)
                      && r.value.columns[id].data.limit == p.limit.Or(st.columns[id].data.limit)
  {
    if id !in st.columns then Err(NotFound)
    else
      var row := st.columns[id];
      var data := ColumnData(p.name.GetOr(row.data.name), p.color.Or(row.data.color), p.limit.Or(row.data.limit));
      Ok(st.(columns := st.columns[id := Row(row.scope, p.position.GetOr(row.pos), data)]))
  }

  /**
   `moveColumn`: NotFound for an unknown column; moving to the current
   position writes nothing; otherwise the columns between the two positions
   shift by one and the column takes the new position.
   */
  function MoveColumn(st: State, id: Id, to: int): (r: Result<State>)
    ensures id !in st.columns <==> r == Err(NotFound)
    ensures r.Ok? && st.columns[id].pos == to ==> r.value == st
    ensures r.Ok? ==> && r.value.users == st.users && r.value.boards == st.boards && r.value.cards == st.cards
                      && r.value.comments == st.comments
                      && r.value.columns.Keys == st.columns.Keys
                      && r.value.columns[id] == st.columns[id].(pos := to)
    ensures r.Ok? ==> forall b | b != st.columns[id].scope :: PositionsIn(r.value.columns, b) == PositionsIn(st.columns, b)
  {
    if id !in st.columns then Err(NotFound)
    else if st.columns[id].pos == to then Ok(st)
    else Ok(st.(columns := MoveWithin(st.columns, id, to)))
  }

  /**
   `removeColumn`: NotFound for an unknown column; otherwise it is deleted
   together with its cards and their comments, and every later column of
   its board moves down by one.
   */
  function RemoveColumn(st: State, id: Id): (r: Result<State>)
    ensures id !in st.columns <==> r == Err(NotFound)
    ensures r.Ok? ==> && r.value.users == st.users && r.value.boards == st.boards
                      && r.value.columns.Keys == st.columns.Keys - {id}
    ensures r.Ok? ==> && (forall x :: x in r.value.cards <==> x in st.cards && st.cards[x].scope != id)
                      && (forall x | x in r.value.cards :: r.value.cards[x] == st.cards[x])
    ensures r.Ok? ==> && (forall k :: k in r.value.comments <==> k in st.comments && st.comments[k].card !in CardsIn(st, id))
                      && (forall k | k in r.value.comments :: r.value.comments[k] == st.comments[k])
    ensures r.Ok? ==> forall b | b != st.columns[id].scope :: PositionsIn(r.value.columns, b) == PositionsIn(st.columns, b)
  {
    if id !in st.columns then Err(NotFound)
    else Ok(DropCards(st, CardsIn(st, id)).(columns := Remove(st.columns, id)))
  }

  /** The cards of column `column`. */
  function CardsIn(st: State, column: Id): (cs: set<Id>)
    ensures forall x :: x in cs <==> x in st.cards && st.cards[x].scope == column
  {
    set x | x in st.cards && st.cards[x].scope == column
  }

  // ---------------------------------------------------------------------
  // Cards
  // ---------------------------------------------------------------------

  /**
   `createCard`: NotFound for an unknown column, before any write;
   otherwise the cards of the column at or after the position move up by
   one. The `create` that follows fails on the foreign key when the
   assignee is not a stored user, and the shift stays written. Otherwise
   the card is stored at the position, a 'created' activity is logged, and
   the assignee is notified when there is one other than the creator.
   The state comes back beside the result because a failed call may have
   written.
   */
  function CreateCard(st: State, column: Id, id: Id, c: CardInput, user: Id): (r: (State, Result<Step>))
    requires id !in st.cards
    ensures column !in st.columns <==> r.1 == Err(NotFound)
    ensures column !in st.columns ==> r.0 == st
    ensures r.1 == Err(StoreError) <==> column in st.columns && !Assignable(c.assignedTo, st.users)
    ensures r.1.Err? ==> r.1.error == NotFound || r.1.error == StoreError
    ensures r.1.Ok? ==> r.1.value.state == r.0
    ensures column in st.columns ==> && r.0.users == st.users && r.0.boards == st.boards
                                     && r.0.columns == st.columns && r.0.comments == st.comments
                                     && r.0.cards.Keys == st.cards.Keys + (if r.1.Ok? then {id} else {})
    ensures r.1.Ok? ==> r.0.cards[id] == Row(column, c.position, NewCard(c, user))
    ensures column in st.columns ==> forall x | x in st.cards ::
      && r.0.cards[x].scope == st.cards[x].scope
      && r.0.cards[x].data == st.cards[x].data
      && (st.cards[x].scope == column && st.cards[x].pos >= c.position ==> r.0.cards[x].pos == st.cards[x].pos + 1)
      && (st.cards[x].scope != column || st.cards[x].pos < c.position ==> r.0.cards[x].pos == st.cards[x].pos)
    ensures r.1.Ok? ==> r.1.value.log == [Activity(id, user, Created)]
    ensures r.1.Ok? ==> (r.1.value.notify == [] || (c.assignedTo.Some? && r.1.value.notify == [c.assignedTo.value]))
    ensures r.1.Ok? ==> (r.1.value.notify != [] <==> Present(c.assignedTo) && c.assignedTo.value != user)
  {
    if column !in st.columns then (st, Err(NotFound))
    else if !Assignable(c.assignedTo, st.users) then
      (st.(cards := UpdateMany(st.cards, column, Gte(c.position), 1)), Err(StoreError))
    else
      var cards := Insert(st.cards, id, Row(column, c.position, NewCard(c, user)));
      var notify := if Present(c.assignedTo) && c.assignedTo.value != user then [c.assignedTo.value] else [];
      (st.(cards := cards), Ok(Step(st.(cards := cards), [Activity(id, user, Created)], notify)))
  }

  /**
   `updateCard`: NotFound for an unknown card; the `update` fails on the
   foreign key, with nothing written, when a new assignee is not a stored
   user; otherwise the patch is written to that row alone (a position is
   stored as given). A new, different assignee logs an 'assigned' activity
   and is notified unless they are the caller.
   */
  function UpdateCard(st: State, id: Id, p: CardPatch, user: Id): (r: Result<Step>)
    ensures id !in st.cards <==> r == Err(NotFound)
    ensures r == Err(StoreError) <==> id in st.cards && !Assignable(p.assignedTo, st.users)
    ensures r.Err? ==> r.error == NotFound || r.error == StoreError
    ensures r.Ok? ==> && r.value.state.users == st.users && r.value.state.boards == st.boards
                      && r.value.state.columns == st.columns && r.value.state.comments == st.comments
                      && r.value.state.cards.Keys == st.cards.Keys
                      && (forall x | x in st.cards && x != id :: r.value.state.cards[x] == st.cards[x])
    ensures r.Ok? ==> && r.value.state.cards[id].scope == st.cards[id].scope
                      && r.value.state.cards[id].pos == p.position.GetOr(st.cards[id].pos)
                      && r.value.state.cards[id].data.createdBy == st.cards[id].data.createdBy
    ensures r.Ok? ==> && r.value.state.cards[id].data.title == p.title.GetOr(st.cards[id].data.title)
                      && r.value.state.cards[id].data.description == p.description.Or(st.cards[id].data.description)
                      && r.value.state.cards[id].data.priority == p.priority.GetOr(st.cards[id].data.priority)
                      && r.value.state.cards[id].data.dueDate == p.dueDate.Or(st.cards[id].data.dueDate)
                      && r.value.state.cards[id].data.assignedTo == p.assignedTo.Or(st.cards[id].data.assignedTo)
                      && r.value.state.cards[id].data.tags == p.tags.GetOr(st.cards[id].data.tags)
    ensures r.Ok? ==> (r.value.log != [] <==> Present(p.assignedTo) && p.assignedTo != st.cards[id].data.assignedTo)
    ensures r.Ok? ==> (r.value.log != [] ==> r.value.log == [Activity(id, user, Assigned)])
    ensures r.Ok? ==> (r.value.notify != [] <==> r.value.log != [] && p.assignedTo.value != user)
    ensures r.Ok? && r.value.notify != [] ==> r.value.notify == [p.assignedTo.value]
  {
    if id !in st.cards then Err(NotFound)
    else if !Assignable(p.assignedTo, st.users) then Err(StoreError)
    else
      var row := st.cards[id];
      var d := row.data;
      var data := CardData(
        p.title.GetOr(d.title), p.description.Or(d.description), p.priority.GetOr(d.priority),
        p.dueDate.Or(d.dueDate), p.assignedTo.Or(d.assignedTo), d.createdBy, p.tags.GetOr(d.tags));
      var cards := st.cards[id := Row(row.scope, p.position.GetOr(row.pos), data)];
      var reassigned := Present(p.assignedTo) && p.assignedTo != d.assignedTo;
      var log := if reassigned then [Activity(id, user, Assigned)] else [];
      var notify := if reassigned && p.assignedTo.value != user then [p.assignedTo.value] else [];
      Ok(Step(st.(cards := cards), log, notify))
  }

  /**
   `moveCard`: NotFound for an unknown card, then NotFound for an unknown
   target column, both before any write. A move to the card's own column
   and position returns at once with nothing logged. A move inside the
   column shifts the cards between the two positions; a move to another
   column closes the gap in the source and opens a slot in the target.
   The card then takes the target column and position and a 'moved'
   activity is logged.
   */
  function MoveCard(st: State, id: Id, target: Id, to: int, user: Id): (r: Result<Step>)
    ensures id !in st.cards ==> r == Err(NotFound)
    ensures id in st.cards && target !in st.columns ==> r == Err(NotFound)
    ensures r.Err? <==> id !in st.cards || target !in st.columns
    ensures r.Ok? && st.cards[id].scope == target && st.cards[id].pos == to ==> r.value == Step(st, [], [])
    ensures r.Ok? && (st.cards[id].scope != target || st.cards[id].pos != to) ==>
      r.value.log == [Activity(id, user, Moved)]
    ensures r.Ok? ==> && r.value.state.users == st.users && r.value.state.boards == st.boards && r.value.state.columns == st.columns
                      && r.value.state.comments == st.comments && r.value.notify == []
                      && r.value.state.cards.Keys == st.cards.Keys
                      && r.value.state.cards[id] == Row(target, to, st.cards[id].data)
    ensures r.Ok? ==> forall x | x in st.cards :: r.value.state.cards[x].data == st.cards[x].data
  {
    if id !in st.cards then Err(NotFound)
    else if target !in st.columns then Err(NotFound)
    else
      var card := st.cards[id];
      if card.scope == target && card.pos == to then Ok(Step(st, [], []))
      else
        var cards := if card.scope == target then MoveWithin(st.cards, id, to) else MoveAcross(st.cards, id, target, to);
        Ok(Step(st.(cards := cards), [Activity(id, user, Moved)], []))
  }

  /**
   `removeCard`: NotFound for an unknown card; otherwise it is deleted
   together with its comments, and every later card of its column moves
   down by one.
   */
  function RemoveCard(st: State, id: Id): (r: Result<State>)
    ensures id !in st.cards <==> r == Err(NotFound)
    ensures r.Ok? ==> && r.value.users == st.users && r.value.boards == st.boards
                      && r.value.columns == st.columns
                      && r.value.cards.Keys == st.cards.Keys - {id}
    ensures r.Ok? ==> forall x | x in r.value.cards :: r.value.cards[x].scope == st.cards[x].scope && r.value.cards[x].data == st.cards[x].data
    ensures r.Ok? ==> && (forall k :: k in r.value.comments <==> k in st.comments && st.comments[k].card != id)
                      && (forall k | k in r.value.comments :: r.value.comments[k] == st.comments[k])
    ensures r.Ok? ==> forall c | c != st.cards[id].scope :: PositionsIn(r.value.cards, c) == PositionsIn(st.cards, c)
  {
    if id !in st.cards then Err(NotFound)
    else
      var dropped := DropCards(st, {id});
      Ok(dropped.(cards := Remove(st.cards, id)))
  }

  // ---------------------------------------------------------------------
  // Comments
  // ---------------------------------------------------------------------

  /**
   The users `notifyCommentRecipients` notifies, in `Set` insertion order:
   the card's creator unless they are the commenter, then the assignee when
   there is one, unless they are the commenter or already listed.
   */
  function CommentRecipients(createdBy: Id, assignedTo: Option<Id>, commenter: Id): (r: seq<Id>)
    ensures commenter !in r
    ensures |r| <= 2
    ensures forall i, j | 0 <= i < j < |r| :: r[i] != r[j]
    ensures forall u | u in r :: u == createdBy || (Present(assignedTo) && u == assignedTo.value)
    ensures createdBy != commenter ==> createdBy in r
    ensures Present(assignedTo) && assignedTo.value != commenter ==> assignedTo.value in r
  {
    var first := if createdBy != commenter then [createdBy] else [];
    if Present(assignedTo) && assignedTo.value != commenter && assignedTo.value !in first
    then first + [assignedTo.value]
    else first
  }

  /**
   `createComment`: NotFound for an unknown card; otherwise the comment is
   stored, a 'commented' activity is logged and the comment recipients are
   notified.
   */
  function CreateComment(st: State, card: Id, id: Id, content: string, user: Id): (r: Result<Step>)
    requires id !in st.comments
    ensures card !in st.cards <==> r == Err(NotFound)
    ensures r.Ok? ==> && r.value.state == st.(comments := st.comments[id := Comment(card, user, content)])
                      && r.value.log == [Activity(card, user, Commented)]
                      && user !in r.value.notify
                      && r.value.notify == CommentRecipients(st.cards[card].data.createdBy, st.cards[card].data.assignedTo, user)
  {
    if card !in st.cards then Err(NotFound)
    else
      var row := st.cards[card];
      Ok(Step(st.(comments := st.comments[id := Comment(card, user, content)]),
              [Activity(card, user, Commented)],
              CommentRecipients(row.data.createdBy, row.data.assignedTo, user)))
  }

  // ---------------------------------------------------------------------
  // Density of boards and columns
  // ---------------------------------------------------------------------

  /** Creating a column at p <= n in a board whose n columns sit at 0..n-1 gives 0..n. */
  lemma CreateColumnKeepsDense(st: State, board: Id, id: Id, c: ColumnInput, n: nat)
    requires id !in st.columns && board in st.boards
    requires Dense(PositionsIn(st.columns, board), n) && 0 <= c.position <= n
    ensures CreateColumn(st, board, id, c).Ok?
    ensures Dense(PositionsIn(CreateColumn(st, board, id, c).value.columns, board), n + 1)
  {
    InsertKeepsDense(st.columns, id, Row(board, c.position, ColumnData(c.name, c.color, c.limit)), n);
  }

  /** The position is not clamped: creating a column past the end leaves position n empty. */
  lemma CreateColumnPastEndLeavesGap(st: State, board: Id, id: Id, c: ColumnInput, n: nat)
    requires id !in st.columns && board in st.boards
    requires Dense(PositionsIn(st.columns, board), n) && c.position > n
    ensures CreateColumn(st, board, id, c).Ok?
    ensures !Dense(PositionsIn(CreateColumn(st, board, id, c).value.columns, board), n + 1)
  {
    OpenPastEndLeavesGap(PositionsIn(st.columns, board), n, id, c.position);
  }

  /**
   Moving a column of a dense board to a position in 0..n-1 keeps the
   board dense, and every other column keeps its order relative to the rest.
   */
  lemma MoveColumnKeepsDenseAndOrder(st: State, id: Id, to: int, n: nat, a: Id, b: Id)
    requires id in st.columns && Dense(PositionsIn(st.columns, st.columns[id].scope), n) && 0 <= to < n
    requires a in st.columns && b in st.columns && a != id && b != id
    requires st.columns[a].scope == st.columns[id].scope == st.columns[b].scope
    ensures MoveColumn(st, id, to).Ok?
    ensures Dense(PositionsIn(MoveColumn(st, id, to).value.columns, st.columns[id].scope), n)
    ensures st.columns[a].pos < st.columns[b].pos
            <==> MoveColumn(st, id, to).value.columns[a].pos < MoveColumn(st, id, to).value.columns[b].pos
  {
    MoveWithinKeepsDense(st.columns, id, to, n);
    MoveWithinKeepsOrder(st.columns, id, to, a, b);
  }

  /** Removing a column of a dense board of n columns leaves n - 1 dense columns. */
  lemma RemoveColumnKeepsDense(st: State, id: Id, n: nat)
    requires id in st.columns && Dense(PositionsIn(st.columns, st.columns[id].scope), n)
    ensures RemoveColumn(st, id).Ok?
    ensures Dense(PositionsIn(RemoveColumn(st, id).value.columns, st.columns[id].scope), n - 1)
  {
    RemoveKeepsDense(st.columns, id, n);
  }

  /**
   Updating a column's position to the position of a sibling leaves two
   columns of the board at one position: the patch is not reconciled.
   */
  lemma UpdateColumnPositionCollides(st: State, id: Id, other: Id, p: ColumnPatch)
    requires id in st.columns && other in st.columns && other != id
    requires st.columns[other].scope == st.columns[id].scope
    requires p.position == Some(st.columns[other].pos)
    ensures UpdateColumn(st, id, p).Ok?
    ensures !Unique(PositionsIn(UpdateColumn(st, id, p).value.columns, st.columns[id].scope))
  {
    var ps := PositionsIn(UpdateColumn(st, id, p).value.columns, st.columns[id].scope);
    assert id in ps && other in ps && ps[id] == ps[other];
  }

  // ---------------------------------------------------------------------
  // Density of columns and cards
  // ---------------------------------------------------------------------

  /** Creating a card at p <= n in a column whose n cards sit at 0..n-1 gives 0..n. */
  lemma CreateCardKeepsDense(st: State, column: Id, id: Id, c: CardInput, user: Id, n: nat)
    requires id !in st.cards && column in st.columns && Assignable(c.assignedTo, st.users)
    requires Dense(PositionsIn(st.cards, column), n) && 0 <= c.position <= n
    ensures CreateCard(st, column, id, c, user).1.Ok?
    ensures Dense(PositionsIn(CreateCard(st, column, id, c, user).0.cards, column), n + 1)
  {
    InsertKeepsDense(st.cards, id, Row(column, c.position, NewCard(c, user)), n);
  }

  /**
   A card creation that fails on the assignee has already opened its slot:
   in a dense column of n cards, creating at p < n for an assignee that is
   not a stored user leaves position p empty, so the column is no longer
   dense.
   */
  lemma CreateCardFailureLeavesGap(st: State, column: Id, id: Id, c: CardInput, user: Id, n: nat)
    requires id !in st.cards && column in st.columns && !Assignable(c.assignedTo, st.users)
    requires Dense(PositionsIn(st.cards, column), n) && 0 <= c.position < n
    ensures CreateCard(st, column, id, c, user).1 == Err(StoreError)
    ensures !Occupied(PositionsIn(CreateCard(st, column, id, c, user).0.cards, column), c.position)
    ensures !Dense(PositionsIn(CreateCard(st, column, id, c, user).0.cards, column), n)
  {
    var ps := PositionsIn(CreateCard(st, column, id, c, user).0.cards, column);
    forall x | x in ps
      ensures ps[x] != c.position
    {
      assert x in PositionsIn(st.cards, column);
    }
  }

  /**
   Moving a card inside its dense column to a position in 0..n-1 keeps the
   column dense and the other cards in their relative order.
   */
  lemma MoveCardWithinKeepsDenseAndOrder(st: State, id: Id, to: int, user: Id, n: nat, a: Id, b: Id)
    requires id in st.cards && st.cards[id].scope in st.columns
    requires Dense(PositionsIn(st.cards, st.cards[id].scope), n) && 0 <= to < n
    requires a in st.cards && b in st.cards && a != id && b != id
    requires st.cards[a].scope == st.cards[id].scope == st.cards[b].scope
    ensures MoveCard(st, id, st.cards[id].scope, to, user).Ok?
    ensures Dense(PositionsIn(MoveCard(st, id, st.cards[id].scope, to, user).value.state.cards, st.cards[id].scope), n)
    ensures st.cards[a].pos < st.cards[b].pos
            <==> MoveCard(st, id, st.cards[id].scope, to, user).value.state.cards[a].pos
                 < MoveCard(st, id, st.cards[id].scope, to, user).value.state.cards[b].pos
  {
    MoveWithinKeepsDense(st.cards, id, to, n);
    MoveWithinKeepsOrder(st.cards, id, to, a, b);
  }

  /**
   Moving a card to another column: a dense source of n cards becomes dense
   with n - 1, and a dense target of k cards becomes dense with k + 1 when
   the new position is at most k. Every other column is untouched.
   */
  lemma MoveCardAcrossKeepsDense(st: State, id: Id, target: Id, to: int, user: Id, n: nat, k: nat)
    requires id in st.cards && target in st.columns && st.cards[id].scope != target
    requires Dense(PositionsIn(st.cards, st.cards[id].scope), n) && Dense(PositionsIn(st.cards, target), k)
    requires 0 <= to <= k
    ensures MoveCard(st, id, target, to, user).Ok?
    ensures Dense(PositionsIn(MoveCard(st, id, target, to, user).value.state.cards, st.cards[id].scope), n - 1)
    ensures Dense(PositionsIn(MoveCard(st, id, target, to, user).value.state.cards, target), k + 1)
    ensures forall c | c != st.cards[id].scope && c != target ::
      PositionsIn(MoveCard(st, id, target, to, user).value.state.cards, c) == PositionsIn(st.cards, c)
  {
    MoveAcrossKeepsDense(st.cards, id, target, to, n, k);
  }

  /**
   Moving a card to another column and back to its old place restores
   every card, when the card was alone at its position.
   */
  lemma MoveCardRoundTrip(st: State, id: Id, target: Id, to: int, user: Id)
    requires id in st.cards && target in st.columns && st.cards[id].scope in st.columns
    requires st.cards[id].scope != target
    requires forall x | x in st.cards && x != id && st.cards[x].scope == st.cards[id].scope :: st.cards[x].pos != st.cards[id].pos
    ensures MoveCard(st, id, target, to, user).Ok?
    ensures MoveCard(MoveCard(st, id, target, to, user).value.state, id, st.cards[id].scope, st.cards[id].pos, user).Ok?
    ensures MoveCard(MoveCard(st, id, target, to, user).value.state, id, st.cards[id].scope, st.cards[id].pos, user).value.state == st
  {
    MoveAcrossRoundTrip(st.cards, id, target, to);
  }

  /** Removing a card of a dense column of n cards leaves n - 1 dense cards. */
  lemma RemoveCardKeepsDense(st: State, id: Id, n: nat)
    requires id in st.cards && Dense(PositionsIn(st.cards, st.cards[id].scope), n)
    ensures RemoveCard(st, id).Ok?
    ensures Dense(PositionsIn(RemoveCard(st, id).value.cards, st.cards[id].scope), n - 1)
  {
    RemoveKeepsDense(st.cards, id, n);
  }

  // ---------------------------------------------------------------------
  // Referential integrity
  // ---------------------------------------------------------------------

  /** Removing a column takes its cards and their comments along: no row is left pointing at a deleted one. */
  lemma RemoveColumnKeepsLinked(st: State, id: Id)
    requires Linked(st) && id in st.columns
    ensures RemoveColumn(st, id).Ok? && Linked(RemoveColumn(st, id).value)
  {
    var s' := RemoveColumn(st, id).value;
    forall k | k in s'.comments
      ensures s'.comments[k].card in s'.cards
    {
      assert st.comments[k].card in st.cards;
    }
  }

  /** Removing a card takes its comments along. */
  lemma RemoveCardKeepsLinked(st: State, id: Id)
    requires Linked(st) && id in st.cards
    ensures RemoveCard(st, id).Ok? && Linked(RemoveCard(st, id).value)
  {
    var s' := RemoveCard(st, id).value;
    forall x | x in s'.cards
      ensures s'.cards[x].scope in s'.columns && Assignable(s'.cards[x].data.assignedTo, s'.users)
    {
      assert s'.cards[x].data == st.cards[x].data;
    }
  }

  /** Creating a card, whether the create succeeds or fails after its shift, keeps the tables linked. */
  lemma CreateCardKeepsLinked(st: State, column: Id, id: Id, c: CardInput, user: Id)
    requires Linked(st) && id !in st.cards
    ensures Linked(CreateCard(st, column, id, c, user).0)
  {
    var s' := CreateCard(st, column, id, c, user).0;
    if column in st.columns {
      forall x | x in s'.cards
        ensures s'.cards[x].scope in s'.columns && Assignable(s'.cards[x].data.assignedTo, s'.users)
      {
        if x != id {
          assert s'.cards[x].data == st.cards[x].data && s'.cards[x].scope == st.cards[x].scope;
        }
      }
    }
  }

  /** A successful card update keeps the tables linked: the new assignee is a stored user. */
  lemma UpdateCardKeepsLinked(st: State, id: Id, p: CardPatch, user: Id)
    requires Linked(st)
    ensures UpdateCard(st, id, p, user).Ok? ==> Linked(UpdateCard(st, id, p, user).value.state)
  {
  }
}

=== FILE: notifications.dfy ===
/**
 The notifications service: per-user notification rows, the read flag
 that `markAsRead` and `markAllAsRead` set, the unread count, deletion,
 and the builders that compose the text of each kind of notification.

 A notification references its user (a foreign key): storing one for an
 unknown user, or deleting a row that does not exist, makes the store
 raise (`StoreError`). A new row is unread, the column's default. The
 `readAt` timestamp and the ordering by creation time are not modelled;
 listings take the store's order as the parameter `listed`.
 */
module Notifications {
  import opened Wrappers
  import opened Counting

  datatype NotificationType =
    | MessageType
    | TaskAssigned
    | TaskComment
    | TaskDueSoon
    | WhatsAppMessage
    | SalesAssigned
    | SalesComment
    | Mention
    | System

  /** `CreateNotificationSchema`'s fields; `metadata` is a flat JSON object of strings, or absent. */
  datatype NotificationInput = NotificationInput(
    kind: NotificationType,
    title: string,
    message: string,
    user: Id,
    metadata: Option<map<string, string>>,
    actionUrl: Option<string>)

  datatype Notification = Notification(input: NotificationInput, isRead: bool)

  datatype State = State(users: set<Id>, rows: map<Id, Notification>)

  /** `create`: a new unread row, or a store error when the user does not exist. */
  function Create(st: State, id: Id, input: NotificationInput): (r: Result<State>)
    requires id !in st.rows
    ensures r.Err? <==> input.user !in st.users
    ensures r.Err? ==> r.error == StoreError
    ensures r.Ok? ==> && r.value.users == st.users
                      && r.value.rows == st.rows[id := Notification(input, false)]
  {
    if input.user !in st.users then Err(StoreError)
    else Ok(st.(rows := st.rows[id := Notification(input, false)]))
  }

  /** The user's notifications. */
  function OfUser(st: State, user: Id): (ids: set<Id>)
    ensures forall n :: n in ids <==> n in st.rows && st.rows[n].input.user == user
  {
    set n | n in st.rows && st.rows[n].input.user == user
  }

  /** The user's unread notifications. */
  function UnreadOf(st: State, user: Id): (ids: set<Id>)
    ensures forall n :: n in ids <==> n in st.rows && st.rows[n].input.user == user && !st.rows[n].isRead
    ensures ids <= OfUser(st, user)
  {
    set n | n in st.rows && st.rows[n].input.user == user && !st.rows[n].isRead
  }

  /** The rows `listed` names, in that order. */
  function RowsOf(st: State, listed: seq<Id>): (ns: seq<Notification>)
    requires forall i | 0 <= i < |listed| :: listed[i] in st.rows
    ensures |ns| == |listed|
    ensures forall i | 0 <= i < |listed| :: ns[i] == st.rows[listed[i]]
  {
    seq(|listed|, i requires 0 <= i < |listed| => st.rows[listed[i]])
  }

  /** `findAll`: every notification of the user and no other (`listed`, newest first). */
  function FindAll(st: State, user: Id, listed: seq<Id>): (ns: seq<Notification>)
    requires Lists(OfUser(st, user), listed)
    ensures |ns| == |OfUser(st, user)|
    ensures forall i | 0 <= i < |ns| :: ns[i].input.user == user
    ensures forall n | n in OfUser(st, user) :: st.rows[n] in ns
  {
    DistinctCard(listed);
    assert forall i | 0 <= i < |listed| :: listed[i] in OfUser(st, user);
    var ns := RowsOf(st, listed);
    assert forall n | n in OfUser(st, user) :: st.rows[n] in ns by {
      forall n | n in OfUser(st, user) ensures st.rows[n] in ns {
        var i :| 0 <= i < |listed| && listed[i] == n;
        assert ns[i] == st.rows[n];
      }
    }
    ns
  }

  /** `findUnread`: the user's unread notifications (`listed`, newest first). */
  function FindUnread(st: State, user: Id, listed: seq<Id>): (ns: seq<Notification>)
    requires Lists(UnreadOf(st, user), listed)
    ensures |ns| == |UnreadOf(st, user)|
    ensures forall i | 0 <= i < |ns| :: ns[i].input.user == user && !ns[i].isRead
    ensures forall n | n in UnreadOf(st, user) :: st.rows[n] in ns
  {
    DistinctCard(listed);
    assert forall i | 0 <= i < |listed| :: listed[i] in UnreadOf(st, user);
    var ns := RowsOf(st, listed);
    assert forall n | n in UnreadOf(st, user) :: st.rows[n] in ns by {
      forall n | n in UnreadOf(st, user) ensures st.rows[n] in ns {
        var i :| 0 <= i < |listed| && listed[i] == n;
        assert ns[i] == st.rows[n];
      }
    }
    ns
  }

  /** `getUnreadCount`: a `count` over the same filter as `findUnread`. */
  function GetUnreadCount(st: State, user: Id): (n: nat)
    ensures n <= |OfUser(st, user)|
  {
    SubsetSmaller(UnreadOf(st, user), OfUser(st, user));
    |UnreadOf(st, user)|
  }

  /** The unread count is the length of the unread list. */
  lemma UnreadCountIsFindUnread(st: State, user: Id, listed: seq<Id>)
    requires Lists(UnreadOf(st, user), listed)
    ensures GetUnreadCount(st, user) == |FindUnread(st, user, listed)|
  {
    DistinctCard(listed);
  }

  /** Marks the rows named by `ids` read; every other row stays. */
  function MarkRead(rows: map<Id, Notification>, ids: set<Id>): (r: map<Id, Notification>)
    ensures r.Keys == rows.Keys
    ensures forall n | n in rows :: r[n] == if n in ids then rows[n].(isRead := true) else rows[n]
  {
    map n | n in rows :: if n in ids then rows[n].(isRead := true) else rows[n]
  }

  /**
   `markAsRead`: an `updateMany` over the ids given, whoever owns them;
   the count reported is the number of ids supplied, not the number of
   rows that changed.
   */
  function MarkAsRead(st: State, ids: seq<Id>): (r: (State, nat))
    ensures r.0.users == st.users && r.0.rows.Keys == st.rows.Keys
    ensures forall n | n in st.rows && n in ids :: r.0.rows[n].isRead && r.0.rows[n].input == st.rows[n].input
    ensures forall n | n in st.rows && n !in ids :: r.0.rows[n] == st.rows[n]
    ensures r.1 == |ids|
  {
    (st.(rows := MarkRead(st.rows, Members(ids))), |ids|)
  }

  /** Ids that name no row, or a row already read, are still counted. */
  lemma MarkAsReadCountsMissingIds()
    ensures var st := State({}, map[]);
            MarkAsRead(st, ["x", "x"]) == (st, 2)
  {
    var st := State({}, map[]);
    assert MarkRead(st.rows, Members(["x", "x"])) == map[];
  }

  /** The rows whose value differs between two versions of the table. */
  function Changed(a: map<Id, Notification>, b: map<Id, Notification>): (ids: set<Id>)
    requires a.Keys == b.Keys
    ensures forall n :: n in ids <==> n in a && a[n] != b[n]
  {
    set n | n in a && a[n] != b[n]
  }

  /**
   `markAllAsRead`: the user's unread rows become read, nothing else
   changes, and the count reported is the number of rows that changed.
   */
  function MarkAllAsRead(st: State, user: Id): (r: (State, nat))
    ensures r.0.users == st.users && r.0.rows.Keys == st.rows.Keys
    ensures UnreadOf(r.0, user) == {}
    ensures forall n | n in st.rows && st.rows[n].input.user != user :: r.0.rows[n] == st.rows[n]
    ensures forall n | n in st.rows :: r.0.rows[n].input == st.rows[n].input
    ensures r.1 == |Changed(st.rows, r.0.rows)| == GetUnreadCount(st, user)
  {
    var unread := UnreadOf(st, user);
    var rows := MarkRead(st.rows, unread);
    assert Changed(st.rows, rows) == unread;
    (st.(rows := rows), |unread|)
  }

  /** A second `markAllAsRead` finds nothing left to change. */
  lemma MarkAllAsReadTwice(st: State, user: Id)
    ensures var once := MarkAllAsRead(st, user).0;
            MarkAllAsRead(once, user) == (once, 0)
  {
    var once := MarkAllAsRead(st, user).0;
    assert MarkRead(once.rows, UnreadOf(once, user)) == once.rows;
  }

  /** `delete`: exactly that row goes; deleting a row that does not exist makes the store raise. */
  function Delete(st: State, id: Id): (r: Result<State>)
    ensures r.Err? <==> id !in st.rows
    ensures r.Err? ==> r.error == StoreError
    ensures r.Ok? ==> r.value.users == st.users && r.value.rows.Keys == st.rows.Keys - {id}
    ensures r.Ok? ==> forall n | n in r.value.rows :: r.value.rows[n] == st.rows[n]
  {
    if id !in st.rows then Err(StoreError) else Ok(st.(rows := st.rows - {id}))
  }

  /**
   `deleteAll`: the user's rows go and no one else's; the count reported
   is the number removed.
   */
  function DeleteAll(st: State, user: Id): (r: (State, nat))
    ensures r.0.users == st.users
    ensures r.0.rows.Keys == st.rows.Keys - OfUser(st, user)
    ensures forall n | n in r.0.rows :: r.0.rows[n] == st.rows[n] && r.0.rows[n].input.user != user
    ensures OfUser(r.0, user) == {}
    ensures r.1 + |r.0.rows| == |st.rows|
  {
    var mine := OfUser(st, user);
    var rows := map n | n in st.rows && n !in mine :: st.rows[n];
    assert rows.Keys == st.rows.Keys - mine;
    assert st.rows.Keys == rows.Keys + mine;
    (st.(rows := rows), |mine|)
  }

  /** Deleting a user's notifications leaves every other user's list as it was. */
  lemma DeleteAllSparesOthers(st: State, user: Id, other: Id)
    requires other != user
    ensures var after := DeleteAll(st, user).0;
            OfUser(after, other) == OfUser(st, other) &&
            forall n | n in OfUser(st, other) :: after.rows[n] == st.rows[n]
  {
  }

  // ---------------------------------------------------------------------
  // Builders
  // ---------------------------------------------------------------------

  const KanbanPath: string := "/dashboard/kanban/"

  /** `createTaskAssignedNotification`. */
  function TaskAssignedNotice(user: Id, cardTitle: string, cardId: string, boardId: string): (n: NotificationInput)
    ensures n.kind == TaskAssigned && n.user == user
  {
    NotificationInput(
      TaskAssigned,
      "Nova tarefa atribuída",
      "Você foi atribuído à tarefa \"" + cardTitle + "\"",
      user,
      Some(map["cardId" := cardId, "boardId" := boardId]),
      Some(KanbanPath + boardId))
  }

  /** `createTaskCommentNotification`. */
  function TaskCommentNotice(user: Id, cardTitle: string, cardId: string, commenterName: string, boardId: string): (n: NotificationInput)
    ensures n.kind == TaskComment && n.user == user
  {
    NotificationInput(
      TaskComment,
      "Novo comentário",
      commenterName + " comentou em \"" + cardTitle + "\"",
      user,
      Some(map["cardId" := cardId, "boardId" := boardId]),
      Some(KanbanPath + boardId))
  }

  /** `metadata: { <key>, messageText }`: an undefined text leaves its key out of the stored JSON. */
  function WithText(key: string, value: string, messageText: Option<string>): (m: map<string, string>)
    requires key != "messageText"
    ensures key in m && m[key] == value
    ensures "messageText" in m <==> messageText.Some?
    ensures messageText.Some? ==> m["messageText"] == messageText.value
  {
    if messageText.Some? then map[key := value, "messageText" := messageText.value] else map[key := value]
  }

  /** The body of a chat or WhatsApp notice: the text if given (`??`, so an empty text too), else a fallback. */
  function TextOr(name: string, messageText: Option<string>): string {
    if messageText.Some? then messageText.value else name + " enviou uma mensagem"
  }

  /** `createMessageNotification`. */
  function MessageNotice(user: Id, senderName: string, chatId: string, messageText: Option<string>): (n: NotificationInput)
    ensures n.kind == MessageType && n.user == user
  {
    NotificationInput(
      MessageType,
      senderName + " enviou uma nova mensagem",
      TextOr(senderName, messageText),
      user,
      Some(WithText("chatId", chatId, messageText)),
      Some("/dashboard/chats"))
  }

  /** `createWhatsAppNotification`. */
  function WhatsAppNotice(user: Id, clientName: string, conversationId: string, messageText: Option<string>): (n: NotificationInput)
    ensures n.kind == WhatsAppMessage && n.user == user
  {
    NotificationInput(
      WhatsAppMessage,
      clientName + " enviou uma nova mensagem",
      TextOr(clientName, messageText),
      user,
      Some(WithText("conversationId", conversationId, messageText)),
      Some("/dashboard/whatsapp/" + conversationId))
  }

  /** `createSalesAssignedNotification`. */
  function SalesAssignedNotice(user: Id, opportunityTitle: string, opportunityId: string): (n: NotificationInput)
    ensures n.kind == SalesAssigned && n.user == user
  {
    NotificationInput(
      SalesAssigned,
      "Nova oportunidade atribuída",
      "Você foi atribuído à oportunidade \"" + opportunityTitle + "\"",
      user,
      Some(map["opportunityId" := opportunityId]),
      Some("/dashboard/kanban/sales"))
  }

  /** `createMentionNotification`: the link is the caller's; no metadata. */
  function MentionNotice(user: Id, mentionerName: string, context: string, actionUrl: string): (n: NotificationInput)
    ensures n.kind == Mention && n.user == user
  {
    NotificationInput(
      Mention,
      "Você foi mencionado",
      mentionerName + " mencionou você em " + context,
      user,
      None,
      Some(actionUrl))
  }

  /** A task notice links to the board its metadata names, and carries the card. */
  lemma TaskNoticesLinkTheirBoard(user: Id, cardTitle: string, cardId: string, name: string, boardId: string)
    ensures var n := TaskAssignedNotice(user, cardTitle, cardId, boardId);
            n.metadata.Some? && n.metadata.value.Keys == {"cardId", "boardId"} &&
            n.metadata.value["cardId"] == cardId &&
            n.actionUrl == Some(KanbanPath + n.metadata.value["boardId"])
    ensures var n := TaskCommentNotice(user, cardTitle, cardId, name, boardId);
            n.metadata.Some? && n.metadata.value.Keys == {"cardId", "boardId"} &&
            n.metadata.value["cardId"] == cardId &&
            n.actionUrl == Some(KanbanPath + n.metadata.value["boardId"])
  {
  }

  /**
   The chat and WhatsApp notices show the text exactly when one is given,
   and the fallback names the sender otherwise; the text sits in the
   metadata exactly when given.
   */
  lemma MessageNoticesShowText(user: Id, name: string, ref: string, messageText: Option<string>)
    ensures var n := MessageNotice(user, name, ref, messageText);
            && (messageText.Some? ==> n.message == messageText.value)
            && (messageText.None? ==> n.message == name + " enviou uma mensagem")
            && ("messageText" in n.metadata.value <==> messageText.Some?)
            && n.metadata.value["chatId"] == ref
    ensures var n := WhatsAppNotice(user, name, ref, messageText);
            && (messageText.Some? ==> n.message == messageText.value)
            && (messageText.None? ==> n.message == name + " enviou uma mensagem")
            && ("messageText" in n.metadata.value <==> messageText.Some?)
            && n.metadata.value["conversationId"] == ref
            && n.actionUrl == Some("/dashboard/whatsapp/" + ref)
  {
  }

  /** `CreateNotificationSchema`'s length checks, and a link that is a path of the app. */
  predicate SchemaValid(n: NotificationInput) {
    |n.title| >= 1 && |n.message| >= 1 && (n.actionUrl.Some? ==> |n.actionUrl.value| >= 1 && n.actionUrl.value[0] == '/')
  }

  /**
   The builders bypass the schema: task and sales notices always pass
   it, while a chat or WhatsApp notice passes it exactly when its text is
   absent or non-empty.
   */
  lemma BuildersMeetSchema(user: Id, a: string, b: string, c: string, d: string, messageText: Option<string>)
    ensures SchemaValid(TaskAssignedNotice(user, a, b, c))
    ensures SchemaValid(TaskCommentNotice(user, a, b, c, d))
    ensures SchemaValid(SalesAssignedNotice(user, a, b))
    ensures SchemaValid(MessageNotice(user, a, b, messageText)) <==> messageText != Some("")
    ensures SchemaValid(WhatsAppNotice(user, a, b, messageText)) <==> messageText != Some("")
  {
    assert |TextOr(a, None)| >= 1 by { assert |a + " enviou uma mensagem"| == |a| + 20; }
  }
}

=== FILE: pagination.dfy ===
/**
 The `PaginationSchema` query parameters and the page arithmetic the users
 and feedback services share: `skip = (page - 1) * limit` rows are skipped,
 `limit` rows are taken, and `totalPages = Math.ceil(total / limit)`.
 */
module Pagination {
  import opened Wrappers

  datatype SortOrder = Asc | Desc

  datatype PageQuery = PageQuery(page: int, limit: int, sortBy: Option<string>, sortOrder: SortOrder)

  const DefaultPage := 1
  const DefaultLimit := 10
  const MaxLimit := 100

  /** The query values the schema lets through. */
  predicate ValidQuery(q: PageQuery) {
    q.page >= 1 && 1 <= q.limit <= MaxLimit
  }

  /**
   `PaginationSchema.parse`: a positive integer page (default 1), a
   positive integer limit of at most 100 (default 10), and a sort order of
   `asc` or `desc` (default `desc`). None when the query is rejected.
   */
  function ParseQuery(page: Option<int>, limit: Option<int>, sortBy: Option<string>, sortOrder: Option<string>): (r: Option<PageQuery>)
    ensures r.Some? <==> (page.None? || page.value >= 1) && (limit.None? || 1 <= limit.value <= MaxLimit)
                          && (sortOrder.None? || sortOrder.value in {"asc", "desc"})
    ensures r.Some? ==> ValidQuery(r.value)
    ensures r.Some? && page.None? ==> r.value.page == DefaultPage
    ensures r.Some? && limit.None? ==> r.value.limit == DefaultLimit
    ensures r.Some? && sortOrder.None? ==> r.value.sortOrder == Desc
    ensures r.Some? && page.Some? ==> r.value.page == page.value
    ensures r.Some? && limit.Some? ==> r.value.limit == limit.value
    ensures r.Some? && sortOrder.Some? ==> (r.value.sortOrder == Asc <==> sortOrder.value == "asc")
  {
    var p := if page.Some? then page.value else DefaultPage;
    var l := if limit.Some? then limit.value else DefaultLimit;
    if p < 1 || l < 1 || l > MaxLimit then None
    else if sortOrder.Some? && sortOrder.value != "asc" && sortOrder.value != "desc" then None
    else
      var order := if sortOrder == Some("asc") then Asc else Desc;
      Some(PageQuery(p, l, sortBy, order))
  }

  /** `(page - 1) * limit`. */
  function Skip(q: PageQuery): (n: nat)
    requires ValidQuery(q)
    ensures n == (q.page - 1) * q.limit
    ensures q.page == 1 <==> n == 0
  {
    (q.page - 1) * q.limit
  }

  /** `Math.ceil(total / limit)`: the fewest pages of `limit` rows that hold `total` rows. */
  function TotalPages(total: nat, limit: nat): (n: nat)
    requires limit >= 1
    ensures n * limit >= total
    ensures n == 0 || (n - 1) * limit < total
  {
    var n := (total + limit - 1) / limit;
    DivBounds(total + limit - 1, limit);
    n
  }

  lemma DivBounds(a: nat, d: nat)
    requires d >= 1
    ensures a / d * d <= a < (a / d + 1) * d
  {
  }

  /** `findMany({ skip, take: limit })` over the rows in their listing order. */
  function PageOf<T>(rows: seq<T>, q: PageQuery): (r: seq<T>)
    requires ValidQuery(q)
    ensures |r| <= q.limit
    ensures Skip(q) >= |rows| ==> r == []
    ensures Skip(q) < |rows| ==> |r| == (if |rows| - Skip(q) < q.limit then |rows| - Skip(q) else q.limit)
    ensures forall i | 0 <= i < |r| :: Skip(q) + i < |rows| && r[i] == rows[Skip(q) + i]
  {
    var lo := if Skip(q) < |rows| then Skip(q) else |rows|;
    var hi := if lo + q.limit < |rows| then lo + q.limit else |rows|;
    rows[lo..hi]
  }

  /**
   Every row is listed on exactly the page its index puts it on: row `i`
   is item `i % limit` of page `i / limit + 1`, and that page is within
   `totalPages`.
   */
  lemma RowOnItsPage<T>(rows: seq<T>, limit: int, i: nat)
    requires 1 <= limit <= MaxLimit && i < |rows|
    ensures var q := PageQuery(i / limit + 1, limit, None, Desc);
            && i / limit + 1 <= TotalPages(|rows|, limit)
            && i % limit < |PageOf(rows, q)|
            && PageOf(rows, q)[i % limit] == rows[i]
  {
    var q := PageQuery(i / limit + 1, limit, None, Desc);
    assert Skip(q) == i / limit * limit;
    assert Skip(q) + i % limit == i;
    var n := TotalPages(|rows|, limit);
    assert i / limit * limit <= i < n * limit;
    MulCancel(i / limit, n, limit);
  }

  lemma MulCancel(a: nat, b: nat, c: nat)
    requires c >= 1 && a * c < b * c
    ensures a < b
  {
  }

  /** The `meta` object of a paginated response. */
  datatype PageMeta = PageMeta(total: nat, page: int, limit: int, totalPages: nat)

  function MetaOf(total: nat, q: PageQuery): (m: PageMeta)
    requires ValidQuery(q)
    ensures m.total == total && m.page == q.page && m.limit == q.limit
    ensures m.totalPages == TotalPages(total, q.limit)
  {
    PageMeta(total, q.page, q.limit, TotalPages(total, q.limit))
  }
}

=== FILE: password.dfy ===
/**
 `PasswordUtil`: a stored password is the hex salt, a '.', and the hex of
 the key scrypt derives from the password and that salt. The key
 derivation function is a parameter (`Kdf`): the model fixes the string
 format and how `compare` takes it apart, not the cryptography. The random
 salt bytes are a parameter of `Hash`.
 */
module Password {
  import opened Strings

  /** Bytes of random salt. */
  const SaltLength: nat := 16
  /** Bytes of derived key. */
  const KeyLength: nat := 64
  const Separator: char := '.'

  /** scrypt(password, salt, KeyLength), taking the salt as the hex string that is stored. */
  type Kdf = (string, string) -> seq<byte>

  /** `hash`: `<hex salt>.<hex key>`. */
  function Hash(password: string, salt: seq<byte>, kdf: Kdf): (h: string)
    requires |salt| == SaltLength
    ensures Split(h, Separator) == [HexEncode(salt), HexEncode(kdf(password, HexEncode(salt)))]
    ensures |h| == 2 * SaltLength + 1 + 2 * |kdf(password, HexEncode(salt))|
  {
    var s := HexEncode(salt);
    var k := HexEncode(kdf(password, s));
    SplitPair(s, k, Separator);
    s + [Separator] + k
  }

  /** A stored string that `compare` takes apart into a non-empty salt and a non-empty hash. */
  predicate Parses(stored: string) {
    var parts := Split(stored, Separator);
    |parts| == 2 && parts[0] != "" && parts[1] != ""
  }

  /**
   `compare`: exactly two '.'-separated parts, both non-empty, and a decoded
   hash of the derived key's length that equals the key byte for byte.
   */
  function Compare(password: string, stored: string, kdf: Kdf): (b: bool)
    ensures |Split(stored, Separator)| != 2 ==> !b
    ensures |Split(stored, Separator)| == 2 && (Split(stored, Separator)[0] == "" || Split(stored, Separator)[1] == "") ==> !b
    ensures Parses(stored) && |HexDecode(Split(stored, Separator)[1])| != |kdf(password, Split(stored, Separator)[0])| ==> !b
    ensures b ==> Parses(stored) && HexDecode(Split(stored, Separator)[1]) == kdf(password, Split(stored, Separator)[0])
  {
    var parts := Split(stored, Separator);
    if |parts| != 2 then false
    else
      var salt := parts[0];
      var hash := parts[1];
      if salt == "" || hash == "" then false
      else
        var hashBuffer := HexDecode(hash);
        var derivedKey := kdf(password, salt);
        if |hashBuffer| != |derivedKey| then false
        else hashBuffer == derivedKey
  }

  /**
   On a string that parses, `compare` is exactly "the key derived from the
   candidate and the stored salt equals the stored bytes": the length test
   never rejects a match.
   */
  lemma CompareIsKeyEquality(password: string, stored: string, kdf: Kdf)
    requires Parses(stored)
    ensures Compare(password, stored, kdf) <==>
              HexDecode(Split(stored, Separator)[1]) == kdf(password, Split(stored, Separator)[0])
  {
  }

  /** Whatever `hash` writes, `compare` parses. */
  lemma HashParses(password: string, salt: seq<byte>, kdf: Kdf)
    requires |salt| == SaltLength
    requires |kdf(password, HexEncode(salt))| == KeyLength
    ensures Parses(Hash(password, salt, kdf))
  {
  }

  /** The password a hash was made from always compares equal to it. */
  lemma CompareHash(password: string, salt: seq<byte>, kdf: Kdf)
    requires |salt| == SaltLength
    requires |kdf(password, HexEncode(salt))| == KeyLength
    ensures Compare(password, Hash(password, salt, kdf), kdf)
  {
    HexRoundTrip(kdf(password, HexEncode(salt)));
  }

  /** Another password compares equal only if it derives the very same key under the stored salt. */
  lemma CompareOtherPassword(password: string, other: string, salt: seq<byte>, kdf: Kdf)
    requires |salt| == SaltLength
    requires |kdf(password, HexEncode(salt))| == KeyLength
    requires kdf(other, HexEncode(salt)) != kdf(password, HexEncode(salt))
    ensures !Compare(other, Hash(password, salt, kdf), kdf)
  {
    HexRoundTrip(kdf(password, HexEncode(salt)));
  }
}

=== FILE: permissions.dfy ===
/**
 Authorisation decisions over a role's list of (action, resource)
 permissions: the `PermissionHelper` used by the roles service, the
 `PermissionsGuard` that protects routes with a list of required
 permissions, and the older `RolesGuard` that compares role names.

 The meaning of a permission list is given independently by `Covers`: a
 held permission covers a request when it is the exact pair, or MANAGE on
 the requested resource, or MANAGE on ALL. The lemmas connect the
 list-walking code of the helper and of the guard to that meaning.
 */
module Permissions {
  import opened Wrappers

  /** `PermissionAction`. */
  datatype Action = Create | Read | Update | Delete | Manage

  /**
   `PermissionResource`: the wildcard `ALL` and the named resources
   (`USERS`, `KANBAN_BOARDS`, `CHAT`, ...), which the decisions only compare.
   */
  datatype Resource = All | Named(name: string)

  datatype Permission = Permission(action: Action, resource: Resource)

  // ---------------------------------------------------------------------
  // Meaning of a permission list
  // ---------------------------------------------------------------------

  /** The held permission `p` allows `action` on `resource`. */
  predicate Covers(p: Permission, action: Action, resource: Resource) {
    || p == Permission(Manage, All)
    || p == Permission(Manage, resource)
    || p == Permission(action, resource)
  }

  /** Some held permission in the set allows `action` on `resource`. */
  ghost predicate Grants(held: set<Permission>, action: Action, resource: Resource) {
    exists p | p in held :: Covers(p, action, resource)
  }

  ghost function Held(ps: seq<Permission>): set<Permission> {
    set p | p in ps
  }

  // ---------------------------------------------------------------------
  // PermissionHelper
  // ---------------------------------------------------------------------

  /** `isSuperAdmin`: some permission is MANAGE on ALL. */
  predicate IsSuperAdmin(ps: seq<Permission>) {
    exists p | p in ps :: p.action == Manage && p.resource == All
  }

  /** `hasManagePermission`: some permission is MANAGE on `resource`. */
  predicate HasManagePermission(ps: seq<Permission>, resource: Resource) {
    exists p | p in ps :: p.action == Manage && p.resource == resource
  }

  /** `hasSpecificPermission`: the exact pair is held. */
  predicate HasSpecificPermission(ps: seq<Permission>, action: Action, resource: Resource) {
    exists p | p in ps :: p.action == action && p.resource == resource
  }

  /**
   `checkPermission`: super admin first, then MANAGE on the resource, then
   the exact pair.
   */
  function CheckPermission(ps: seq<Permission>, action: Action, resource: Resource): (b: bool)
    ensures Permission(Manage, All) in ps ==> b
    ensures Permission(Manage, resource) in ps ==> b
    ensures Permission(Manage, All) !in ps && Permission(Manage, resource) !in ps ==>
              (b <==> Permission(action, resource) in ps)
    ensures |ps| == 0 ==> !b
  {
    if IsSuperAdmin(ps) then true
    else if HasManagePermission(ps, resource) then true
    else HasSpecificPermission(ps, action, resource)
  }

  /** The helper decides exactly what the held set grants. */
  lemma CheckPermissionMeansGrants(ps: seq<Permission>, action: Action, resource: Resource)
    ensures CheckPermission(ps, action, resource) <==> Grants(Held(ps), action, resource)
  {
    if CheckPermission(ps, action, resource) {
      var p :| p in ps && (p == Permission(Manage, All) || p == Permission(Manage, resource) || p == Permission(action, resource));
      assert p in Held(ps) && Covers(p, action, resource);
    } else {
      forall p | p in Held(ps) ensures !Covers(p, action, resource) {
        assert p in ps;
      }
    }
  }

  /** The decision depends only on the set of held pairs, not on order or duplicates. */
  lemma CheckPermissionOnlyOnSet(ps: seq<Permission>, qs: seq<Permission>, action: Action, resource: Resource)
    requires forall p :: p in ps <==> p in qs
    ensures CheckPermission(ps, action, resource) == CheckPermission(qs, action, resource)
  {
    assert Held(ps) == Held(qs);
    CheckPermissionMeansGrants(ps, action, resource);
    CheckPermissionMeansGrants(qs, action, resource);
  }

  /** Holding more permissions never turns a grant into a denial. */
  lemma CheckPermissionMonotone(ps: seq<Permission>, qs: seq<Permission>, action: Action, resource: Resource)
    requires forall p | p in ps :: p in qs
    requires CheckPermission(ps, action, resource)
    ensures CheckPermission(qs, action, resource)
  {
    CheckPermissionMeansGrants(ps, action, resource);
    CheckPermissionMeansGrants(qs, action, resource);
    var p :| p in Held(ps) && Covers(p, action, resource);
    assert p in Held(qs);
  }

  // ---------------------------------------------------------------------
  // PermissionsGuard
  // ---------------------------------------------------------------------

  /**
   The request as the guard sees it: the route's required permissions
   (None when the route has no metadata) and the authenticated user's id
   (None when the request carries no user).
   */
  datatype GuardRequest = GuardRequest(required: Option<seq<Permission>>, user: Option<Id>)

  /**
   One requirement is met by MANAGE on its resource or by the exact pair.
   The guard does not look at MANAGE on ALL here: it checked that before.
   */
  predicate MeetsRequirement(ps: seq<Permission>, req: Permission) {
    exists p | p in ps :: (p.action == Manage && p.resource == req.resource) || (p.action == req.action && p.resource == req.resource)
  }

  /** The request carries a user, the user is stored, and the user has a role. */
  predicate HasRole(user: Option<Id>, roleOf: map<Id, Option<seq<Permission>>>) {
    user.Some? && user.value in roleOf && roleOf[user.value].Some?
  }

  /**
   `PermissionsGuard.canActivate`. `roleOf` maps each stored user to the
   permissions of their role, or None when the user has no role. The guard
   either lets the request through or raises Forbidden; it never answers
   false.
   */
  function PermissionsGuard(rq: GuardRequest, roleOf: map<Id, Option<seq<Permission>>>): (r: Result<bool>)
    ensures rq.required.None? || |rq.required.value| == 0 ==> r == Ok(true)
    ensures r == Ok(true) || r == Err(Forbidden)
    ensures rq.required.Some? && |rq.required.value| > 0 && !HasRole(rq.user, roleOf) ==> r == Err(Forbidden)
  {
    if rq.required.None? || |rq.required.value| == 0 then Ok(true)
    else if rq.user.None? then Err(Forbidden)
    else if rq.user.value !in roleOf || roleOf[rq.user.value].None? then Err(Forbidden)
    else
      var ps := roleOf[rq.user.value].value;
      if IsSuperAdmin(ps) then Ok(true)
      else if forall req | req in rq.required.value :: MeetsRequirement(ps, req) then Ok(true)
      else Err(Forbidden)
  }

  /** A user whose role holds MANAGE on ALL passes any requirement list. */
  lemma SuperAdminPassesGuard(rq: GuardRequest, roleOf: map<Id, Option<seq<Permission>>>)
    requires rq.user.Some? && rq.user.value in roleOf && roleOf[rq.user.value].Some?
    requires Permission(Manage, All) in roleOf[rq.user.value].value
    ensures PermissionsGuard(rq, roleOf) == Ok(true)
  {
  }

  /**
   For a user with a role, the guard lets the request through exactly when
   the helper grants every required pair: the guard is the conjunction of
   `checkPermission` over its requirements.
   */
  lemma GuardIsEveryCheck(rq: GuardRequest, roleOf: map<Id, Option<seq<Permission>>>)
    requires rq.required.Some? && rq.user.Some? && rq.user.value in roleOf && roleOf[rq.user.value].Some?
    ensures PermissionsGuard(rq, roleOf) == Ok(true) <==>
              forall req | req in rq.required.value :: CheckPermission(roleOf[rq.user.value].value, req.action, req.resource)
  {
    var ps := roleOf[rq.user.value].value;
    if !IsSuperAdmin(ps) {
      forall req | req in rq.required.value
        ensures MeetsRequirement(ps, req) <==> CheckPermission(ps, req.action, req.resource)
      {
        MeetsIsCheck(ps, req);
      }
    }
  }

  /** Without MANAGE on ALL, one requirement is met exactly when the helper grants it. */
  lemma MeetsIsCheck(ps: seq<Permission>, req: Permission)
    requires !IsSuperAdmin(ps)
    ensures MeetsRequirement(ps, req) <==> CheckPermission(ps, req.action, req.resource)
  {
    if MeetsRequirement(ps, req) {
      var p :| p in ps && ((p.action == Manage && p.resource == req.resource) || (p.action == req.action && p.resource == req.resource));
      assert HasManagePermission(ps, req.resource) || HasSpecificPermission(ps, req.action, req.resource);
    }
  }

  /** For a single requirement the guard decides what `checkPermission` decides. */
  lemma GuardSingleIsCheck(req: Permission, u: Id, roleOf: map<Id, Option<seq<Permission>>>)
    requires u in roleOf && roleOf[u].Some?
    ensures PermissionsGuard(GuardRequest(Some([req]), Some(u)), roleOf) == Ok(true) <==>
              CheckPermission(roleOf[u].value, req.action, req.resource)
  {
    GuardIsEveryCheck(GuardRequest(Some([req]), Some(u)), roleOf);
  }

  // ---------------------------------------------------------------------
  // RolesGuard
  // ---------------------------------------------------------------------

  /** The authenticated user as `RolesGuard` reads it: the role and its name, either possibly missing. */
  datatype RoleView = RoleView(name: Option<string>)

  /**
   `RolesGuard.canActivate`: no `@Roles` metadata lets everyone through;
   otherwise the user's role must have a non-empty name equal to one of the
   listed names.
   */
  function RolesGuard(requiredRoles: Option<seq<string>>, role: Option<RoleView>): (b: bool)
    ensures requiredRoles.None? ==> b
    ensures requiredRoles.Some? && (role.None? || !Present(role.value.name)) ==> !b
    ensures requiredRoles.Some? && role.Some? && Present(role.value.name) ==>
              (b <==> role.value.name.value in requiredRoles.value)
  {
    if requiredRoles.None? then true
    else if role.None? || !Present(role.value.name) then false
    else exists i | 0 <= i < |requiredRoles.value| :: role.value.name.value == requiredRoles.value[i]
  }

  /** An explicitly empty list of roles shuts everyone out. */
  lemma EmptyRolesDenyAll(role: Option<RoleView>)
    ensures !RolesGuard(Some([]), role)
  {
  }

  /** Listing more role names, before or after the others, never turns a pass into a denial. */
  lemma RolesGuardMonotone(roles: seq<string>, more: seq<string>, role: Option<RoleView>)
    ensures RolesGuard(Some(roles), role) ==> RolesGuard(Some(roles + more), role)
    ensures RolesGuard(Some(roles), role) ==> RolesGuard(Some(more + roles), role)
  {
    if RolesGuard(Some(roles), role) {
      var i :| 0 <= i < |roles| && role.value.name.value == roles[i];
      assert (roles + more)[i] == roles[i];
      assert (more + roles)[|more| + i] == roles[i];
    }
  }

  /** The guard depends only on which names are listed, not on their order or repetition. */
  lemma RolesGuardOnlyOnSet(roles: seq<string>, others: seq<string>, role: Option<RoleView>)
    requires forall r :: r in roles <==> r in others
    ensures RolesGuard(Some(roles), role) == RolesGuard(Some(others), role)
  {
  }
}

=== FILE: positions.dfy ===
/**
 The ordered-position engine shared by Kanban columns, Kanban cards, sales
 stages and department siblings.

 A table is a map from row id to a `Row` that carries the row's scope (the
 board of a column, the column of a card, the pipeline of a stage), its
 `position` inside that scope, and the rest of its data. Every sibling shift
 the services perform is one Prisma `updateMany` whose `where` names a scope
 and a position window and whose `data` increments or decrements the
 position; `UpdateMany` models it as one map over all rows, with the filter
 evaluated on the rows as they were before the call.

 The density lemmas are proved once, on the "positions of a scope" view
 (`PositionsIn`), and instantiated by each service.
 */
module Positions {
  import opened Wrappers

  datatype Row<S, D> = Row(scope: S, pos: int, data: D)

  type Store<S(==,!new), D> = map<Id, Row<S, D>>

  /** The position filters the services pass to `updateMany`. */
  datatype Window =
    | Gte(lo: int)              // position >= lo
    | Gt(lo: int)               // position > lo
    | GtLte(lo: int, hi: int)   // lo < position <= hi
    | GteLt(lo: int, hi: int)   // lo <= position < hi

  predicate Selects(w: Window, p: int) {
    match w
    case Gte(lo) => lo <= p
    case Gt(lo) => lo < p
    case GtLte(lo, hi) => lo < p <= hi
    case GteLt(lo, hi) => lo <= p < hi
  }

  /** The positions of the rows of scope `s`, keyed by row id. */
  function PositionsIn<S(==,!new), D>(m: Store<S, D>, s: S): map<Id, int> {
    map id | id in m && m[id].scope == s :: m[id].pos
  }

  /** Some row sits at position `i`. */
  ghost predicate Occupied(ps: map<Id, int>, i: int) {
    exists id :: id in ps && ps[id] == i
  }

  /**
   The positions are exactly 0..n-1, each held by one row: the density
   invariant every ordered scope is meant to keep.
   */
  ghost predicate Dense(ps: map<Id, int>, n: nat) {
    && (forall id | id in ps :: 0 <= ps[id] < n)
    && (forall i | 0 <= i < n :: Occupied(ps, i))
    && Unique(ps)
  }

  /** No two rows share a position. */
  ghost predicate Unique(ps: map<Id, int>) {
    forall a, b | a in ps && b in ps && ps[a] == ps[b] :: a == b
  }

  /** The effect of one `updateMany` on the positions of the scope it filters on. */
  function Shift(ps: map<Id, int>, w: Window, delta: int): (r: map<Id, int>)
    ensures r.Keys == ps.Keys
  {
    map id | id in ps :: if Selects(w, ps[id]) then ps[id] + delta else ps[id]
  }

  /** Opening slot `p`: every position >= p moves up by one. */
  function Open(ps: map<Id, int>, p: int): map<Id, int> {
    Shift(ps, Gte(p), 1)
  }

  /** Closing the gap left at `p`: every position > p moves down by one. */
  function Close(ps: map<Id, int>, p: int): map<Id, int> {
    Shift(ps, Gt(p), -1)
  }

  /**
   `updateMany({ where: { <scope>: s, position: w }, data: { position: { increment: delta } } })`.
   Only the positions of scope `s` change, and they change as `Shift` says.
   */
  function UpdateMany<S(==,!new), D>(m: Store<S, D>, s: S, w: Window, delta: int): (m': Store<S, D>)
    ensures m'.Keys == m.Keys
    ensures forall id | id in m :: m'[id].scope == m[id].scope && m'[id].data == m[id].data
    ensures forall id | id in m ::
      m'[id].pos == if m[id].scope == s && Selects(w, m[id].pos) then m[id].pos + delta else m[id].pos
    ensures PositionsIn(m', s) == Shift(PositionsIn(m, s), w, delta)
    ensures forall s' | s' != s :: PositionsIn(m', s') == PositionsIn(m, s')
  {
    var m' := map id | id in m :: if m[id].scope == s && Selects(w, m[id].pos) then m[id].(pos := m[id].pos + delta) else m[id];
    assert PositionsIn(m', s).Keys == PositionsIn(m, s).Keys;
    assert forall s' | s' != s :: PositionsIn(m', s').Keys == PositionsIn(m, s').Keys;
    m'
  }

  /**
   The shared "move between the old and the new position" step (`moveStagePositions` in the
   sales service, the inner branches of `moveColumn` / `moveCard`): moving
   forward pulls (from, to] down by one, any other call pushes [to, from) up
   by one.
   */
  function ShiftBetween<S(==,!new), D>(m: Store<S, D>, s: S, from: int, to: int): Store<S, D> {
    if from < to then UpdateMany(m, s, GtLte(from, to), -1)
    else UpdateMany(m, s, GteLt(to, from), 1)
  }

  /** Writing one row: the `update` / `create` that follows the shifts. */
  function Put<S(==,!new), D>(m: Store<S, D>, id: Id, row: Row<S, D>): (m': Store<S, D>)
    ensures m'.Keys == m.Keys + {id} && m'[id] == row
    ensures PositionsIn(m', row.scope) == (PositionsIn(m, row.scope) - {id})[id := row.pos]
    ensures forall s | s != row.scope :: PositionsIn(m', s) == PositionsIn(m, s) - {id}
  {
    var m' := m[id := row];
    assert PositionsIn(m', row.scope).Keys == PositionsIn(m, row.scope).Keys + {id};
    assert forall s | s != row.scope :: PositionsIn(m', s).Keys == PositionsIn(m, s).Keys - {id};
    m'
  }

  /** Deleting one row. */
  function Delete<S(==,!new), D>(m: Store<S, D>, id: Id): (m': Store<S, D>)
    ensures m'.Keys == m.Keys - {id}
    ensures forall s :: PositionsIn(m', s) == PositionsIn(m, s) - {id}
  {
    var m' := m - {id};
    assert forall s :: PositionsIn(m', s).Keys == PositionsIn(m, s).Keys - {id};
    m'
  }

  // ---------------------------------------------------------------------
  // The four engine operations
  // ---------------------------------------------------------------------

  /** Insert at a position: open the slot, then create the row there. */
  function Insert<S(==,!new), D>(m: Store<S, D>, id: Id, row: Row<S, D>): (m': Store<S, D>)
    requires id !in m
    ensures m'.Keys == m.Keys + {id} && m'[id] == row
    ensures forall x | x in m :: m'[x].scope == m[x].scope && m'[x].data == m[x].data
    ensures PositionsIn(m', row.scope) == Open(PositionsIn(m, row.scope), row.pos)[id := row.pos]
    ensures forall s | s != row.scope :: PositionsIn(m', s) == PositionsIn(m, s)
  {
    Put(UpdateMany(m, row.scope, Gte(row.pos), 1), id, row)
  }

  /**
   Move a row inside its own scope. Moving to the current position writes
   nothing; otherwise the rows between the old and the new position shift by
   one and the row takes the new position.
   */
  function MoveWithin<S(==,!new), D>(m: Store<S, D>, id: Id, to: int): (m': Store<S, D>)
    requires id in m
    ensures m'.Keys == m.Keys
    ensures m'[id] == m[id].(pos := to)
    ensures forall x | x in m :: m'[x].scope == m[x].scope && m'[x].data == m[x].data
    ensures m[id].pos == to ==> m' == m
    ensures forall s | s != m[id].scope :: PositionsIn(m', s) == PositionsIn(m, s)
  {
    var r := m[id];
    if r.pos == to then m
    else Put(ShiftBetween(m, r.scope, r.pos, to), id, r.(pos := to))
  }

  /**
   Move a row to another scope: close the gap in the source, open the slot
   in the target, then write the row with its new scope and position.
   */
  function MoveAcross<S(==,!new), D>(m: Store<S, D>, id: Id, target: S, to: int): (m': Store<S, D>)
    requires id in m && m[id].scope != target
    ensures m'.Keys == m.Keys
    ensures m'[id] == Row(target, to, m[id].data)
    ensures forall x | x in m :: m'[x].data == m[x].data
    ensures forall x | x in m && x != id :: m'[x].scope == m[x].scope
    ensures PositionsIn(m', m[id].scope) == Close(PositionsIn(m, m[id].scope) - {id}, m[id].pos)
    ensures PositionsIn(m', target) == Open(PositionsIn(m, target), to)[id := to]
    ensures forall s | s != m[id].scope && s != target :: PositionsIn(m', s) == PositionsIn(m, s)
  {
    var r := m[id];
    var closed := UpdateMany(m, r.scope, Gt(r.pos), -1);
    var widened := UpdateMany(closed, target, Gte(to), 1);
    assert id !in PositionsIn(m, target);
    assert PositionsIn(widened, r.scope) == PositionsIn(closed, r.scope);
    assert PositionsIn(closed, target) == PositionsIn(m, target);
    ShiftWithout(PositionsIn(m, r.scope), Gt(r.pos), -1, id);
    Put(widened, id, Row(target, to, r.data))
  }

  /** A shift does not care whether a row is dropped before or after it. */
  lemma ShiftWithout(ps: map<Id, int>, w: Window, delta: int, id: Id)
    ensures Shift(ps, w, delta) - {id} == Shift(ps - {id}, w, delta)
  {
    var a := Shift(ps, w, delta) - {id};
    var b := Shift(ps - {id}, w, delta);
    assert a.Keys == b.Keys;
  }

  /** Remove a row: delete it, then close the gap it leaves. */
  function Remove<S(==,!new), D>(m: Store<S, D>, id: Id): (m': Store<S, D>)
    requires id in m
    ensures m'.Keys == m.Keys - {id}
    ensures forall x | x in m' :: m'[x].scope == m[x].scope && m'[x].data == m[x].data
    ensures PositionsIn(m', m[id].scope) == Close(PositionsIn(m, m[id].scope) - {id}, m[id].pos)
    ensures forall s | s != m[id].scope :: PositionsIn(m', s) == PositionsIn(m, s)
  {
    UpdateMany(Delete(m, id), m[id].scope, Gt(m[id].pos), -1)
  }

  // ---------------------------------------------------------------------
  // Density of the position view
  // ---------------------------------------------------------------------

  /** Inserting at p <= n into a dense scope of n rows leaves it dense with n + 1 rows. */
  lemma OpenKeepsDense(ps: map<Id, int>, n: nat, id: Id, p: int)
    requires Dense(ps, n) && id !in ps && 0 <= p <= n
    ensures Dense(Open(ps, p)[id := p], n + 1)
  {
    var q := Open(ps, p)[id := p];
    forall i | 0 <= i < n + 1
      ensures Occupied(q, i)
    {
      if i < p {
        assert Occupied(ps, i);
        var x :| x in ps && ps[x] == i;
        assert q[x] == i;
      } else if i == p {
        assert q[id] == i;
      } else {
        assert Occupied(ps, i - 1);
        var x :| x in ps && ps[x] == i - 1;
        assert q[x] == i;
      }
    }
    forall a, b | a in q && b in q && q[a] == q[b]
      ensures a == b
    {
      if a != id && b != id {
        assert ps[a] == ps[b];
      }
    }
  }

  /** Inserting past the end of a dense scope is not clamped: position n stays empty. */
  lemma OpenPastEndLeavesGap(ps: map<Id, int>, n: nat, id: Id, p: int)
    requires Dense(ps, n) && id !in ps && p > n
    ensures !Occupied(Open(ps, p)[id := p], n)
    ensures !Dense(Open(ps, p)[id := p], n + 1)
  {
    var q := Open(ps, p)[id := p];
    forall x | x in q
      ensures q[x] != n
    {
      if x != id {
        assert ps[x] < n;
      }
    }
  }

  /** Removing one row of a dense scope of n rows and closing its gap leaves n - 1 dense rows. */
  lemma CloseKeepsDense(ps: map<Id, int>, n: nat, id: Id)
    requires Dense(ps, n) && id in ps
    ensures n >= 1
    ensures Dense(Close(ps - {id}, ps[id]), n - 1)
  {
    var k := ps[id];
    var q := Close(ps - {id}, k);
    forall x | x in q
      ensures 0 <= q[x] < n - 1
    {
      assert ps[x] != k;
    }
    forall i | 0 <= i < n - 1
      ensures Occupied(q, i)
    {
      var j := if i < k then i else i + 1;
      assert Occupied(ps, j);
      var x :| x in ps && ps[x] == j;
      assert x != id && q[x] == i;
    }
    forall a, b | a in q && b in q && q[a] == q[b]
      ensures a == b
    {
      assert ps[a] != k && ps[b] != k;
      assert ps[a] == ps[b];
    }
  }

  /**
   When the moved row is alone at its position, moving it inside its scope
   is the same as removing it and inserting it at the new position.
   */
  lemma MoveIsRemoveThenInsert(ps: map<Id, int>, id: Id, to: int)
    requires id in ps
    requires forall x | x in ps && x != id :: ps[x] != ps[id]
    ensures (if ps[id] < to then Shift(ps, GtLte(ps[id], to), -1)
             else Shift(ps, GteLt(to, ps[id]), 1))[id := to]
            == Open(Close(ps - {id}, ps[id]), to)[id := to]
  {
  }

  /** The same statement on a store: the position view of `MoveWithin`. */
  lemma MoveWithinView<S(!new), D>(m: Store<S, D>, id: Id, to: int)
    requires id in m
    requires Unique(PositionsIn(m, m[id].scope))
    ensures PositionsIn(MoveWithin(m, id, to), m[id].scope)
            == Open(Close(PositionsIn(m, m[id].scope) - {id}, m[id].pos), to)[id := to]
  {
    var s, ps := m[id].scope, PositionsIn(m, m[id].scope);
    assert id in ps;
    MoveIsRemoveThenInsert(ps, id, to);
    if m[id].pos == to {
      assert ps == Open(Close(ps - {id}, m[id].pos), to)[id := to];
    }
  }

  /** Moving a row of a dense scope to a position in 0..n-1 keeps the scope dense. */
  lemma MoveWithinKeepsDense<S(!new), D>(m: Store<S, D>, id: Id, to: int, n: nat)
    requires id in m && Dense(PositionsIn(m, m[id].scope), n) && 0 <= to < n
    ensures Dense(PositionsIn(MoveWithin(m, id, to), m[id].scope), n)
  {
    var ps := PositionsIn(m, m[id].scope);
    assert id in ps;
    MoveWithinView(m, id, to);
    CloseKeepsDense(ps, n, id);
    OpenKeepsDense(Close(ps - {id}, ps[id]), n - 1, id, to);
  }

  /**
   Moving a row inside its scope keeps the relative order of every other
   row of that scope.
   */
  lemma MoveWithinKeepsOrder<S(!new), D>(m: Store<S, D>, id: Id, to: int, a: Id, b: Id)
    requires id in m && Unique(PositionsIn(m, m[id].scope))
    requires a in m && b in m && a != id && b != id
    requires m[a].scope == m[id].scope && m[b].scope == m[id].scope
    ensures m[a].pos < m[b].pos <==> MoveWithin(m, id, to)[a].pos < MoveWithin(m, id, to)[b].pos
  {
    var s, ps := m[id].scope, PositionsIn(m, m[id].scope);
    var q := PositionsIn(MoveWithin(m, id, to), s);
    MoveWithinView(m, id, to);
    assert a in ps && b in ps && id in ps;
    assert ps[a] != ps[id] && ps[b] != ps[id];
    ReinsertKeepsOrder(ps - {id}, ps[id], to, id, a, b);
    assert q[a] == MoveWithin(m, id, to)[a].pos && q[b] == MoveWithin(m, id, to)[b].pos;
  }

  /** Closing the gap at k and opening a slot never swaps two rows that were not at k. */
  lemma ReinsertKeepsOrder(ps: map<Id, int>, k: int, to: int, id: Id, a: Id, b: Id)
    requires a in ps && b in ps && a != id && b != id && ps[a] != k && ps[b] != k
    ensures ps[a] < ps[b] <==> Open(Close(ps, k), to)[id := to][a] < Open(Close(ps, k), to)[id := to][b]
  {
  }

  /**
   A move to another scope: a dense source of n rows becomes dense with
   n - 1 rows and a dense target of k rows becomes dense with k + 1 rows,
   as long as the new position is at most k.
   */
  lemma MoveAcrossKeepsDense<S(!new), D>(m: Store<S, D>, id: Id, target: S, to: int, n: nat, k: nat)
    requires id in m && m[id].scope != target
    requires Dense(PositionsIn(m, m[id].scope), n) && Dense(PositionsIn(m, target), k)
    requires 0 <= to <= k
    ensures Dense(PositionsIn(MoveAcross(m, id, target, to), m[id].scope), n - 1)
    ensures Dense(PositionsIn(MoveAcross(m, id, target, to), target), k + 1)
  {
    var ps := PositionsIn(m, m[id].scope);
    assert id in ps;
    CloseKeepsDense(ps, n, id);
    OpenKeepsDense(PositionsIn(m, target), k, id, to);
  }

  /** Inserting at p <= n keeps a dense scope dense. */
  lemma InsertKeepsDense<S(!new), D>(m: Store<S, D>, id: Id, row: Row<S, D>, n: nat)
    requires id !in m && Dense(PositionsIn(m, row.scope), n) && 0 <= row.pos <= n
    ensures Dense(PositionsIn(Insert(m, id, row), row.scope), n + 1)
  {
    OpenKeepsDense(PositionsIn(m, row.scope), n, id, row.pos);
  }

  /** Removing a row keeps its dense scope dense, one row shorter. */
  lemma RemoveKeepsDense<S(!new), D>(m: Store<S, D>, id: Id, n: nat)
    requires id in m && Dense(PositionsIn(m, m[id].scope), n)
    ensures Dense(PositionsIn(Remove(m, id), m[id].scope), n - 1)
  {
    assert id in PositionsIn(m, m[id].scope);
    CloseKeepsDense(PositionsIn(m, m[id].scope), n, id);
  }

  /**
   Moving a row to another scope and back to its old position restores the
   table, when the row was alone at its position.
   */
  lemma MoveAcrossRoundTrip<S(!new), D>(m: Store<S, D>, id: Id, target: S, to: int)
    requires id in m && m[id].scope != target
    requires forall x | x in m && x != id && m[x].scope == m[id].scope :: m[x].pos != m[id].pos
    ensures MoveAcross(MoveAcross(m, id, target, to), id, m[id].scope, m[id].pos) == m
  {
    var m1 := MoveAcross(m, id, target, to);
    var m2 := MoveAcross(m1, id, m[id].scope, m[id].pos);
    forall x | x in m
      ensures m2[x] == m[x]
    {
      if x != id {
        assert m2[x].scope == m[x].scope && m2[x].data == m[x].data;
        if m[x].scope == m[id].scope {
          assert x in PositionsIn(m, m[id].scope) && x in PositionsIn(m1, m[id].scope);
          assert x in PositionsIn(m2, m[id].scope);
        } else if m[x].scope == target {
          assert x in PositionsIn(m, target) && x in PositionsIn(m1, target);
          assert x in PositionsIn(m2, target);
        } else {
          assert x in PositionsIn(m, m[x].scope) && x in PositionsIn(m1, m[x].scope);
          assert x in PositionsIn(m2, m[x].scope);
        }
      }
    }
  }
}

=== FILE: roles.dfy ===
/**
 The roles service: role rows with unique names and a permission list,
 system roles that can be neither changed nor deleted, role assignment,
 and the permission queries that read a user's role.
 */
module Roles {
  import opened Wrappers
  import opened Accounts
  import P = Permissions

  /** `CreateRoleSchema`. */
  datatype RoleInput = RoleInput(name: string, description: Option<string>, permissions: seq<Permission>)

  /** `CreateRoleSchema` bounds: a name of 2..100 characters, at most 500 of description, at least one permission. */
  predicate ValidRoleInput(c: RoleInput) {
    2 <= |c.name| <= 100 && (c.description.Some? ==> |c.description.value| <= 500) && |c.permissions| >= 1
  }

  /** `UpdateRoleSchema`: every field optional. */
  datatype RolePatch = RolePatch(name: Option<string>, description: Option<string>, permissions: Option<seq<Permission>>)

  /** `create`: Conflict for a taken name; otherwise a non-system role with the given permissions. */
  function Create(st: State, id: Id, input: RoleInput): (r: Result<State>)
    requires id !in st.roles
    ensures NameTaken(st.roles, input.name, None) <==> r.Err?
    ensures r.Err? ==> r.error == Conflict
    ensures r.Ok? ==> && r.value.users == st.users
                      && r.value.roles == st.roles[id := Role(input.name, input.description, false, input.permissions)]
    ensures r.Ok? && NamesUnique(st.roles) ==> NamesUnique(r.value.roles)
  {
    if NameTaken(st.roles, input.name, None) then Err(Conflict)
    else Ok(st.(roles := st.roles[id := Role(input.name, input.description, false, input.permissions)]))
  }

  /**
   `buildUpdateData`: name and description as given (absent keeps the
   stored value); a permissions list, when given, replaces the stored
   list wholesale (`deleteMany` then `create`).
   */
  function BuildUpdate(role: Role, patch: RolePatch): (v: Role)
    ensures v.isSystem == role.isSystem
    ensures patch.permissions.Some? ==> v.permissions == patch.permissions.value
    ensures patch.permissions.None? ==> v.permissions == role.permissions
    ensures v.name == patch.name.GetOr(role.name) && v.description == patch.description.Or(role.description)
  {
    Role(
      patch.name.GetOr(role.name),
      patch.description.Or(role.description),
      role.isSystem,
      if patch.permissions.Some? then patch.permissions.value else role.permissions)
  }

  /** The service's own name check: a non-empty, changed name that another role holds. */
  predicate RenameClashes(roles: map<Id, Role>, id: Id, patch: RolePatch)
    requires id in roles
  {
    Present(patch.name) && patch.name.value != roles[id].name && NameTaken(roles, patch.name.value, Some(id))
  }

  /**
   `update`: NotFound, then Forbidden for a system role, then Conflict
   when a non-empty, changed name belongs to another role. An empty name
   skips the service's check; the unique index refuses it if another role
   holds it.
   */
  function Update(st: State, id: Id, patch: RolePatch): (r: Result<State>)
    ensures id !in st.roles <==> r == Err(NotFound)
    ensures id in st.roles && st.roles[id].isSystem <==> r == Err(Forbidden)
    ensures id in st.roles && !st.roles[id].isSystem && RenameClashes(st.roles, id, patch) <==> r == Err(Conflict)
    ensures r.Ok? ==> && r.value.users == st.users
                      && r.value.roles == st.roles[id := BuildUpdate(st.roles[id], patch)]
    ensures r.Ok? && NamesUnique(st.roles) ==> NamesUnique(r.value.roles)
  {
    if id !in st.roles then Err(NotFound)
    else
      var role := st.roles[id];
      if role.isSystem then Err(Forbidden)
      else if RenameClashes(st.roles, id, patch) then Err(Conflict)
      else
        var v := BuildUpdate(role, patch);
        if NameTaken(st.roles, v.name, Some(id)) then Err(StoreError)
        else Ok(st.(roles := st.roles[id := v]))
  }

  /** A role never conflicts with itself: re-sending its own name is accepted. */
  lemma UpdateOwnNameAccepted(st: State, id: Id, patch: RolePatch)
    requires NamesUnique(st.roles) && id in st.roles && !st.roles[id].isSystem
    requires patch.name == Some(st.roles[id].name)
    ensures Update(st, id, patch).Ok?
  {
  }

  /**
   `remove`: NotFound, then Forbidden for a system role, then BadRequest
   while users are assigned; only then is the row deleted.
   */
  function Remove(st: State, id: Id): (r: Result<State>)
    ensures id !in st.roles <==> r == Err(NotFound)
    ensures id in st.roles && st.roles[id].isSystem <==> r == Err(Forbidden)
    ensures id in st.roles && !st.roles[id].isSystem && HasUsers(st, id) <==> r == Err(BadRequest)
    ensures r.Ok? ==> r.value.users == st.users && r.value.roles == st.roles - {id}
    ensures r.Ok? && RoleRefsValid(st) ==> RoleRefsValid(r.value)
  {
    if id !in st.roles then Err(NotFound)
    else if st.roles[id].isSystem then Err(Forbidden)
    else if HasUsers(st, id) then Err(BadRequest)
    else Ok(st.(roles := st.roles - {id}))
  }

  /** A system role survives every update and every removal attempt. */
  lemma SystemRolesStay(st: State, id: Id, patch: RolePatch)
    requires id in st.roles && st.roles[id].isSystem
    ensures Update(st, id, patch) == Err(Forbidden) && Remove(st, id) == Err(Forbidden)
  {
  }

  /** `assignRoleToUser`: NotFound for an unknown user, then for an unknown role; otherwise only that user's `roleId` changes. */
  function AssignRoleToUser(st: State, user: Id, role: Id): (r: Result<State>)
    ensures user !in st.users || role !in st.roles <==> r.Err?
    ensures r.Err? ==> r.error == NotFound
    ensures r.Ok? ==> && r.value.roles == st.roles
                      && r.value.users == st.users[user := st.users[user].(role := Some(role))]
    ensures r.Ok? && RoleRefsValid(st) ==> RoleRefsValid(r.value)
  {
    if user !in st.users then Err(NotFound)
    else if role !in st.roles then Err(NotFound)
    else Ok(st.(users := st.users[user := st.users[user].(role := Some(role))]))
  }

  // ---------------------------------------------------------------------
  // Permission queries
  // ---------------------------------------------------------------------

  /** `getUserPermissions`: the permissions of the user's role, or [] for an unknown user or one without a role. */
  function GetUserPermissions(st: State, user: Id): (ps: seq<Permission>)
    ensures user !in st.users || st.users[user].role.None? ==> ps == []
    ensures user in st.users && st.users[user].role.Some? && st.users[user].role.value in st.roles ==>
              ps == st.roles[st.users[user].role.value].permissions
  {
    if user !in st.users then []
    else match st.users[user].role
      case None => []
      case Some(role) => if role in st.roles then st.roles[role].permissions else []
  }

  /** `checkPermission`: false for an unknown user or a user without a role; otherwise the helper's decision. */
  function CheckPermission(st: State, user: Id, action: P.Action, resource: P.Resource): (b: bool)
    ensures user !in st.users || st.users[user].role.None? ==> !b
  {
    if user !in st.users then false
    else match st.users[user].role
      case None => false
      case Some(role) => role in st.roles && P.CheckPermission(st.roles[role].permissions, action, resource)
  }

  /** The two queries agree: a user is allowed exactly what the helper grants on the list `getUserPermissions` returns. */
  lemma CheckPermissionIsHelperOnList(st: State, user: Id, action: P.Action, resource: P.Resource)
    ensures CheckPermission(st, user, action, resource) == P.CheckPermission(GetUserPermissions(st, user), action, resource)
  {
  }

  /** The map from user to role permissions that `PermissionsGuard` reads from the store. */
  function RoleOf(st: State): (m: map<Id, Option<seq<Permission>>>)
    ensures m.Keys == st.users.Keys
    ensures forall u | u in m :: m[u].Some? <==> st.users[u].role.Some? && st.users[u].role.value in st.roles
  {
    map u | u in st.users ::
      if st.users[u].role.Some? && st.users[u].role.value in st.roles then Some(st.roles[st.users[u].role.value].permissions)
      else None
  }

  /**
   The route guard with a single requirement and the service query agree
   for every user with a role: the guard lets the request through exactly
   when `checkPermission` answers true.
   */
  lemma GuardAgreesWithService(st: State, user: Id, req: Permission)
    requires user in st.users && st.users[user].role.Some? && st.users[user].role.value in st.roles
    ensures P.PermissionsGuard(P.GuardRequest(Some([req]), Some(user)), RoleOf(st)) == Ok(true) <==>
              CheckPermission(st, user, req.action, req.resource)
  {
    P.GuardSingleIsCheck(req, user, RoleOf(st));
  }
}

=== FILE: sales.dfy ===
/**
 The sales service: pipelines with ordered stages, opportunities that sit
 in a stage, and activities owned by the user they are assigned to.
 Stages are rows of the position engine scoped by pipeline.
 */
module Sales {
  import opened Wrappers
  import opened Positions
  import opened Schemas

  datatype Pipeline = Pipeline(name: string, description: Option<string>, isActive: bool)

  datatype StageData = StageData(name: string, description: Option<string>, color: Option<string>)

  /** An opportunity; its `value` is a JavaScript number, kept as a real without floating-point rounding. */
  datatype Opportunity = Opportunity(title: string, stage: Id, value: Option<real>, createdBy: Id, assignedTo: Option<Id>)

  datatype ActivityStatus = Scheduled | Completed | Cancelled

  datatype ActivityType = Call | Email | Meeting | Task | Note

  /** A sales activity; dates are the ISO date-time strings the schemas accept. */
  datatype SalesActivity = SalesActivity(
    opportunity: Id,
    kind: ActivityType,
    title: string,
    description: Option<string>,
    scheduledDate: string,
    scheduledTime: string,
    assignedTo: Id,
    status: ActivityStatus,
    completedDate: Option<string>,
    completedTime: Option<string>)

  datatype State = State(
    pipelines: map<Id, Pipeline>,
    stages: Store<Id, StageData>,
    opportunities: map<Id, Opportunity>,
    activities: map<Id, SalesActivity>)

  // ---------------------------------------------------------------------
  // Request bodies
  // ---------------------------------------------------------------------

  datatype StageInput = StageInput(name: string, description: Option<string>, position: int, color: Option<string>)

  /** `CreateStageSchema`: a non-empty name, an integer position >= 0, and a colour in the stage format. */
  predicate ValidStageInput(c: StageInput) {
    |c.name| >= 1 && c.position >= 0 && (c.color.Some? ==> SalesColor(c.color.value))
  }

  datatype StagePatch = StagePatch(name: Option<string>, description: Option<string>, position: Option<int>, color: Option<string>)

  datatype OpportunityInput = OpportunityInput(title: string, stage: Id, value: Option<real>, assignedTo: Option<Id>)

  /** `CreateOpportunitySchema`: a non-empty title and a value >= 0 when one is given. */
  predicate ValidOpportunityInput(c: OpportunityInput) {
    |c.title| >= 1 && (c.value.Some? ==> c.value.value >= 0.0)
  }

  datatype ActivityInput = ActivityInput(
    kind: ActivityType,
    title: string,
    description: Option<string>,
    scheduledDate: string,
    scheduledTime: string,
    assignedTo: Id)

  /** `UpdateActivitySchema`: every field optional; `updateActivity` writes the body as it stands. */
  datatype ActivityPatch = ActivityPatch(
    kind: Option<ActivityType>,
    title: Option<string>,
    description: Option<string>,
    scheduledDate: Option<string>,
    scheduledTime: Option<string>,
    status: Option<ActivityStatus>,
    completedDate: Option<string>,
    completedTime: Option<string>)

  /** `UpdateActivitySchema`: a given title is non-empty and both given times are `HH:MM`. */
  predicate ValidActivityPatch(p: ActivityPatch) {
    && (p.title.Some? ==> |p.title.value| >= 1)
    && (p.scheduledTime.Some? ==> MatchesTime(p.scheduledTime.value))
    && (p.completedTime.Some? ==> MatchesTime(p.completedTime.value))
  }

  // ---------------------------------------------------------------------
  // Pipelines
  // ---------------------------------------------------------------------

  /** `findAllPipelines`: the ids of the active pipelines. */
  function FindAllPipelines(st: State): (r: set<Id>)
    ensures forall id :: id in r <==> id in st.pipelines && st.pipelines[id].isActive
  {
    set id | id in st.pipelines && st.pipelines[id].isActive
  }

  /** `findOnePipeline`: any pipeline, active or not; NotFound for an unknown id. */
  function FindOnePipeline(st: State, id: Id): (r: Result<Pipeline>)
    ensures id !in st.pipelines <==> r == Err(NotFound)
    ensures r.Ok? ==> r.value == st.pipelines[id]
  {
    if id in st.pipelines then Ok(st.pipelines[id]) else Err(NotFound)
  }

  /** `removePipeline`: a soft delete that clears `isActive` and keeps every stage. */
  function RemovePipeline(st: State, id: Id): (r: Result<State>)
    ensures id !in st.pipelines <==> r == Err(NotFound)
    ensures r.Ok? ==> && r.value.pipelines.Keys == st.pipelines.Keys
                      && r.value.pipelines[id] == st.pipelines[id].(isActive := false)
                      && (forall p | p in st.pipelines && p != id :: r.value.pipelines[p] == st.pipelines[p])
                      && r.value.stages == st.stages && r.value.opportunities == st.opportunities
                      && r.value.activities == st.activities
  {
    if id !in st.pipelines then Err(NotFound)
    else Ok(st.(pipelines := st.pipelines[id := st.pipelines[id].(isActive := false)]))
  }

  /** A removed pipeline drops out of the list but can still be fetched. */
  lemma RemovedPipelineHiddenButFound(st: State, id: Id)
    requires id in st.pipelines
    ensures RemovePipeline(st, id).Ok?
    ensures id !in FindAllPipelines(RemovePipeline(st, id).value)
    ensures FindOnePipeline(RemovePipeline(st, id).value, id).Ok?
    ensures FindAllPipelines(RemovePipeline(st, id).value) == FindAllPipelines(st) - {id}
  {
  }

  // ---------------------------------------------------------------------
  // Stages
  // ---------------------------------------------------------------------

  /** Some stage of the pipeline sits exactly at position p (`findFirst`). */
  predicate SlotTaken(st: State, pipeline: Id, p: int) {
    exists x | x in st.stages :: st.stages[x].scope == pipeline && st.stages[x].pos == p
  }

  /**
   `createStage`: NotFound for an unknown pipeline (active or not);
   otherwise, only when a stage already sits at the requested position, the
   stages at or after it move up by one; then the stage is created there.
   */
  function CreateStage(st: State, pipeline: Id, id: Id, c: StageInput): (r: Result<State>)
    requires id !in st.stages
    ensures pipeline !in st.pipelines <==> r == Err(NotFound)
    ensures r.Ok? ==> && r.value.pipelines == st.pipelines && r.value.opportunities == st.opportunities
                      && r.value.activities == st.activities
                      && r.value.stages.Keys == st.stages.Keys + {id}
                      && r.value.stages[id] == Row(pipeline, c.position, StageData(c.name, c.description, c.color))
    ensures r.Ok? && !SlotTaken(st, pipeline, c.position) ==> forall x | x in st.stages :: r.value.stages[x] == st.stages[x]
    ensures r.Ok? && SlotTaken(st, pipeline, c.position) ==>
      r.value.stages == Insert(st.stages, id, Row(pipeline, c.position, StageData(c.name, c.description, c.color)))
  {
    if pipeline !in st.pipelines then Err(NotFound)
    else
      var shifted := if SlotTaken(st, pipeline, c.position) then UpdateMany(st.stages, pipeline, Gte(c.position), 1) else st.stages;
      Ok(st.(stages := shifted[id := Row(pipeline, c.position, StageData(c.name, c.description, c.color))]))
  }

  /**
   On a pipeline whose n stages sit at 0..n-1 and a position p <= n, the
   conditional shift of `createStage` gives the same table as the
   unconditional Kanban insert: the stages are then at 0..n.
   */
  lemma CreateStageMatchesInsert(st: State, pipeline: Id, id: Id, c: StageInput, n: nat)
    requires id !in st.stages && pipeline in st.pipelines
    requires Dense(PositionsIn(st.stages, pipeline), n) && 0 <= c.position <= n
    ensures CreateStage(st, pipeline, id, c).Ok?
    ensures CreateStage(st, pipeline, id, c).value.stages
            == Insert(st.stages, id, Row(pipeline, c.position, StageData(c.name, c.description, c.color)))
    ensures Dense(PositionsIn(CreateStage(st, pipeline, id, c).value.stages, pipeline), n + 1)
  {
    var row := Row(pipeline, c.position, StageData(c.name, c.description, c.color));
    var ps := PositionsIn(st.stages, pipeline);
    SlotTakenIsOccupied(st, pipeline, c.position);
    if !SlotTaken(st, pipeline, c.position) {
      assert c.position == n;
      forall x | x in st.stages && st.stages[x].scope == pipeline
        ensures st.stages[x].pos < c.position
      {
        assert x in ps;
      }
      assert UpdateMany(st.stages, pipeline, Gte(c.position), 1) == st.stages;
    }
    InsertKeepsDense(st.stages, id, row, n);
  }

  lemma SlotTakenIsOccupied(st: State, pipeline: Id, p: int)
    ensures SlotTaken(st, pipeline, p) <==> Occupied(PositionsIn(st.stages, pipeline), p)
  {
    var ps := PositionsIn(st.stages, pipeline);
    if SlotTaken(st, pipeline, p) {
      var x :| x in st.stages && st.stages[x].scope == pipeline && st.stages[x].pos == p;
      assert x in ps;
    }
  }

  /** `moveStagePositions`: the shared between-positions shift. */
  function MoveStagePositions(stages: Store<Id, StageData>, pipeline: Id, from: int, to: int): (r: Store<Id, StageData>)
    ensures r.Keys == stages.Keys
    ensures from == to ==> r == stages
    ensures forall x | x in stages :: r[x].scope == stages[x].scope && r[x].data == stages[x].data
  {
    var r := ShiftBetween(stages, pipeline, from, to);
    assert from == to ==> forall x | x in stages :: r[x] == stages[x];
    r
  }

  /**
   `moveStage`: NotFound for an unknown stage; otherwise the between-positions
   shift runs unconditionally and the stage takes the new position. Moving
   to the current position changes nothing, because the range [p, p) is empty.
   */
  function MoveStage(st: State, id: Id, to: int): (r: Result<State>)
    ensures id !in st.stages <==> r == Err(NotFound)
    ensures r.Ok? && st.stages[id].pos == to ==> r.value == st
    ensures r.Ok? ==> && r.value.pipelines == st.pipelines && r.value.opportunities == st.opportunities
                      && r.value.activities == st.activities
                      && r.value.stages.Keys == st.stages.Keys
                      && r.value.stages[id] == st.stages[id].(pos := to)
  {
    if id !in st.stages then Err(NotFound)
    else
      var s := st.stages[id];
      var r := Ok(st.(stages := MoveStagePositions(st.stages, s.scope, s.pos, to)[id := s.(pos := to)]));
      assert s.pos == to ==> r.value.stages == st.stages;
      r
  }

  /** Every stage move, including one to the current position, is the Kanban in-scope move. */
  lemma MoveStageIsMoveWithin(st: State, id: Id, to: int)
    requires id in st.stages
    ensures MoveStage(st, id, to).Ok?
    ensures MoveStage(st, id, to).value.stages == MoveWithin(st.stages, id, to)
  {
  }

  /** A stage move inside a dense pipeline to a position in 0..n-1 keeps it dense and keeps the order of the others. */
  lemma MoveStageKeepsDenseAndOrder(st: State, id: Id, to: int, n: nat, a: Id, b: Id)
    requires id in st.stages && Dense(PositionsIn(st.stages, st.stages[id].scope), n) && 0 <= to < n
    requires a in st.stages && b in st.stages && a != id && b != id
    requires st.stages[a].scope == st.stages[id].scope == st.stages[b].scope
    ensures MoveStage(st, id, to).Ok?
    ensures Dense(PositionsIn(MoveStage(st, id, to).value.stages, st.stages[id].scope), n)
    ensures st.stages[a].pos < st.stages[b].pos
            <==> MoveStage(st, id, to).value.stages[a].pos < MoveStage(st, id, to).value.stages[b].pos
  {
    MoveStageIsMoveWithin(st, id, to);
    MoveWithinKeepsDense(st.stages, id, to, n);
    MoveWithinKeepsOrder(st.stages, id, to, a, b);
  }

  /**
   `updateStage`: NotFound for an unknown stage. The siblings are shifted
   only when the patch carries a position different from the current one,
   and then exactly as `moveStage` shifts them; the patch is then written
   to the stage.
   */
  function UpdateStage(st: State, id: Id, p: StagePatch): (r: Result<State>)
    ensures id !in st.stages <==> r == Err(NotFound)
    ensures r.Ok? ==> && r.value.pipelines == st.pipelines && r.value.opportunities == st.opportunities
                      && r.value.activities == st.activities
                      && r.value.stages.Keys == st.stages.Keys
                      && r.value.stages[id].pos == p.position.GetOr(st.stages[id].pos)
                      && r.value.stages[id].scope == st.stages[id].scope
                      && r.value.stages[id].data.name == p.name.GetOr(st.stages[id].data.name)
                      && r.value.stages[id].data.description == p.description.Or(st.stages[id].data.description)
                      && r.value.stages[id].data.color == p.color.Or(st.stages[id].data.color)
    ensures r.Ok? && (p.position.None? || p.position == Some(st.stages[id].pos)) ==>
      forall x | x in st.stages && x != id :: r.value.stages[x] == st.stages[x]
    ensures r.Ok? && p.position.Some? ==>
      forall x | x in st.stages :: r.value.stages[x].pos == MoveStage(st, id, p.position.value).value.stages[x].pos
  {
    if id !in st.stages then Err(NotFound)
    else
      var s := st.stages[id];
      var shifted := if p.position.Some? && p.position.value != s.pos
                     then MoveStagePositions(st.stages, s.scope, s.pos, p.position.value)
                     else st.stages;
      var data := StageData(p.name.GetOr(s.data.name), p.description.Or(s.data.description), p.color.Or(s.data.color));
      Ok(st.(stages := shifted[id := Row(s.scope, p.position.GetOr(s.pos), data)]))
  }

  /** Some opportunity sits in the stage. */
  predicate HasOpportunities(st: State, stage: Id) {
    exists o | o in st.opportunities :: st.opportunities[o].stage == stage
  }

  /**
   `removeStage`: NotFound for an unknown stage; BadRequest, with nothing
   changed, while an opportunity sits in it; otherwise the later stages of
   the pipeline move down by one and the stage is deleted.
   */
  function RemoveStage(st: State, id: Id): (r: Result<State>)
    ensures id !in st.stages <==> r == Err(NotFound)
    ensures id in st.stages && HasOpportunities(st, id) <==> r == Err(BadRequest)
    ensures r.Ok? ==> && r.value.pipelines == st.pipelines && r.value.opportunities == st.opportunities
                      && r.value.activities == st.activities
                      && r.value.stages.Keys == st.stages.Keys - {id}
  {
    if id !in st.stages then Err(NotFound)
    else if HasOpportunities(st, id) then Err(BadRequest)
    else
      var s := st.stages[id];
      Ok(st.(stages := Delete(UpdateMany(st.stages, s.scope, Gt(s.pos), -1), id)))
  }

  /**
   Shifting before deleting, as `removeStage` does, gives the same table as
   deleting before shifting, as the Kanban removals do.
   */
  lemma RemoveStageIsRemove(st: State, id: Id, n: nat)
    requires id in st.stages && !HasOpportunities(st, id)
    ensures RemoveStage(st, id).Ok?
    ensures RemoveStage(st, id).value.stages == Remove(st.stages, id)
    ensures Dense(PositionsIn(st.stages, st.stages[id].scope), n) ==>
      Dense(PositionsIn(RemoveStage(st, id).value.stages, st.stages[id].scope), n - 1)
  {
    var a := RemoveStage(st, id).value.stages;
    var b := Remove(st.stages, id);
    assert forall x | x in a :: a[x] == b[x];
    if Dense(PositionsIn(st.stages, st.stages[id].scope), n) {
      RemoveKeepsDense(st.stages, id, n);
    }
  }

  // ---------------------------------------------------------------------
  // Opportunities
  // ---------------------------------------------------------------------

  /** `createOpportunity`: NotFound for an unknown stage; the caller becomes the creator. */
  function CreateOpportunity(st: State, id: Id, c: OpportunityInput, user: Id): (r: Result<State>)
    requires id !in st.opportunities
    ensures c.stage !in st.stages <==> r == Err(NotFound)
    ensures r.Ok? ==> && r.value.opportunities.Keys == st.opportunities.Keys + {id}
                      && r.value.opportunities[id].createdBy == user
                      && r.value.opportunities[id].stage == c.stage
                      && r.value.opportunities[id].title == c.title
                      && r.value.opportunities[id].value == c.value
                      && r.value.opportunities[id].assignedTo == c.assignedTo
                      && (forall o | o in st.opportunities :: r.value.opportunities[o] == st.opportunities[o])
                      && r.value.stages == st.stages && r.value.pipelines == st.pipelines
  {
    if c.stage !in st.stages then Err(NotFound)
    else Ok(st.(opportunities := st.opportunities[id := Opportunity(c.title, c.stage, c.value, user, c.assignedTo)]))
  }

  /**
   `moveOpportunity`: NotFound for an unknown opportunity, then for an
   unknown stage; otherwise only the opportunity's stage changes. No
   position shifts, and a requested position is ignored.
   */
  function MoveOpportunity(st: State, id: Id, stage: Id, position: Option<int>): (r: Result<State>)
    ensures id !in st.opportunities ==> r == Err(NotFound)
    ensures id in st.opportunities && stage !in st.stages ==> r == Err(NotFound)
    ensures r.Ok? <==> id in st.opportunities && stage in st.stages
    ensures r.Ok? ==> && r.value.stages == st.stages && r.value.pipelines == st.pipelines
                      && r.value.activities == st.activities
                      && r.value.opportunities.Keys == st.opportunities.Keys
                      && r.value.opportunities[id] == st.opportunities[id].(stage := stage)
                      && (forall o | o in st.opportunities && o != id :: r.value.opportunities[o] == st.opportunities[o])
  {
    if id !in st.opportunities then Err(NotFound)
    else if stage !in st.stages then Err(NotFound)
    else Ok(st.(opportunities := st.opportunities[id := st.opportunities[id].(stage := stage)]))
  }

  /** The requested position makes no difference to a move. */
  lemma MoveOpportunityIgnoresPosition(st: State, id: Id, stage: Id, p: Option<int>, q: Option<int>)
    ensures MoveOpportunity(st, id, stage, p) == MoveOpportunity(st, id, stage, q)
  {
  }

  // ---------------------------------------------------------------------
  // Activities
  // ---------------------------------------------------------------------

  /** The `findFirst({ id, assignedToId: user })` lookup every activity change starts with. */
  predicate Owns(st: State, id: Id, user: Id) {
    id in st.activities && st.activities[id].assignedTo == user
  }

  /**
   `createActivity`: NotFound for an unknown opportunity; the activity is
   assigned to the caller whatever the request names.
   */
  function CreateActivity(st: State, opportunity: Id, id: Id, c: ActivityInput, user: Id): (r: Result<State>)
    requires id !in st.activities
    ensures opportunity !in st.opportunities <==> r == Err(NotFound)
    ensures r.Ok? ==> && r.value.activities.Keys == st.activities.Keys + {id}
                      && Owns(r.value, id, user)
                      && r.value.activities[id].opportunity == opportunity
                      && r.value.activities[id].kind == c.kind
                      && r.value.activities[id].title == c.title
                      && r.value.activities[id].description == c.description
                      && r.value.activities[id].scheduledDate == c.scheduledDate
                      && r.value.activities[id].scheduledTime == c.scheduledTime
                      && r.value.activities[id].status == Scheduled
                      && r.value.activities[id].completedDate.None? && r.value.activities[id].completedTime.None?
                      && r.value.opportunities == st.opportunities && r.value.stages == st.stages
                      && (forall a | a in st.activities :: r.value.activities[a] == st.activities[a])
  {
    if opportunity !in st.opportunities then Err(NotFound)
    else Ok(st.(activities := st.activities[id := SalesActivity(opportunity, c.kind, c.title, c.description, c.scheduledDate, c.scheduledTime, user, Scheduled, None, None)]))
  }

  /**
   `updateActivity`: NotFound unless the caller owns the activity; otherwise
   every field the patch gives replaces the stored one and the others stay.
   The status and the completion fields are written independently: nothing
   ties COMPLETED to a completion time.
   */
  function UpdateActivity(st: State, id: Id, p: ActivityPatch, user: Id): (r: Result<State>)
    ensures !Owns(st, id, user) <==> r == Err(NotFound)
    ensures r.Ok? ==> && r.value.activities.Keys == st.activities.Keys
                      && r.value.opportunities == st.opportunities
                      && Owns(r.value, id, user)
                      && (forall a | a in st.activities && a != id :: r.value.activities[a] == st.activities[a])
    ensures r.Ok? ==> && r.value.activities[id].opportunity == st.activities[id].opportunity
                      && r.value.activities[id].kind == p.kind.GetOr(st.activities[id].kind)
                      && r.value.activities[id].title == p.title.GetOr(st.activities[id].title)
                      && r.value.activities[id].description == p.description.Or(st.activities[id].description)
                      && r.value.activities[id].scheduledDate == p.scheduledDate.GetOr(st.activities[id].scheduledDate)
                      && r.value.activities[id].scheduledTime == p.scheduledTime.GetOr(st.activities[id].scheduledTime)
                      && r.value.activities[id].status == p.status.GetOr(st.activities[id].status)
                      && r.value.activities[id].completedDate == p.completedDate.Or(st.activities[id].completedDate)
                      && r.value.activities[id].completedTime == p.completedTime.Or(st.activities[id].completedTime)
  {
    if !Owns(st, id, user) then Err(NotFound)
    else
      var a := st.activities[id];
      Ok(st.(activities := st.activities[id := a.(kind := p.kind.GetOr(a.kind),
                                                  title := p.title.GetOr(a.title),
                                                  description := p.description.Or(a.description),
                                                  scheduledDate := p.scheduledDate.GetOr(a.scheduledDate),
                                                  scheduledTime := p.scheduledTime.GetOr(a.scheduledTime),
                                                  status := p.status.GetOr(a.status),
                                                  completedDate := p.completedDate.Or(a.completedDate),
                                                  completedTime := p.completedTime.Or(a.completedTime))]))
  }

  /** The stored times of an activity are in the schema's `HH:MM` format. */
  predicate TimesWellFormed(a: SalesActivity) {
    MatchesTime(a.scheduledTime) && (a.completedTime.Some? ==> MatchesTime(a.completedTime.value))
  }

  /** A patch the schema admits keeps the stored times in `HH:MM` format. */
  lemma UpdateActivityKeepsTimes(st: State, id: Id, p: ActivityPatch, user: Id)
    requires Owns(st, id, user) && TimesWellFormed(st.activities[id]) && ValidActivityPatch(p)
    ensures UpdateActivity(st, id, p, user).Ok?
    ensures TimesWellFormed(UpdateActivity(st, id, p, user).value.activities[id])
  {
  }

  /**
   A patch may set COMPLETED alone: an activity without a completion time
   keeps none, unlike one completed through `completeActivity`.
   */
  lemma UpdateCompletesWithoutTime(st: State, id: Id, user: Id)
    requires Owns(st, id, user) && st.activities[id].completedTime.None?
    ensures var p := ActivityPatch(None, None, None, None, None, Some(Completed), None, None);
            && ValidActivityPatch(p)
            && UpdateActivity(st, id, p, user).Ok?
            && UpdateActivity(st, id, p, user).value.activities[id].status == Completed
            && UpdateActivity(st, id, p, user).value.activities[id].completedTime.None?
  {
  }

  /**
   `completeActivity`: NotFound unless the caller owns the activity;
   otherwise it becomes COMPLETED with the current date `now` and the
   current time as `HH:MM`, which the schema's own time format accepts.
   */
  function CompleteActivity(st: State, id: Id, user: Id, now: string, h: Hour, m: Minute): (r: Result<State>)
    ensures !Owns(st, id, user) <==> r == Err(NotFound)
    ensures r.Ok? ==> && r.value.activities.Keys == st.activities.Keys
                      && r.value.activities[id].status == Completed
                      && r.value.activities[id].completedDate == Some(now)
                      && r.value.activities[id].completedTime.Some?
                      && MatchesTime(r.value.activities[id].completedTime.value)
                      && r.value.activities[id] == st.activities[id].(status := Completed, completedDate := Some(now),
                                                                        completedTime := r.value.activities[id].completedTime)
                      && Owns(r.value, id, user)
                      && (forall a | a in st.activities && a != id :: r.value.activities[a] == st.activities[a])
  {
    if !Owns(st, id, user) then Err(NotFound)
    else Ok(st.(activities := st.activities[id := st.activities[id].(status := Completed, completedDate := Some(now),
                                                                     completedTime := Some(CompletedTime(h, m)))]))
  }

  /** `removeActivity`: NotFound unless the caller owns the activity; otherwise it is deleted. */
  function RemoveActivity(st: State, id: Id, user: Id): (r: Result<State>)
    ensures !Owns(st, id, user) <==> r == Err(NotFound)
    ensures r.Ok? ==> r.value.activities == st.activities - {id} && r.value.opportunities == st.opportunities
  {
    if !Owns(st, id, user) then Err(NotFound) else Ok(st.(activities := st.activities - {id}))
  }

  /** Nobody but the assignee can change or remove an activity. */
  lemma OnlyAssigneeChangesActivity(st: State, id: Id, user: Id, p: ActivityPatch, now: string, h: Hour, m: Minute)
    requires id in st.activities && st.activities[id].assignedTo != user
    ensures UpdateActivity(st, id, p, user) == Err(NotFound)
    ensures CompleteActivity(st, id, user, now, h, m) == Err(NotFound)
    ensures RemoveActivity(st, id, user) == Err(NotFound)
  {
  }
}

=== FILE: schemas.dfy ===
/**
 The regular expressions of the Zod request schemas that the ordering and
 hierarchy services depend on, written as predicates over the characters
 of the string, and the `HH:MM` text `completeActivity` stores.
 */
module Schemas {
  import opened Strings

  type Hour = h: nat | h < 24
  type Minute = m: nat | m < 60

  /** `/^([0-1]?[0-9]|2[0-3]):[0-5][0-9]$/`, the sales activity time format. */
  predicate MatchesTime(s: string) {
    || (|s| == 4 && IsDigit(s[0]) && s[1] == ':' && '0' <= s[2] <= '5' && IsDigit(s[3]))
    || (&& |s| == 5
        && (('0' <= s[0] <= '1' && IsDigit(s[1])) || (s[0] == '2' && '0' <= s[1] <= '3'))
        && s[2] == ':' && '0' <= s[3] <= '5' && IsDigit(s[4]))
  }

  /** The two ways to write hour h and minute m that the time format is meant to admit. */
  ghost predicate IsTimeText(s: string, h: nat, m: nat) {
    && h < 24 && m < 60
    && (s == Pad2(h) + ":" + Pad2(m) || (h < 10 && s == [DigitChar(h)] + ":" + Pad2(m)))
  }

  /**
   The time format accepts exactly an hour 0-23, with or without a leading
   zero below 10, a colon, and a two-digit minute 00-59.
   */
  lemma MatchesTimeExactly(s: string)
    ensures MatchesTime(s) <==> exists h: nat, m: nat :: IsTimeText(s, h, m)
  {
    if MatchesTime(s) {
      var h, m := MatchedTimeReads(s);
    }
    if exists h: nat, m: nat :: IsTimeText(s, h, m) {
      var h: nat, m: nat :| IsTimeText(s, h, m);
      TimeTextMatches(s, h, m);
    }
  }

  /** A string the format accepts spells some hour and minute. */
  lemma MatchedTimeReads(s: string) returns (h: nat, m: nat)
    requires MatchesTime(s)
    ensures IsTimeText(s, h, m)
  {
    var k := |s| - 4;
    m := DigitValue(s[k + 2]) * 10 + DigitValue(s[k + 3]);
    assert s[k + 2..] == Pad2(m);
    if |s| == 4 {
      h := DigitValue(s[0]);
      assert s == [DigitChar(h)] + ":" + Pad2(m);
    } else {
      h := DigitValue(s[0]) * 10 + DigitValue(s[1]);
      assert s == Pad2(h) + ":" + Pad2(m);
    }
  }

  /** Every spelling of an hour and minute is accepted. */
  lemma TimeTextMatches(s: string, h: nat, m: nat)
    requires IsTimeText(s, h, m)
    ensures MatchesTime(s)
  {
    var p := Pad2(h);
    assert p[0] == DigitChar(h / 10);
  }

  /** Hour 24 is refused, and so is a one-digit minute. */
  lemma TimeFormatRejects()
    ensures !MatchesTime("24:00") && !MatchesTime("7:5")
    ensures MatchesTime("7:05") && MatchesTime("07:05") && MatchesTime("23:59")
  {
  }

  /** `now.toTimeString().slice(0, 5)`: the local hour and minute, each as two digits. */
  function CompletedTime(h: Hour, m: Minute): (s: string)
    ensures |s| == 5 && s[2] == ':'
    ensures MatchesTime(s)
  {
    var s := Pad2(h) + ":" + Pad2(m);
    assert s[0] == DigitChar(h / 10) && s[1] == DigitChar(h % 10);
    assert s[3] == DigitChar(m / 10);
    s
  }

  predicate IsUpperHexDigit(c: char) {
    IsDigit(c) || 'A' <= c <= 'F'
  }

  /**
   `/^#[0-9A-F]{6}$/i`, the sales stage colour. Under the `i` flag a
   character matches a class when its upper-case form does; no character
   outside ASCII upper-cases into 0-9 or A-F under that flag.
   */
  predicate SalesColor(s: string) {
    |s| == 7 && s[0] == '#' && forall i | 1 <= i < 7 :: IsUpperHexDigit(ToUpper(s[i]))
  }

  /** `/^#[0-9A-Fa-f]{6}$/`, the department colour. */
  predicate DepartmentColor(s: string) {
    |s| == 7 && s[0] == '#' && forall i | 1 <= i < 7 :: IsHexDigit(s[i])
  }

  /** The two colour formats accept the same strings. */
  lemma ColorFormatsAgree(s: string)
    ensures SalesColor(s) <==> DepartmentColor(s)
  {
    if |s| == 7 && s[0] == '#' {
      forall i | 1 <= i < 7
        ensures IsUpperHexDigit(ToUpper(s[i])) <==> IsHexDigit(s[i])
      {
        UpperHex(s[i]);
      }
    }
  }

  lemma UpperHex(c: char)
    ensures IsUpperHexDigit(ToUpper(c)) <==> IsHexDigit(c)
  {
  }
}

=== FILE: settings.dfy ===
/**
 The settings service: one settings row per user (the user id is the
 row's unique key), created with the table's column defaults the first
 time it is read, updated field by field, and reset to the defaults.

 The defaults are the parameter `defaults`. The row references its user:
 creating one for an unknown user makes the store raise (`StoreError`).
 */
module Settings {
  import opened Wrappers

  datatype PasswordPolicy = PolicyLow | PolicyMedium | PolicyHigh | PolicyStrict

  datatype Theme = Light | Dark | Auto

  datatype Language = PtBR | EnUS | EsES

  datatype BackupFrequency = Daily | Weekly | Monthly

  datatype UserSettings = UserSettings(
    emailNotifications: bool,
    pushNotifications: bool,
    smsNotifications: bool,
    marketingNotifications: bool,
    twoFactorAuth: bool,
    sessionTimeout: int,
    passwordPolicy: PasswordPolicy,
    theme: Theme,
    language: Language,
    timezone: string,
    autoSave: bool,
    dataRetention: int,
    backupFrequency: BackupFrequency)

  /** `UpdateSettingsSchema`: every field optional. */
  datatype SettingsPatch = SettingsPatch(
    emailNotifications: Option<bool>,
    pushNotifications: Option<bool>,
    smsNotifications: Option<bool>,
    marketingNotifications: Option<bool>,
    twoFactorAuth: Option<bool>,
    sessionTimeout: Option<int>,
    passwordPolicy: Option<PasswordPolicy>,
    theme: Option<Theme>,
    language: Option<Language>,
    timezone: Option<string>,
    autoSave: Option<bool>,
    dataRetention: Option<int>,
    backupFrequency: Option<BackupFrequency>)

  /** The settings rows, keyed by their user. */
  datatype State = State(users: set<Id>, rows: map<Id, UserSettings>)

  /** Every row belongs to an existing user. */
  predicate Valid(st: State) {
    st.rows.Keys <= st.users
  }

  /** The ranges `UpdateSettingsSchema` admits: a session of 5 to 480 minutes, data kept 30 to 730 days. */
  predicate InRange(s: UserSettings) {
    5 <= s.sessionTimeout <= 480 && 30 <= s.dataRetention <= 730
  }

  predicate PatchInRange(p: SettingsPatch) {
    && (p.sessionTimeout.Some? ==> 5 <= p.sessionTimeout.value <= 480)
    && (p.dataRetention.Some? ==> 30 <= p.dataRetention.value <= 730)
  }

  /** `update` with `data: dto`: the fields given replace the stored ones, the others stay. */
  function Apply(s: UserSettings, p: SettingsPatch): (r: UserSettings)
    ensures p.emailNotifications.Some? ==> r.emailNotifications == p.emailNotifications.value
    ensures p.emailNotifications.None? ==> r.emailNotifications == s.emailNotifications
    ensures p.pushNotifications.Some? ==> r.pushNotifications == p.pushNotifications.value
    ensures p.pushNotifications.None? ==> r.pushNotifications == s.pushNotifications
    ensures p.smsNotifications.Some? ==> r.smsNotifications == p.smsNotifications.value
    ensures p.smsNotifications.None? ==> r.smsNotifications == s.smsNotifications
    ensures p.marketingNotifications.Some? ==> r.marketingNotifications == p.marketingNotifications.value
    ensures p.marketingNotifications.None? ==> r.marketingNotifications == s.marketingNotifications
    ensures p.twoFactorAuth.Some? ==> r.twoFactorAuth == p.twoFactorAuth.value
    ensures p.twoFactorAuth.None? ==> r.twoFactorAuth == s.twoFactorAuth
    ensures p.sessionTimeout.Some? ==> r.sessionTimeout == p.sessionTimeout.value
    ensures p.sessionTimeout.None? ==> r.sessionTimeout == s.sessionTimeout
    ensures p.passwordPolicy.Some? ==> r.passwordPolicy == p.passwordPolicy.value
    ensures p.passwordPolicy.None? ==> r.passwordPolicy == s.passwordPolicy
    ensures p.theme.Some? ==> r.theme == p.theme.value
    ensures p.theme.None? ==> r.theme == s.theme
    ensures p.language.Some? ==> r.language == p.language.value
    ensures p.language.None? ==> r.language == s.language
    ensures p.timezone.Some? ==> r.timezone == p.timezone.value
    ensures p.timezone.None? ==> r.timezone == s.timezone
    ensures p.autoSave.Some? ==> r.autoSave == p.autoSave.value
    ensures p.autoSave.None? ==> r.autoSave == s.autoSave
    ensures p.dataRetention.Some? ==> r.dataRetention == p.dataRetention.value
    ensures p.dataRetention.None? ==> r.dataRetention == s.dataRetention
    ensures p.backupFrequency.Some? ==> r.backupFrequency == p.backupFrequency.value
    ensures p.backupFrequency.None? ==> r.backupFrequency == s.backupFrequency
  {
    UserSettings(
      p.emailNotifications.GetOr(s.emailNotifications),
      p.pushNotifications.GetOr(s.pushNotifications),
      p.smsNotifications.GetOr(s.smsNotifications),
      p.marketingNotifications.GetOr(s.marketingNotifications),
      p.twoFactorAuth.GetOr(s.twoFactorAuth),
      p.sessionTimeout.GetOr(s.sessionTimeout),
      p.passwordPolicy.GetOr(s.passwordPolicy),
      p.theme.GetOr(s.theme),
      p.language.GetOr(s.language),
      p.timezone.GetOr(s.timezone),
      p.autoSave.GetOr(s.autoSave),
      p.dataRetention.GetOr(s.dataRetention),
      p.backupFrequency.GetOr(s.backupFrequency))
  }

  const EmptyPatch := SettingsPatch(None, None, None, None, None, None, None, None, None, None, None, None, None)

  /** An empty update changes nothing, and applying one update twice is applying it once. */
  lemma ApplyLaws(s: UserSettings, p: SettingsPatch)
    ensures Apply(s, EmptyPatch) == s
    ensures Apply(Apply(s, p), p) == Apply(s, p)
  {
  }

  /** An update the schema admits keeps in-range settings in range. */
  lemma ApplyKeepsRange(s: UserSettings, p: SettingsPatch)
    requires InRange(s) && PatchInRange(p)
    ensures InRange(Apply(s, p))
  {
  }

  /**
   `getSettings`: the user's row when there is one, with nothing written;
   otherwise a new row with the defaults, or a store error for an unknown
   user.
   */
  function GetSettings(st: State, user: Id, defaults: UserSettings): (r: Result<(State, UserSettings)>)
    ensures user in st.rows ==> r == Ok((st, st.rows[user]))
    ensures user !in st.rows && user !in st.users ==> r == Err(StoreError)
    ensures user !in st.rows && user in st.users ==> r == Ok((st.(rows := st.rows[user := defaults]), defaults))
    ensures r.Ok? ==> user in r.value.0.rows && r.value.0.rows[user] == r.value.1 && r.value.0.users == st.users
    ensures r.Ok? ==> r.value.0.rows.Keys == st.rows.Keys + {user}
    ensures r.Ok? ==> forall u | u in st.rows :: r.value.0.rows[u] == st.rows[u]
  {
    if user in st.rows then Ok((st, st.rows[user]))
    else if user !in st.users then Err(StoreError)
    else Ok((st.(rows := st.rows[user := defaults]), defaults))
  }

  /** Reading twice writes at most once: the second read finds the row the first one left. */
  lemma GetSettingsTwice(st: State, user: Id, defaults: UserSettings)
    requires GetSettings(st, user, defaults).Ok?
    ensures var (st1, s1) := GetSettings(st, user, defaults).value;
            GetSettings(st1, user, defaults) == Ok((st1, s1))
  {
  }

  /**
   `updateSettings`: the row is first made to exist, then the patch is
   applied to it; no other user's row changes.
   */
  function UpdateSettings(st: State, user: Id, patch: SettingsPatch, defaults: UserSettings): (r: Result<(State, UserSettings)>)
    ensures r.Err? <==> GetSettings(st, user, defaults).Err?
    ensures r.Err? ==> r.error == StoreError
    ensures r.Ok? ==> && user in r.value.0.rows
                      && r.value.1 == r.value.0.rows[user]
                      && r.value.0.users == st.users
                      && r.value.0.rows.Keys == st.rows.Keys + {user}
                      && (forall u | u in st.rows && u != user :: r.value.0.rows[u] == st.rows[u])
    ensures r.Ok? && user in st.rows ==> r.value.1 == Apply(st.rows[user], patch)
    ensures r.Ok? && user !in st.rows ==> r.value.1 == Apply(defaults, patch)
  {
    var (st1, s) :- GetSettings(st, user, defaults);
    var s' := Apply(s, patch);
    Ok((st1.(rows := st1.rows[user := s']), s'))
  }

  /**
   `resetSettings`: the user's row (at most one, the key being unique) is
   deleted and a row with the defaults created; for an unknown user there
   is no row to delete and the creation fails.
   */
  function ResetSettings(st: State, user: Id, defaults: UserSettings): (r: Result<(State, UserSettings)>)
    ensures r.Err? <==> user !in st.users
    ensures r.Err? ==> r.error == StoreError
    ensures r.Ok? ==> && r.value.0.rows == st.rows[user := defaults]
                      && r.value.0.users == st.users
                      && r.value.1 == defaults
  {
    var cleared := st.rows - {user};
    if user !in st.users then Err(StoreError)
    else
      assert cleared[user := defaults] == st.rows[user := defaults];
      Ok((st.(rows := cleared[user := defaults]), defaults))
  }

  /** After a reset, whatever was updated before, reading gives the defaults without writing. */
  lemma ResetThenGet(st: State, user: Id, patch: SettingsPatch, defaults: UserSettings)
    requires Valid(st) && UpdateSettings(st, user, patch, defaults).Ok?
    ensures var st1 := UpdateSettings(st, user, patch, defaults).value.0;
            var st2 := ResetSettings(st1, user, defaults).value.0;
            GetSettings(st2, user, defaults) == Ok((st2, defaults))
  {
  }

  /** Every operation keeps each row tied to an existing user. */
  lemma OperationsKeepValid(st: State, user: Id, patch: SettingsPatch, defaults: UserSettings)
    requires Valid(st)
    ensures GetSettings(st, user, defaults).Ok? ==> Valid(GetSettings(st, user, defaults).value.0)
    ensures UpdateSettings(st, user, patch, defaults).Ok? ==> Valid(UpdateSettings(st, user, patch, defaults).value.0)
    ensures ResetSettings(st, user, defaults).Ok? ==> Valid(ResetSettings(st, user, defaults).value.0)
  {
  }

  /** With in-range defaults, every stored row stays in range under updates the schema admits. */
  lemma UpdateKeepsRange(st: State, user: Id, patch: SettingsPatch, defaults: UserSettings)
    requires InRange(defaults) && PatchInRange(patch)
    requires forall u | u in st.rows :: InRange(st.rows[u])
    requires UpdateSettings(st, user, patch, defaults).Ok?
    ensures var st1 := UpdateSettings(st, user, patch, defaults).value.0;
            forall u | u in st1.rows :: InRange(st1.rows[u])
  {
    var (st0, s) := GetSettings(st, user, defaults).value;
    ApplyKeepsRange(s, patch);
  }
}

=== FILE: strings.dfy ===
/**
 The JavaScript string and Node `Buffer` primitives the services rely on:
 `split` / `join` on one separator character, `trim`, substring search,
 hex encoding and decoding, two-digit padding, and the default ordering
 `Array.prototype.sort` uses for strings.
 */
module Strings {

  type byte = x: int | 0 <= x < 256

  // ---------------------------------------------------------------------
  // Characters
  // ---------------------------------------------------------------------

  predicate IsDigit(c: char) {
    '0' <= c <= '9'
  }

  function DigitChar(d: nat): (c: char)
    requires d < 10
    ensures IsDigit(c) && DigitValue(c) == d
  {
    ('0' as int + d) as char
  }

  function DigitValue(c: char): nat
    requires IsDigit(c)
  {
    (c as int - '0' as int) as nat
  }

  /** The number as two decimal digits, with a leading zero below 10 (`padStart(2, '0')`). */
  function Pad2(n: nat): (s: string)
    requires n < 100
    ensures |s| == 2 && IsDigit(s[0]) && IsDigit(s[1])
    ensures DigitValue(s[0]) * 10 + DigitValue(s[1]) == n
  {
    [DigitChar(n / 10), DigitChar(n % 10)]
  }

  predicate IsHexDigit(c: char) {
    IsDigit(c) || 'a' <= c <= 'f' || 'A' <= c <= 'F'
  }

  function HexValue(c: char): (v: nat)
    requires IsHexDigit(c)
    ensures v < 16
  {
    if IsDigit(c) then DigitValue(c)
    else if 'a' <= c <= 'f' then (c as int - 'a' as int + 10) as nat
    else (c as int - 'A' as int + 10) as nat
  }

  /** The lower-case hex digit Node writes for a nibble. */
  function HexChar(v: nat): (c: char)
    requires v < 16
    ensures IsHexDigit(c) && HexValue(c) == v
    ensures !('A' <= c <= 'Z')
  {
    if v < 10 then DigitChar(v) else ('a' as int + (v - 10)) as char
  }

  /** ASCII upper-casing: the case folding of a regular expression with the `i` flag, on ASCII. */
  function ToUpper(c: char): char {
    if 'a' <= c <= 'z' then (c as int - 32) as char else c
  }

  /** ASCII lower-casing. */
  function ToLower(c: char): char {
    if 'A' <= c <= 'Z' then (c as int + 32) as char else c
  }

  function Lower(s: string): (r: string)
    ensures |r| == |s|
    ensures forall i | 0 <= i < |s| :: r[i] == ToLower(s[i])
  {
    seq(|s|, i requires 0 <= i < |s| => ToLower(s[i]))
  }

  // ---------------------------------------------------------------------
  // split and join
  // ---------------------------------------------------------------------

  /** The number of occurrences of `c` in `s`. */
  function Count(s: string, c: char): nat {
    if |s| == 0 then 0 else (if s[0] == c then 1 else 0) + Count(s[1..], c)
  }

  /** `s.split(sep)` for a one-character separator: empty fields are kept. */
  function Split(s: string, sep: char): (parts: seq<string>)
    ensures |parts| >= 1
    decreases |s|
  {
    if |s| == 0 then [""]
    else
      var rest := Split(s[1..], sep);
      if s[0] == sep then [""] + rest
      else [[s[0]] + rest[0]] + rest[1..]
  }

  /** `parts.join(sep)`. */
  function Join(parts: seq<string>, sep: char): string
    requires |parts| >= 1
  {
    if |parts| == 1 then parts[0] else parts[0] + [sep] + Join(parts[1..], sep)
  }

  /** A one-character `split` yields one more field than there are separators. */
  lemma {:induction false} SplitCount(s: string, sep: char)
    ensures |Split(s, sep)| == Count(s, sep) + 1
    decreases |s|
  {
    if |s| > 0 {
      SplitCount(s[1..], sep);
    }
  }

  /** No field of a `split` contains the separator. */
  lemma {:induction false} SplitFieldsFree(s: string, sep: char)
    ensures forall i | 0 <= i < |Split(s, sep)| :: sep !in Split(s, sep)[i]
    decreases |s|
  {
    if |s| > 0 {
      SplitFieldsFree(s[1..], sep);
      var rest := Split(s[1..], sep);
      if s[0] != sep {
        assert forall i | 1 <= i < |rest| :: rest[1..][i - 1] == rest[i];
      }
    }
  }

  /** Joining the fields of a `split` gives the string back. */
  lemma {:induction false} JoinSplit(s: string, sep: char)
    ensures Join(Split(s, sep), sep) == s
    decreases |s|
  {
    if |s| > 0 {
      JoinSplit(s[1..], sep);
      var rest := Split(s[1..], sep);
      if s[0] != sep {
        if |rest| > 1 {
          assert rest == [rest[0]] + rest[1..];
          assert Join(rest, sep) == rest[0] + [sep] + Join(rest[1..], sep);
        }
      }
    }
  }

  /** Splitting a join of separator-free fields gives the fields back. */
  lemma {:induction false} SplitJoin(parts: seq<string>, sep: char)
    requires |parts| >= 1
    requires forall i | 0 <= i < |parts| :: sep !in parts[i]
    ensures Split(Join(parts, sep), sep) == parts
    decreases |parts|, |parts[0]|
  {
    if |parts[0]| > 0 {
      var p0 := parts[0];
      var tail := [p0[1..]] + parts[1..];
      assert p0 == [p0[0]] + p0[1..];
      assert forall i | 0 <= i < |tail| :: sep !in tail[i];
      SplitJoin(tail, sep);
      JoinCons(parts, sep);
      assert Join(parts, sep)[1..] == Join(tail, sep);
      assert Join(parts, sep)[0] == p0[0];
    } else if |parts| > 1 {
      SplitJoin(parts[1..], sep);
      assert Join(parts, sep) == [sep] + Join(parts[1..], sep);
      assert Join(parts, sep)[1..] == Join(parts[1..], sep);
    }
  }

  /** Dropping the first character of the first field of a join. */
  lemma JoinCons(parts: seq<string>, sep: char)
    requires |parts| >= 1 && |parts[0]| > 0
    ensures Join(parts, sep) == [parts[0][0]] + Join([parts[0][1..]] + parts[1..], sep)
  {
    var tail := [parts[0][1..]] + parts[1..];
    assert tail[1..] == parts[1..];
    assert parts[0] == [parts[0][0]] + parts[0][1..];
  }

  /** The two fields of a join of two separator-free strings. */
  lemma SplitPair(a: string, b: string, sep: char)
    requires sep !in a && sep !in b
    ensures Split(a + [sep] + b, sep) == [a, b]
  {
    SplitJoin([a, b], sep);
    assert Join([a, b], sep) == a + [sep] + Join([b], sep);
  }

  // ---------------------------------------------------------------------
  // trim
  // ---------------------------------------------------------------------

  /** ECMAScript WhiteSpace and LineTerminator code points: what `trim` removes. */
  predicate IsJsSpace(c: char) {
    || c == '\U{0009}' || c == '\U{000B}' || c == '\U{000C}' || c == '\U{0020}' || c == '\U{00A0}'
    || c == '\U{FEFF}' || c == '\U{1680}' || ('\U{2000}' <= c <= '\U{200A}') || c == '\U{202F}'
    || c == '\U{205F}' || c == '\U{3000}'
    || c == '\U{000A}' || c == '\U{000D}' || c == '\U{2028}' || c == '\U{2029}'
  }

  function TrimStart(s: string): (r: string)
    ensures |r| <= |s| && r == s[|s| - |r|..]
    ensures forall i | 0 <= i < |s| - |r| :: IsJsSpace(s[i])
    ensures |r| > 0 ==> !IsJsSpace(r[0])
  {
    if |s| > 0 && IsJsSpace(s[0]) then TrimStart(s[1..]) else s
  }

  function TrimEnd(s: string): (r: string)
    ensures |r| <= |s| && r == s[..|r|]
    ensures forall i | |r| <= i < |s| :: IsJsSpace(s[i])
    ensures |r| > 0 ==> !IsJsSpace(r[|r| - 1])
  {
    if |s| > 0 && IsJsSpace(s[|s| - 1]) then TrimEnd(s[..|s| - 1]) else s
  }

  /** `r` is `s[i..j]` and only white space lies outside it. */
  ghost predicate TrimmedSlice(s: string, r: string, i: int, j: int) {
    && 0 <= i <= j <= |s| && r == s[i..j]
    && (forall k | 0 <= k < i :: IsJsSpace(s[k]))
    && (forall k | j <= k < |s| :: IsJsSpace(s[k]))
  }

  /** `s.trim()`: the slice of `s` left after dropping white space at both ends. */
  function Trim(s: string): (r: string)
    ensures exists i, j :: TrimmedSlice(s, r, i, j)
    ensures |r| > 0 ==> !IsJsSpace(r[0]) && !IsJsSpace(r[|r| - 1])
  {
    var t := TrimStart(s);
    var r := TrimEnd(t);
    var i := |s| - |t|;
    assert TrimmedSlice(s, r, i, i + |r|) by {
      forall k | i + |r| <= k < |s| ensures IsJsSpace(s[k]) {
        assert s[k] == t[k - i];
      }
    }
    r
  }

  /** Trimming twice is trimming once. */
  lemma TrimIdempotent(s: string)
    ensures Trim(Trim(s)) == Trim(s)
  {
    var r := Trim(s);
    assert TrimStart(r) == r;
    assert TrimEnd(r) == r;
  }

  /** Trimming leaves nothing exactly when the string is all white space. */
  lemma TrimEmptyIffBlank(s: string)
    ensures Trim(s) == "" <==> forall k | 0 <= k < |s| :: IsJsSpace(s[k])
  {
    var r := Trim(s);
    var i, j :| TrimmedSlice(s, r, i, j);
    if r == "" {
      forall k | 0 <= k < |s| ensures IsJsSpace(s[k]) {
        if k >= i {
          assert j <= k;
        }
      }
    } else {
      assert r[0] == s[i];
    }
  }

  // ---------------------------------------------------------------------
  // Substrings
  // ---------------------------------------------------------------------

  /** `s.includes(t)`. */
  predicate Contains(s: string, t: string) {
    exists i | 0 <= i <= |s| - |t| :: OccursAt(s, t, i)
  }

  predicate OccursAt(s: string, t: string, i: int)
    requires 0 <= i <= |s| - |t|
  {
    s[i..i + |t|] == t
  }

  // ---------------------------------------------------------------------
  // Hex
  // ---------------------------------------------------------------------

  /** `buffer.toString('hex')`: two lower-case hex digits per byte. */
  function HexEncode(b: seq<byte>): (s: string)
    ensures |s| == 2 * |b|
    ensures forall i | 0 <= i < |s| :: IsHexDigit(s[i]) && s[i] != '.' && s[i] != '-'
  {
    if |b| == 0 then [] else [HexChar(b[0] / 16), HexChar(b[0] % 16)] + HexEncode(b[1..])
  }

  /**
   `Buffer.from(s, 'hex')`: pairs of hex digits are decoded from the start
   until the first pair that is not two hex digits; a trailing odd digit
   is dropped.
   */
  function HexDecode(s: string): (b: seq<byte>)
    ensures 2 * |b| <= |s|
  {
    if |s| < 2 || !IsHexDigit(s[0]) || !IsHexDigit(s[1]) then []
    else [HexValue(s[0]) * 16 + HexValue(s[1])] + HexDecode(s[2..])
  }

  /** Node decodes what it encodes. */
  lemma {:induction false} HexRoundTrip(b: seq<byte>)
    ensures HexDecode(HexEncode(b)) == b
  {
    if |b| > 0 {
      HexRoundTrip(b[1..]);
      var s := HexEncode(b);
      assert s[2..] == HexEncode(b[1..]);
    }
  }

  // ---------------------------------------------------------------------
  // String order and sorting
  // ---------------------------------------------------------------------

  /**
   The default order of `Array.prototype.sort` on strings: compare
   character by character, a proper prefix first.
   */
  predicate Below(a: string, b: string) {
    if |a| == 0 then |b| > 0
    else if |b| == 0 then false
    else if a[0] != b[0] then a[0] < b[0]
    else Below(a[1..], b[1..])
  }

  predicate AtMost(a: string, b: string) {
    a == b || Below(a, b)
  }

  lemma {:induction false} BelowIrreflexive(a: string)
    ensures !Below(a, a)
  {
    if |a| > 0 {
      BelowIrreflexive(a[1..]);
    }
  }

  /** Two different strings are ordered one way round. */
  lemma {:induction false} BelowTotal(a: string, b: string)
    requires a != b
    ensures Below(a, b) || Below(b, a)
  {
    if |a| > 0 && |b| > 0 && a[0] == b[0] {
      assert a == [a[0]] + a[1..] && b == [b[0]] + b[1..];
      BelowTotal(a[1..], b[1..]);
    }
  }

  lemma {:induction false} BelowAsymmetric(a: string, b: string)
    ensures !(Below(a, b) && Below(b, a))
  {
    if |a| > 0 && |b| > 0 && a[0] == b[0] {
      BelowAsymmetric(a[1..], b[1..]);
    }
  }

  lemma {:induction false} BelowTransitive(a: string, b: string, c: string)
    requires Below(a, b) && Below(b, c)
    ensures Below(a, c)
  {
    if |a| > 0 && a[0] == b[0] && b[0] == c[0] {
      BelowTransitive(a[1..], b[1..], c[1..]);
    }
  }

  ghost predicate Sorted(s: seq<string>) {
    forall i, j | 0 <= i < j < |s| :: AtMost(s[i], s[j])
  }

  function InsertSorted(x: string, s: seq<string>): (r: seq<string>)
    requires Sorted(s)
    ensures Sorted(r) && multiset(r) == multiset(s) + multiset{x}
  {
    if |s| == 0 then [x]
    else if AtMost(x, s[0]) then
      AtMostTransitiveHead(x, s);
      [x] + s
    else
      NotAtMostIsAbove(x, s[0]);
      var rest := InsertSorted(x, s[1..]);
      assert multiset(s) == multiset{s[0]} + multiset(s[1..]) by { assert s == [s[0]] + s[1..]; }
      PrependSorted(s[0], rest);
      [s[0]] + rest
  }

  lemma PrependSorted(y: string, rest: seq<string>)
    requires Sorted(rest) && forall z | z in multiset(rest) :: AtMost(y, z)
    ensures Sorted([y] + rest)
  {
    forall i | 0 <= i < |rest| ensures AtMost(y, rest[i]) {
      assert rest[i] in multiset(rest);
    }
  }

  lemma NotAtMostIsAbove(x: string, y: string)
    requires !AtMost(x, y)
    ensures Below(y, x)
  {
    BelowTotal(x, y);
  }

  lemma AtMostTransitiveHead(x: string, s: seq<string>)
    requires Sorted(s) && |s| > 0 && AtMost(x, s[0])
    ensures Sorted([x] + s)
  {
    forall j | 0 <= j < |s|
      ensures AtMost(x, s[j])
    {
      if x != s[0] && s[0] != s[j] {
        BelowTransitive(x, s[0], s[j]);
      }
    }
  }

  /** `ids.sort()` on strings. */
  function Sort(s: seq<string>): (r: seq<string>)
    ensures Sorted(r) && multiset(r) == multiset(s)
  {
    if |s| == 0 then []
    else
      assert s == [s[0]] + s[1..];
      InsertSorted(s[0], Sort(s[1..]))
  }

  /** Two sorted arrangements of the same strings are the same sequence. */
  lemma {:induction false} SortedUnique(a: seq<string>, b: seq<string>)
    requires Sorted(a) && Sorted(b) && multiset(a) == multiset(b)
    ensures a == b
    decreases |a|
  {
    if |a| > 0 {
      assert |b| == |multiset(b)| == |a|;
      assert a[0] in multiset(b) && b[0] in multiset(a);
      var i :| 0 <= i < |b| && b[i] == a[0];
      var j :| 0 <= j < |a| && a[j] == b[0];
      if a[0] != b[0] {
        assert AtMost(b[0], a[0]) && AtMost(a[0], b[0]);
        BelowAsymmetric(a[0], b[0]);
      }
      assert multiset(a) == multiset{a[0]} + multiset(a[1..]) by { assert a == [a[0]] + a[1..]; }
      assert multiset(b) == multiset{b[0]} + multiset(b[1..]) by { assert b == [b[0]] + b[1..]; }
      assert a[0] == b[0];
      assert multiset(a[1..]) == multiset(a) - multiset{a[0]};
      assert multiset(b[1..]) == multiset(b) - multiset{b[0]};
      SortedUnique(a[1..], b[1..]);
    }
  }

  /** Sorting does not depend on the order of its input. */
  lemma SortPermutationInvariant(a: seq<string>, b: seq<string>)
    requires multiset(a) == multiset(b)
    ensures Sort(a) == Sort(b)
  {
    SortedUnique(Sort(a), Sort(b));
  }
}

=== FILE: support.dfy ===
/**
 The support service: tickets that only their owner may read, change or
 delete, and the FAQ with its active filter, case-insensitive search,
 view counter and category list.

 Column defaults of the tables (a new ticket's status, a new FAQ's view
 count) are not part of this model; they are the parameters
 `initialStatus` and `initialViews`. Case-insensitive matching is modelled
 with ASCII case folding.
 */
module Support {
  import opened Wrappers
  import opened Counting
  import Strings
  import Pagination

  datatype TicketCategory = Technical | Billing | Feature | Other

  datatype Priority = Low | Medium | High | Critical

  datatype TicketStatus = Open | InProgress | Closed

  datatype Ticket = Ticket(
    subject: string,
    description: string,
    category: TicketCategory,
    priority: Priority,
    status: TicketStatus,
    owner: Id,
    assignedTo: Option<string>)

  datatype Faq = Faq(question: string, answer: string, category: string, views: nat, isActive: bool, position: int)

  datatype State = State(tickets: map<Id, Ticket>, faqs: map<Id, Faq>)

  /** `CreateTicketSchema`. */
  datatype TicketInput = TicketInput(subject: string, description: string, category: TicketCategory, priority: Option<Priority>)

  /** `UpdateTicketSchema`: every field optional. */
  datatype TicketPatch = TicketPatch(
    subject: Option<string>,
    description: Option<string>,
    category: Option<TicketCategory>,
    priority: Option<Priority>,
    status: Option<TicketStatus>,
    assignedTo: Option<string>)

  // ---------------------------------------------------------------------
  // Tickets
  // ---------------------------------------------------------------------

  /** `createTicket`: owned by the caller, priority MEDIUM unless given. */
  function CreateTicket(st: State, id: Id, input: TicketInput, user: Id, initialStatus: TicketStatus): (r: State)
    requires id !in st.tickets
    ensures r.faqs == st.faqs
    ensures r.tickets.Keys == st.tickets.Keys + {id}
    ensures forall t | t in st.tickets :: r.tickets[t] == st.tickets[t]
    ensures r.tickets[id].owner == user && r.tickets[id].status == initialStatus
    ensures input.priority.None? ==> r.tickets[id].priority == Medium
    ensures input.priority.Some? ==> r.tickets[id].priority == input.priority.value
  {
    var t := Ticket(input.subject, input.description, input.category, input.priority.GetOr(Medium), initialStatus, user, None);
    st.(tickets := st.tickets[id := t])
  }

  /** The caller's tickets. */
  function OwnedBy(st: State, user: Id): (ids: set<Id>)
    ensures forall t :: t in ids <==> t in st.tickets && st.tickets[t].owner == user
  {
    set t | t in st.tickets && st.tickets[t].owner == user
  }

  /** `findAllTickets`: a page of the caller's tickets (`listed`, newest first) and their count; no one else's. */
  function FindAllTickets(st: State, user: Id, listed: seq<Id>, q: Pagination.PageQuery): (r: (seq<Ticket>, Pagination.PageMeta))
    requires Lists(OwnedBy(st, user), listed) && Pagination.ValidQuery(q)
    ensures |r.0| <= q.limit
    ensures |r.0| == |Pagination.PageOf(listed, q)|
    ensures forall i | 0 <= i < |r.0| :: Pagination.Skip(q) + i < |listed| && r.0[i] == st.tickets[listed[Pagination.Skip(q) + i]]
    ensures forall i | 0 <= i < |r.0| :: r.0[i].owner == user
    ensures r.1.total == |OwnedBy(st, user)|
  {
    DistinctCard(listed);
    assert |OwnedBy(st, user)| == |listed|;
    var page := Pagination.PageOf(listed, q);
    assert forall i | 0 <= i < |page| :: page[i] in OwnedBy(st, user) by {
      forall i | 0 <= i < |page| ensures page[i] in OwnedBy(st, user) {
        assert page[i] == listed[Pagination.Skip(q) + i];
      }
    }
    var rows := seq(|page|, i requires 0 <= i < |page| => st.tickets[page[i]]);
    (rows, Pagination.MetaOf(|listed|, q))
  }

  /** The owner check of `findOneTicket`, `updateTicket` and `removeTicket`: NotFound, then Forbidden. */
  function FindOneTicket(st: State, id: Id, user: Id): (r: Result<Ticket>)
    ensures id !in st.tickets <==> r == Err(NotFound)
    ensures id in st.tickets && st.tickets[id].owner != user <==> r == Err(Forbidden)
    ensures r.Ok? ==> id in st.tickets && r.value == st.tickets[id] && r.value.owner == user
  {
    if id !in st.tickets then Err(NotFound)
    else if st.tickets[id].owner != user then Err(Forbidden)
    else Ok(st.tickets[id])
  }

  /** `updateTicket`: only the owner; the given fields replace the stored ones, and the owner stays. */
  function UpdateTicket(st: State, id: Id, patch: TicketPatch, user: Id): (r: Result<State>)
    ensures id !in st.tickets <==> r == Err(NotFound)
    ensures id in st.tickets && st.tickets[id].owner != user <==> r == Err(Forbidden)
    ensures r.Ok? ==> && r.value.faqs == st.faqs
                      && r.value.tickets.Keys == st.tickets.Keys
                      && (forall t | t in st.tickets && t != id :: r.value.tickets[t] == st.tickets[t])
                      && r.value.tickets[id].owner == user
                      && (patch.status.Some? ==> r.value.tickets[id].status == patch.status.value)
                      && (patch.status.None? ==> r.value.tickets[id].status == st.tickets[id].status)
                      && (patch.subject.Some? ==> r.value.tickets[id].subject == patch.subject.value)
                      && (patch.subject.None? ==> r.value.tickets[id].subject == st.tickets[id].subject)
                      && (patch.description.Some? ==> r.value.tickets[id].description == patch.description.value)
                      && (patch.description.None? ==> r.value.tickets[id].description == st.tickets[id].description)
                      && (patch.category.Some? ==> r.value.tickets[id].category == patch.category.value)
                      && (patch.category.None? ==> r.value.tickets[id].category == st.tickets[id].category)
                      && (patch.priority.Some? ==> r.value.tickets[id].priority == patch.priority.value)
                      && (patch.priority.None? ==> r.value.tickets[id].priority == st.tickets[id].priority)
                      && (patch.assignedTo.Some? ==> r.value.tickets[id].assignedTo == patch.assignedTo)
                      && (patch.assignedTo.None? ==> r.value.tickets[id].assignedTo == st.tickets[id].assignedTo)
  {
    var t :- FindOneTicket(st, id, user);
    var t' := t.(
      subject := patch.subject.GetOr(t.subject),
      description := patch.description.GetOr(t.description),
      category := patch.category.GetOr(t.category),
      priority := patch.priority.GetOr(t.priority),
      status := patch.status.GetOr(t.status),
      assignedTo := patch.assignedTo.Or(t.assignedTo));
    Ok(st.(tickets := st.tickets[id := t']))
  }

  /** `removeTicket`: only the owner; exactly that ticket goes. */
  function RemoveTicket(st: State, id: Id, user: Id): (r: Result<State>)
    ensures id !in st.tickets <==> r == Err(NotFound)
    ensures id in st.tickets && st.tickets[id].owner != user <==> r == Err(Forbidden)
    ensures r.Ok? ==> r.value == st.(tickets := st.tickets - {id})
  {
    var _ :- FindOneTicket(st, id, user);
    Ok(st.(tickets := st.tickets - {id}))
  }

  /** Another user's ticket can be neither read, changed nor deleted. */
  lemma OthersTicketsUntouchable(st: State, id: Id, user: Id, patch: TicketPatch)
    requires id in st.tickets && st.tickets[id].owner != user
    ensures FindOneTicket(st, id, user) == Err(Forbidden)
    ensures UpdateTicket(st, id, patch, user) == Err(Forbidden)
    ensures RemoveTicket(st, id, user) == Err(Forbidden)
  {
  }

  // ---------------------------------------------------------------------
  // FAQ
  // ---------------------------------------------------------------------

  /** `CreateFAQSchema`. */
  datatype FaqInput = FaqInput(question: string, answer: string, category: string, position: Option<int>, isActive: Option<bool>)

  /** `UpdateFAQSchema`: every field optional. */
  datatype FaqPatch = FaqPatch(
    question: Option<string>,
    answer: Option<string>,
    category: Option<string>,
    position: Option<int>,
    isActive: Option<bool>)

  /** `createFAQ`: active unless `isActive` is given, position 0 unless given. */
  function CreateFaq(st: State, id: Id, input: FaqInput, initialViews: nat): (r: State)
    requires id !in st.faqs
    ensures r.tickets == st.tickets
    ensures r.faqs.Keys == st.faqs.Keys + {id}
    ensures forall f | f in st.faqs :: r.faqs[f] == st.faqs[f]
    ensures r.faqs[id].isActive <==> input.isActive != Some(false)
    ensures r.faqs[id].position == if input.position.Some? then input.position.value else 0
    ensures r.faqs[id].category == input.category
  {
    var faq := Faq(input.question, input.answer, input.category, initialViews, input.isActive.GetOr(true), input.position.GetOr(0));
    st.(faqs := st.faqs[id := faq])
  }

  /** `contains` with `mode: 'insensitive'`. */
  predicate ContainsInsensitive(s: string, t: string) {
    Strings.Contains(Strings.Lower(s), Strings.Lower(t))
  }

  /**
   The `where` of `findAllFAQs`: active, in the category when one is given
   (an empty one counts as none), and containing the search text in the
   question or the answer when one is given.
   */
  predicate FaqMatches(faq: Faq, category: Option<string>, search: Option<string>) {
    && faq.isActive
    && (Present(category) ==> faq.category == category.value)
    && (Present(search) ==> ContainsInsensitive(faq.question, search.value) || ContainsInsensitive(faq.answer, search.value))
  }

  function MatchingFaqs(st: State, category: Option<string>, search: Option<string>): (ids: set<Id>)
    ensures forall f :: f in ids <==> f in st.faqs && FaqMatches(st.faqs[f], category, search)
  {
    set f | f in st.faqs && FaqMatches(st.faqs[f], category, search)
  }

  /** The search ignores case: two texts that fold to the same lower case select the same FAQs. */
  lemma SearchIgnoresCase(faq: Faq, category: Option<string>, s: string, t: string)
    requires Strings.Lower(s) == Strings.Lower(t) && |s| > 0
    ensures FaqMatches(faq, category, Some(s)) <==> FaqMatches(faq, category, Some(t))
  {
    assert |t| == |Strings.Lower(t)| == |Strings.Lower(s)| == |s|;
  }

  /** The empty text of the search box, or of the category, filters nothing. */
  lemma EmptyFiltersIgnored(faq: Faq)
    ensures FaqMatches(faq, Some(""), Some("")) <==> faq.isActive
  {
  }

  /**
   `findAllFAQs`: a page of the matching FAQs in the store's order
   (`listed`: position ascending, then newest first) and their count.
   */
  function FindAllFaqs(st: State, category: Option<string>, search: Option<string>, listed: seq<Id>, q: Pagination.PageQuery): (r: (seq<Faq>, Pagination.PageMeta))
    requires Lists(MatchingFaqs(st, category, search), listed) && Pagination.ValidQuery(q)
    ensures |r.0| <= q.limit
    ensures |r.0| == |Pagination.PageOf(listed, q)|
    ensures forall i | 0 <= i < |r.0| :: && Pagination.Skip(q) + i < |listed| && listed[Pagination.Skip(q) + i] in st.faqs
                                         && r.0[i] == st.faqs[listed[Pagination.Skip(q) + i]]
    ensures forall i | 0 <= i < |r.0| :: FaqMatches(r.0[i], category, search)
    ensures forall i | 0 <= i < |r.0| :: r.0[i].isActive
    ensures r.1.total == |MatchingFaqs(st, category, search)|
  {
    DistinctCard(listed);
    assert |MatchingFaqs(st, category, search)| == |listed|;
    var page := Pagination.PageOf(listed, q);
    assert forall i | 0 <= i < |page| :: page[i] in MatchingFaqs(st, category, search) by {
      forall i | 0 <= i < |page| ensures page[i] in MatchingFaqs(st, category, search) {
        assert page[i] == listed[Pagination.Skip(q) + i];
      }
    }
    (seq(|page|, i requires 0 <= i < |page| => st.faqs[page[i]]), Pagination.MetaOf(|listed|, q))
  }

  /**
   `findOneFAQ`: NotFound for an unknown id; otherwise the view counter
   goes up by one, and the FAQ as it was before is returned. An inactive
   FAQ is found too.
   */
  function FindOneFaq(st: State, id: Id): (r: Result<(State, Faq)>)
    ensures id !in st.faqs <==> r.Err?
    ensures r.Err? ==> r.error == NotFound
    ensures r.Ok? ==> && r.value.1 == st.faqs[id]
                      && r.value.0.tickets == st.tickets
                      && r.value.0.faqs == st.faqs[id := st.faqs[id].(views := st.faqs[id].views + 1)]
                      && r.value.0.faqs[id].views == r.value.1.views + 1
  {
    if id !in st.faqs then Err(NotFound)
    else Ok((st.(faqs := st.faqs[id := st.faqs[id].(views := st.faqs[id].views + 1)]), st.faqs[id]))
  }

  /** Each read counts: `n` reads of one FAQ raise its views by `n` and return the count before each read. */
  function ReadTimes(st: State, id: Id, n: nat): (r: State)
    requires id in st.faqs
    ensures id in r.faqs && r.faqs[id].views == st.faqs[id].views + n
    ensures r.faqs.Keys == st.faqs.Keys
    ensures forall f | f in st.faqs && f != id :: r.faqs[f] == st.faqs[f]
  {
    if n == 0 then st else FindOneFaq(ReadTimes(st, id, n - 1), id).value.0
  }

  /** `updateFAQ`: NotFound for an unknown id; otherwise the given fields replace the stored ones. */
  function UpdateFaq(st: State, id: Id, patch: FaqPatch): (r: Result<State>)
    ensures id !in st.faqs <==> r.Err?
    ensures r.Err? ==> r.error == NotFound
    ensures r.Ok? ==> && r.value.tickets == st.tickets
                      && r.value.faqs.Keys == st.faqs.Keys
                      && (forall f | f in st.faqs && f != id :: r.value.faqs[f] == st.faqs[f])
                      && r.value.faqs[id].views == st.faqs[id].views
                      && (patch.isActive.Some? ==> r.value.faqs[id].isActive == patch.isActive.value)
                      && (patch.isActive.None? ==> r.value.faqs[id].isActive == st.faqs[id].isActive)
                      && (patch.question.Some? ==> r.value.faqs[id].question == patch.question.value)
                      && (patch.question.None? ==> r.value.faqs[id].question == st.faqs[id].question)
                      && (patch.answer.Some? ==> r.value.faqs[id].answer == patch.answer.value)
                      && (patch.answer.None? ==> r.value.faqs[id].answer == st.faqs[id].answer)
                      && (patch.category.Some? ==> r.value.faqs[id].category == patch.category.value)
                      && (patch.category.None? ==> r.value.faqs[id].category == st.faqs[id].category)
                      && (patch.position.Some? ==> r.value.faqs[id].position == patch.position.value)
                      && (patch.position.None? ==> r.value.faqs[id].position == st.faqs[id].position)
  {
    if id !in st.faqs then Err(NotFound)
    else
      var f := st.faqs[id];
      var f' := f.(
        question := patch.question.GetOr(f.question),
        answer := patch.answer.GetOr(f.answer),
        category := patch.category.GetOr(f.category),
        position := patch.position.GetOr(f.position),
        isActive := patch.isActive.GetOr(f.isActive));
      Ok(st.(faqs := st.faqs[id := f']))
  }

  /** `removeFAQ`: NotFound for an unknown id; otherwise exactly that FAQ goes. */
  function RemoveFaq(st: State, id: Id): (r: Result<State>)
    ensures id !in st.faqs <==> r.Err?
    ensures r.Err? ==> r.error == NotFound
    ensures r.Ok? ==> r.value == st.(faqs := st.faqs - {id})
  {
    if id !in st.faqs then Err(NotFound) else Ok(st.(faqs := st.faqs - {id}))
  }

  /** The active FAQs. */
  function ActiveFaqs(st: State): (ids: set<Id>)
    ensures forall f :: f in ids <==> f in st.faqs && st.faqs[f].isActive
  {
    set f | f in st.faqs && st.faqs[f].isActive
  }

  /**
   `getFAQCategories`: `findMany` over the active FAQs (`listed`) with
   `distinct` on the category: each category of an active FAQ once, in the
   order first met.
   */
  function GetFaqCategories(st: State, listed: seq<Id>): (cs: seq<string>)
    requires Lists(ActiveFaqs(st), listed)
    ensures Distinct(cs)
    ensures forall c :: c in cs <==> exists f | f in st.faqs :: st.faqs[f].isActive && st.faqs[f].category == c
  {
    var categories := seq(|listed|, i requires 0 <= i < |listed| => st.faqs[listed[i]].category);
    forall c | exists f | f in st.faqs :: st.faqs[f].isActive && st.faqs[f].category == c ensures c in categories {
      var f :| f in st.faqs && st.faqs[f].isActive && st.faqs[f].category == c;
      var i :| 0 <= i < |listed| && listed[i] == f;
      assert categories[i] == c;
    }
    FirstSeen(categories)
  }
}

=== FILE: usermapper.dfy ===
/**
 `UserMapper`: the projections the auth service applies to a user object
 before it leaves the server. A user object is a record from key to
 value; a key the object lacks reads as `undefined`.
 */
module UserMapper {
  import opened Wrappers
  import Permissions

  /**
   A value of a user object: a string, `null`, `undefined`, or the role
   relation the services include, with its permissions.
   */
  datatype Field =
    | Text(text: string)
    | Null
    | Undefined
    | RoleObject(id: Id, name: string, description: Option<string>, permissions: seq<Permissions.Permission>)

  type Record = map<string, Field>

  /** The keys of `toPublicProfile`. */
  const ProfileKeys: set<string> := {"id", "email", "firstName", "lastName", "role", "avatar"}

  /** `excludePassword`: the object without its `password` key. */
  function ExcludePassword(m: Record): (r: Record)
    ensures "password" !in r
    ensures r.Keys == m.Keys - {"password"}
    ensures forall k | k in r :: r[k] == m[k]
  {
    map k | k in m && k != "password" :: m[k]
  }

  /** Dropping the password a second time changes nothing. */
  lemma ExcludePasswordIdempotent(m: Record)
    ensures ExcludePassword(ExcludePassword(m)) == ExcludePassword(m)
  {
    var once := ExcludePassword(m);
    assert ExcludePassword(once).Keys == once.Keys;
  }

  /** `toPublicProfile`: exactly the six public keys, each read from the object. */
  function ToPublicProfile(m: Record): (r: Record)
    ensures r.Keys == ProfileKeys
    ensures "password" !in r
    ensures forall k | k in r :: r[k] == if k in m then m[k] else Undefined
  {
    map k | k in ProfileKeys :: if k in m then m[k] else Undefined
  }

  /** The public profile does not depend on whether the password was dropped first. */
  lemma ProfileIgnoresPassword(m: Record)
    ensures ToPublicProfile(ExcludePassword(m)) == ToPublicProfile(m)
  {
    var a := ToPublicProfile(ExcludePassword(m));
    var b := ToPublicProfile(m);
    assert forall k | k in a :: a[k] == b[k];
  }

  datatype AuthResponse = AuthResponse(accessToken: string, user: Record)

  /** `toAuthResponse`: the token beside the public profile. */
  function ToAuthResponse(m: Record, accessToken: string): (r: AuthResponse)
    ensures r.accessToken == accessToken
    ensures r.user.Keys == ProfileKeys && "password" !in r.user
    ensures forall k | k in ProfileKeys && k in m :: r.user[k] == m[k]
  {
    AuthResponse(accessToken, ToPublicProfile(m))
  }
}

=== FILE: users.dfy ===
/**
 The users service: create, update and remove user rows, keeping e-mail
 addresses unique. The service checks uniqueness itself before writing;
 the table's unique index and the `roleId` foreign key stand behind it and
 raise `StoreError` on a write the service let through.
 */
module Users {
  import opened Wrappers
  import opened Accounts
  import Password
  import Strings

  /** `CreateUserSchema`. */
  datatype UserInput = UserInput(
    email: string,
    password: string,
    firstName: string,
    lastName: string,
    phone: Option<string>,
    avatar: Option<string>,
    role: Option<Id>)

  /** `UpdateUserSchema`: every field optional. */
  datatype UserPatch = UserPatch(
    email: Option<string>,
    firstName: Option<string>,
    lastName: Option<string>,
    phone: Option<string>,
    avatar: Option<string>,
    role: Option<Id>,
    status: Option<UserStatus>)

  /** The row `create` writes: the input with its password replaced by the stored hash. */
  function NewUser(input: UserInput, hashed: string): (u: User)
    ensures u.email == input.email && u.password == hashed && u.role == input.role
    ensures u.status == DefaultStatus
  {
    User(input.email, hashed, input.firstName, input.lastName, input.phone, input.avatar, DefaultStatus, input.role)
  }

  /**
   `create`: Conflict when any user holds the e-mail, checked before the
   password is hashed; a `roleId` naming no role fails in the store.
   */
  function Create(st: State, id: Id, input: UserInput, salt: seq<Strings.byte>, kdf: Password.Kdf): (r: Result<State>)
    requires id !in st.users && |salt| == Password.SaltLength
    ensures EmailTaken(st.users, input.email, None) <==> r == Err(Conflict)
    ensures r.Err? ==> r.error in {Conflict, StoreError}
    ensures r.Ok? ==> && r.value.roles == st.roles
                      && r.value.users.Keys == st.users.Keys + {id}
                      && r.value.users[id].email == input.email
                      && r.value.users[id].password == Password.Hash(input.password, salt, kdf)
                      && (forall u | u in st.users :: r.value.users[u] == st.users[u])
    ensures r.Ok? && EmailsUnique(st.users) ==> EmailsUnique(r.value.users)
    ensures r.Ok? && RoleRefsValid(st) ==> RoleRefsValid(r.value)
  {
    if EmailTaken(st.users, input.email, None) then Err(Conflict)
    else
      var hashed := Password.Hash(input.password, salt, kdf);
      if input.role.Some? && input.role.value !in st.roles then Err(StoreError)
      else Ok(st.(users := st.users[id := NewUser(input, hashed)]))
  }

  /** The row after a Prisma `update` with the patch: absent fields keep their value. */
  function Patched(u: User, p: UserPatch): (v: User)
    ensures v.password == u.password
    ensures p.email.None? ==> v.email == u.email
    ensures p.email.Some? ==> v.email == p.email.value
    ensures p.firstName.Some? ==> v.firstName == p.firstName.value
    ensures p.firstName.None? ==> v.firstName == u.firstName
    ensures p.lastName.Some? ==> v.lastName == p.lastName.value
    ensures p.lastName.None? ==> v.lastName == u.lastName
    ensures p.status.Some? ==> v.status == p.status.value
    ensures p.status.None? ==> v.status == u.status
    ensures p.phone.Some? ==> v.phone == p.phone
    ensures p.phone.None? ==> v.phone == u.phone
    ensures p.avatar.Some? ==> v.avatar == p.avatar
    ensures p.avatar.None? ==> v.avatar == u.avatar
    ensures p.role.Some? ==> v.role == p.role
    ensures p.role.None? ==> v.role == u.role
  {
    User(
      p.email.GetOr(u.email),
      u.password,
      p.firstName.GetOr(u.firstName),
      p.lastName.GetOr(u.lastName),
      p.phone.Or(u.phone),
      p.avatar.Or(u.avatar),
      p.status.GetOr(u.status),
      p.role.Or(u.role))
  }

  /**
   `update`: NotFound for an unknown id; Conflict when a non-empty new
   e-mail belongs to another user (keeping one's own e-mail is fine).
   What the service does not check, the store refuses: an empty e-mail
   another row already holds, or an unknown `roleId`.
   */
  function Update(st: State, id: Id, patch: UserPatch): (r: Result<State>)
    ensures id !in st.users <==> r == Err(NotFound)
    ensures id in st.users && Present(patch.email) && EmailTaken(st.users, patch.email.value, Some(id)) <==> r == Err(Conflict)
    ensures EmailsUnique(st.users) && id in st.users && patch.email == Some(st.users[id].email) ==> r != Err(Conflict)
    ensures r.Ok? ==> && r.value.roles == st.roles
                      && r.value.users == st.users[id := Patched(st.users[id], patch)]
    ensures r.Ok? && EmailsUnique(st.users) ==> EmailsUnique(r.value.users)
    ensures r.Ok? && RoleRefsValid(st) ==> RoleRefsValid(r.value)
  {
    if id !in st.users then Err(NotFound)
    else if Present(patch.email) && EmailTaken(st.users, patch.email.value, Some(id)) then Err(Conflict)
    else
      var u := Patched(st.users[id], patch);
      if EmailTaken(st.users, u.email, Some(id)) then Err(StoreError)
      else if patch.role.Some? && patch.role.value !in st.roles then Err(StoreError)
      else Ok(st.(users := st.users[id := u]))
  }

  /** The store raises StoreError on `update` only for an empty e-mail already held elsewhere or an unknown role. */
  lemma UpdateStoreErrorCauses(st: State, id: Id, patch: UserPatch)
    requires EmailsUnique(st.users) && Update(st, id, patch) == Err(StoreError)
    ensures || (patch.email == Some("") && EmailTaken(st.users, "", Some(id)))
            || (patch.role.Some? && patch.role.value !in st.roles)
  {
  }

  /** `remove`: NotFound for an unknown id; otherwise exactly that row goes. */
  function Remove(st: State, id: Id): (r: Result<State>)
    ensures id !in st.users <==> r.Err?
    ensures r.Err? ==> r.error == NotFound
    ensures r.Ok? ==> r.value.users.Keys == st.users.Keys - {id} && r.value.roles == st.roles
    ensures r.Ok? ==> forall u | u in r.value.users :: r.value.users[u] == st.users[u]
  {
    if id !in st.users then Err(NotFound)
    else Ok(st.(users := st.users - {id}))
  }
}

=== FILE: wrappers.dfy ===
/**
 This module holds the failure-compatible wrappers shared by every service model:
 `Option` for nullable values and `Result` for a service call that either
 returns a value or raises one of the HTTP exceptions the services throw.
 */
module Wrappers {

  /** A row id: the uuid string Prisma generates. */
  type Id = string

  /** A value that may be absent (`null` / `undefined` in the services). */
  datatype Option<+T> = None | Some(value: T) {

    predicate IsFailure() {
      None?
    }

    function PropagateFailure<U>(): Option<U>
      requires None?
    {
      None
    }

    function Extract(): T
      requires Some?
    {
      value
    }

    /** `x ?? default` */
    function GetOr(default: T): T {
      match this
      case Some(v) => v
      case None => default
    }

    /** A field of a Prisma `update`: `undefined` keeps the stored value. */
    function Or(stored: Option<T>): Option<T> {
      match this
      case Some(_) => this
      case None => stored
    }
  }

  /** JavaScript truthiness of an optional string: present and not the empty string. */
  predicate Present(o: Option<string>) {
    o.Some? && o.value != ""
  }

  /**
   The exceptions a service raises, named after the NestJS exception classes.
   `StoreError` stands for an error thrown by the database client itself
   (a missing row in `update`, a violated foreign key), which the global
   exception filter turns into a 500 response.
   */
  datatype Error =
    | NotFound
    | BadRequest
    | Forbidden
    | Conflict
    | Unauthorized
    | StoreError

  /** The HTTP status code of each exception class. */
  function StatusOf(e: Error): (code: nat)
    ensures 400 <= code <= 500
    ensures code == 500 <==> e == StoreError
  {
    match e
    case BadRequest => 400
    case Unauthorized => 401
    case Forbidden => 403
    case NotFound => 404
    case Conflict => 409
    case StoreError => 500
  }

  /** The outcome of a service call: a value, or the exception it raised. */
  datatype Result<+T> = Ok(value: T) | Err(error: Error) {

    predicate IsFailure() {
      Err?
    }

    function PropagateFailure<U>(): Result<U>
      requires Err?
    {
      Err(error)
    }

    function Extract(): T
      requires Ok?
    {
      value
    }
  }
}
